=== FILE: README.md ===
# classno record classes in Dafny

classno is a Python library for record classes. A class declares its fields as
annotations, chooses behaviour through a set of feature flags (EQ, ORDER, HASH, REPR,
SLOTS, FROZEN, PRIVATE, VALIDATION, LOSSY_AUTOCAST), and gets construction, per-write
processing, comparison and hashing from the library. This project models the library's
core and proves what it promises:

- **The shape matcher.** Two recursive walks of a declared type shape against a runtime
  value. `validate_value_hint` only accepts or rejects (`Validation`). `cast_value`
  converts lossily and rebuilds containers (`Casting` as specification functions,
  `Caster` as the looping methods the source runs). The laws are in `CastLaws`: union
  tie-breaks, the bool text vocabulary, tuple arity, plain-dict results and no implicit
  None. `CastFixpoints` shows how the two walks fit together: casting twice, cast results
  validating, and valid values being kept.
- **The field table and construction.** `field()` (`Fields`); the hooks `set_fields`,
  `set_keys`, `init_obj`, `validate_fields`, `cast_fields` and `process_obj_features` as
  specification functions (`Hooks`). The classes `Records.RecordClass` and
  `Records.Record` carry these out in place, including the `MetaClassno.__call__`
  construction sequence. The slots rewrite of a class namespace is `Slots`.
- **The per-write pipeline.** Private-name resolution, then the frozen guard, the lossy
  cast and validation in that order, then one store (`Pipeline`, run by
  `Records.Record.SetAttr`). The read-side private-name mapping is also in `Pipeline`.
- **Comparison and hashing.** Python's `<` on the values records compare (`Ordering`).
  `Dunders` covers the `_cmp_factory` dunders and the hash surrogate builder
  `make_hashable`. The flag presets and reserved names are in `Features`.

Values are a datatype covering None, bool, int, str, bytes, bytearray, the built-in
containers and instances of user classes. `isinstance` is mirrored by `Shapes.IsInstance`,
where a bool is also an int and the dict subclasses are dicts. Shapes are a closed
datatype, so no typing-module reflection is modelled. Exceptions are a datatype tagged
with the Python class and a reason, in place of message text. Foreign constructor calls
(`hint(value)`, `origin(items)`) are a `Converter` parameter, which returns the value built
or the exception raised, of any class. The
bool-text rule and the failure of `NoneType(value)` are spelled out.

`classno/constants.py` defines only six flags, yet the hooks and the write pipeline also
test VALIDATION, LOSSY_AUTOCAST and REPR. `Features.Feature` has all nine.

## Model

| member | source | states |
|---|---|---|
| Features.Presets | classno/constants.py:20-32 | NONE is empty; DEFAULT is exactly EQ and ORDER; IMMUTABLE is DEFAULT plus HASH, SLOTS and FROZEN, contains FROZEN, and has neither PRIVATE nor VALIDATION |
| Features.ReservedNames | classno/constants.py:9-17 | the reserved class attributes are five dunder names, the three key-tuple names among them |
| Fields.CheckDefault | classno/_fields.py:69-75 | a default is refused with a ValueError naming it iff it is a list, dict (any subclass), set or bytearray |
| Fields.NewField | classno/_fields.py:49-55 | a new Field has no name or hint, keeps default and factory as given, and turns metadata None into the empty mapping |
| Fields.MakeField | classno/_fields.py:7-46 | giving both defaults raises "cannot specify both" whatever the default is; otherwise only a present, mutable default raises; a MISSING default is never checked; success builds `NewField` |
| Fields.ImmutableDefaultsAccepted | classno/_fields.py:72-75 | text, numbers, None, tuples, frozensets and deques are accepted as defaults unchanged |
| Fields.FactoryAlwaysAccepted | classno/_fields.py:39-46 | a factory without a default is always accepted and stored |
| Fields.Lookup | classno/_setattrs.py:26-38 | the field found under a declared name is in the table and carries that name |
| Validation.ValidateUnion | classno/_validation.py:118-134 | from member `i` on, the union accepts iff some member accepts; a rejection is the bare TypeError |
| Validation.UnionAcceptsIffSomeMember | classno/_validation.py:118-134 | a union shape accepts a value iff at least one member accepts it, and otherwise fails with the bare TypeError |
| Validation.ContainerKindFirst | classno/_validation.py:153-173 | a value that is not an instance of a container shape's origin is rejected before any element is looked at |
| Validation.ValidateEach | classno/_validation.py:47-50 | every element is checked against the one shape: accepts iff every element accepts |
| Validation.CollectionElements | classno/_validation.py:47-50 | a list, set, frozenset or deque of the declared kind validates iff each of its elements does |
| Validation.ValidateZip | classno/_validation.py:64-65 | position-wise check: accepts iff every position from `i` on accepts against its own shape |
| Validation.TupleValidation | classno/_validation.py:53-65 | a fixed tuple of the wrong length is rejected; one of the right length validates iff each position does; `Tuple[T, ...]` validates iff every element does, at any length |
| Validation.CheckKeys | classno/_validation.py:39-41 | every key passes `isinstance` against the key shape |
| Validation.CheckInts | classno/_validation.py:32-34 | every value is an int (the one-argument Counter case) |
| Validation.MapValidation | classno/_validation.py:27-44 | a mapping with no type arguments accepts anything; keys are checked by direct class membership only, and a generic key shape is "not a type"; values are checked recursively, or as ints for a one-argument mapping |
| Validation.SelfRefByName | classno/_validation.py:96-115 | a self reference accepts exactly the values whose class name is the referenced name |
| Validation.UnknownOriginFallback | classno/_validation.py:174-180 | an origin without a handler checks elements when it is iterable and not text, and otherwise rejects with "no validation handler" |
| Casting.Rescue | classno/_casting.py:121-128 | a matching container member's cast succeeds or gives the value back iff it succeeded or raised a TypeError |
| Casting.UnionAttemptFacts | classno/_casting.py:130-143 | the attempt pass returns the cast to the first eligible member that does not raise a TypeError, and raises "cannot cast to any type in Union" iff every eligible member raises one |
| Casting.CastEach | classno/_casting.py:41-49 | a successful element walk has one result per element |
| Casting.CastEachPointwise | classno/_casting.py:41-49 | the element walk succeeds iff every element casts, and then holds each element's cast in place |
| Casting.CastEachFails | classno/_casting.py:41-49 | a failed element walk raises what the cast of some element raised |
| Casting.CastEachStops | classno/_casting.py:41-49 | once a prefix of the elements raises, the whole walk raises the same exception |
| Casting.CastEachSnoc | classno/_casting.py:44-45 | one more element appends its cast, or raises that element's exception |
| Casting.CastFrozen | classno/_casting.py:70-76 | a built frozenset has distinct, hashable members |
| Casting.CastFrozenSnoc | classno/_casting.py:74-75 | one more element adds its hashable cast; an unhashable cast raises TypeError; an element's exception stops the walk |
| Casting.CastFrozenStops | classno/_casting.py:70-76 | once a prefix raises, the frozenset walk raises the same exception |
| Casting.FrozenMembers | classno/_casting.py:70-76 | the members of a cast frozenset are exactly the casts of the source elements |
| Casting.FrozenMemberFrom | classno/_casting.py:70-76 | every member of a cast frozenset is the cast of some element |
| Casting.FrozenMemberIn | classno/_casting.py:70-76 | the cast of every element is a member of the cast frozenset |
| Casting.CastZip | classno/_casting.py:64-67 | a successful position-wise walk of `n` positions has `n` results |
| Casting.CastZipFacts | classno/_casting.py:64-67 | the position-wise walk succeeds iff each position casts to its own shape, and then holds those casts in order |
| Casting.CastZipAt | classno/_casting.py:64-67 | position `i` of a successful walk holds the cast of position `i` |
| Casting.CastZipStops | classno/_casting.py:64-67 | once a prefix of positions raises, the whole walk raises the same exception |
| Casting.CastEntries | classno/_casting.py:33-38 | a built dict has distinct, hashable keys, and no more entries than the source |
| Casting.CastEntriesStep | classno/_casting.py:33-38 | a successful walk of `n` entries is a successful walk of `n - 1` followed by `new_dict[key] = value` with both casts |
| Casting.CastEntriesSnoc | classno/_casting.py:33-38 | an entry whose key and value cast, with a hashable key, is stored by `new_dict[key] = value` |
| Casting.CastEntriesCovers | classno/_casting.py:33-38 | the built dict holds the cast of every source key |
| Casting.CastEntriesFrom | classno/_casting.py:33-38 | every entry of a built dict is the cast key and cast value of some source entry |
| Casting.CastEntriesStops | classno/_casting.py:33-38 | once a prefix of the entries raises, the whole walk raises the same exception |
| Caster.CastValue | classno/_casting.py:102-191 | the recursive dispatch returns exactly what `Casting.Cast` specifies, value or exception |
| Caster.CastUnionMembers | classno/_casting.py:106-143 | the None shortcut, the membership pass and the attempt pass, run as loops, give `Casting.CastUnion` |
| Caster.CastElements | classno/_casting.py:41-49 | the append loop over the elements gives `Casting.CastEach` |
| Caster.CastFrozenElements | classno/_casting.py:70-76 | the add loop over the elements gives `Casting.CastFrozen` |
| Caster.CastCollection | classno/_casting.py:41-49 | the list, set, frozenset and deque handlers give `Casting.CastSeq` |
| Caster.CastTupleValue | classno/_casting.py:52-67 | the tuple handler gives `Casting.CastTuple` |
| Caster.CastDictValue | classno/_casting.py:28-38 | the dict handler's fill loop gives `Casting.CastDict` |
| Caster.CastIntoOrigin | classno/_casting.py:179-183 | casting into a list and calling the origin gives `Casting.CastFallback` |
| CastLaws.ExistingOverPrims | classno/_casting.py:115-120 | over plain-class members the membership pass keeps the value iff a non-None member admits it |
| CastLaws.UnionKeepsMember | classno/_casting.py:115-120 | in a union of plain classes, a value that already is an instance of a non-None member comes back unchanged, whichever member that is (`True` into `int \| str` stays a bool) |
| CastLaws.UnionKeepsNone | classno/_casting.py:109-111 | None cast into a union that admits None is None |
| CastLaws.ExistingPasses | classno/_casting.py:115-128 | the membership pass walks past None, past plain classes the value is not an instance of, and past class origins that do not admit it |
| CastLaws.UnionKeepsFirstPrim | classno/_casting.py:115-120 | in any union, when the first member the value does not pass is a plain non-None class it is an instance of, the value comes back unchanged (`"42"` into `list[int] \| str` stays text) |
| CastLaws.UnionRaisesOnNonClass | classno/_casting.py:115-120 | a forward reference, nested union or non-class origin reached by the membership pass raises TypeError before any cast |
| CastLaws.UnionTriesInOrder | classno/_casting.py:130-143 | in any union, a value that passes every member is cast to the members in declared order, None only for None; the first cast that does not raise a TypeError wins, and "cannot cast to any type in Union" is raised iff all of them raise one |
| CastLaws.UnionContainerMember | classno/_casting.py:121-128 | in any union, the first member whose container origin admits the value decides: its cast, or the value unchanged when that cast raises a TypeError |
| CastLaws.ConstructorErrors | classno/_casting.py:146-162 | a plain class the value is not an instance of is called on it: its result is kept, its ValueError or TypeError becomes the caster's TypeError, and any other exception escapes unchanged |
| CastLaws.OriginErrorsEscape | classno/_casting.py:41-49 | an unknown iterable origin is called on the list of cast elements, and what it builds or raises, of whatever class, is the result |
| CastLaws.LowerIdempotent | classno/_casting.py:148-157 | lower-casing twice is lower-casing once |
| CastLaws.BoolFromText | classno/_casting.py:148-157 | text becomes True iff it lower-cases to true/1/yes, False iff to false/0/no/empty, raises otherwise, and letter case never matters |
| CastLaws.FixedTupleArity | classno/_casting.py:52-67 | a fixed tuple of the wrong length raises an arity TypeError; otherwise the cast succeeds iff each position casts, and yields a tuple of those casts |
| CastLaws.VariadicTuple | classno/_casting.py:55-60 | `Tuple[T, ...]` succeeds iff every element casts, and yields a tuple of their casts |
| CastLaws.MapCastIsPlainDict | classno/_casting.py:28-38 | a mapping without two type arguments raises ValueError and a value without `.items()` raises AttributeError; a success is a plain dict with distinct hashable keys, holding the cast of every source key, with each entry cast from a source entry |
| CastLaws.MapCastLosesKind | classno/_casting.py:28-38 | so a cast to defaultdict, OrderedDict or Counter is not an instance of that kind |
| CastLaws.NoImplicitNone | classno/_casting.py:187-191 | with constructors that build instances of their class, a cast that yields None started from None |
| CastFixpoints.PrimCastInstance | classno/_casting.py:146-162 | a successful cast to a plain class is an instance of it, and a cast to NoneType started from None |
| CastFixpoints.CastIdempotent | classno/_casting.py:102-191 | with a converter that builds instances of its class, casting a cast value again gives the same result, for every shape whose unions are unions of plain classes, optionals around one stable member, or plain classes mixed with one stable collection, tuple or plain-dict member of a different class |
| CastFixpoints.SeqIdempotent | classno/_casting.py:41-49 | a second cast of a cast list, set or deque changes nothing |
| CastFixpoints.FrozenIdempotent | classno/_casting.py:70-76 | a second cast of a cast frozenset changes nothing |
| CastFixpoints.VarTupleIdempotent | classno/_casting.py:55-60 | a second cast of a cast variadic tuple changes nothing |
| CastFixpoints.FixedTupleIdempotent | classno/_casting.py:61-67 | a second cast of a cast fixed tuple changes nothing |
| CastFixpoints.MapIdempotent | classno/_casting.py:28-38 | a second cast of a cast dict changes nothing |
| CastFixpoints.PrimUnionIdempotent | classno/_casting.py:106-143 | a second cast through a union of plain classes changes nothing |
| CastFixpoints.OptionalIdempotent | classno/_casting.py:106-143 | a second cast through an optional around one stable member changes nothing |
| CastFixpoints.MixedIdempotent | classno/_casting.py:106-143 | a second cast through a union of plain classes and one stable container apart from them (`int \| list[int] \| None`) changes nothing |
| CastFixpoints.MixedExisting | classno/_casting.py:112-126 | the membership pass over such a mixed union returns the value when a plain class other than None admits it, otherwise the rescued cast to the container when the container's origin admits it, otherwise finds nothing |
| CastFixpoints.MixedFirstCast | classno/_casting.py:106-133 | a cast through a mixed union that changed the value went through the container member, or built an instance of one of the plain classes |
| CastFixpoints.ContainerCastAdmits | classno/_casting.py:28-76 | a successful cast to a collection, tuple or plain-dict shape is an instance of that shape's origin |
| CastFixpoints.CastThenValidates | classno/_casting.py:102-191 | a cast result passes validation against the same shape, for shapes without unknown origins or containers inside unions |
| CastFixpoints.MapValidates | classno/_casting.py:28-38 | a dict cast with a plain-class key shape validates against the same shape |
| CastFixpoints.TupleValidates | classno/_casting.py:52-67 | a tuple cast validates against the same shape |
| CastFixpoints.ValidIsKept | classno/_casting.py:102-191 | a value that already validates, with sets and dict keys distinct and hashable and every dict a plain dict, is cast to itself: against plain classes, unions of them, unions of plain classes with one such container of a different class (optionals included), lists, deques, sets, frozensets and tuples of such shapes, and `dict[K, V]` with a class key |
| CastFixpoints.MixedKept | classno/_casting.py:106-128 | a union of plain classes and one keeping container apart from them keeps None when it lists None, keeps a value one of its plain classes admits, and keeps a valid container through the container member |
| CastFixpoints.FrozenSetKept | classno/_casting.py:70-76 | a valid frozenset whose elements are kept is rebuilt as the same frozenset, in the same order |
| CastFixpoints.DictKept | classno/_casting.py:28-38 | a valid plain dict with class keys and kept values is rebuilt entry for entry as the same dict |
| CastFixpoints.KeyKept | classno/_casting.py:115-120 | a key that isinstance() accepts against a class or a union of classes is kept by the cast |
| CastFixpoints.TwoContainersRecast | classno/_casting.py:121-128 | with two container members, `[1]` validates against `list[str] \| list[int]` yet is recast by the first member to `["1"]` |
| CastFixpoints.OneItemCast | classno/_casting.py:41-49 | a one-element iterable cast to `list[k]` is the list of the element's cast, or the element's exception |
| CastFixpoints.TwoContainersNotIdempotent | classno/_casting.py:121-133 | with two container members the cast is not idempotent even for a well-behaved converter: a tuple holding an object `int()` rejects and `str()` turns into "1" is cast into `list[int] \| list[str]` as `["1"]`, and `["1"]` cast again is `[1]` |
| Hooks.FieldNames | classno/_hooks.py:36-38 | the field names are exactly the annotated names outside the reserved ones |
| Hooks.FieldTableRefuses | classno/_hooks.py:40-41 | the table fails iff some annotated name has a mutable plain default, and then with that default's ValueError |
| Hooks.FieldTableNames | classno/_hooks.py:32-48 | the table holds one field per non-reserved annotation, in annotation order, each named and hinted from that annotation |
| Hooks.FieldTableDefaults | classno/_hooks.py:40-41 | a plain class attribute becomes the field's default with no factory; an unassigned annotation has neither |
| Hooks.FieldTableWellFormed | classno/_hooks.py:32-48 | annotations with distinct names give a well-formed table |
| Hooks.FieldTableStops | classno/_hooks.py:36-46 | once a prefix of the annotations fails, the whole table fails the same way |
| Hooks.DefaultKeys | classno/_hooks.py:51-55 | an empty key tuple becomes all field names in table order; a non-empty one is kept |
| Hooks.MissingNames | classno/_hooks.py:22-23 | the missing list names exactly the fields nothing supplies |
| Hooks.FactoryCalls | classno/_hooks.py:20-21 | the factories called are exactly those of fields with neither keyword argument nor default |
| Hooks.FilledOnlyFields | classno/_hooks.py:15 | keyword arguments that name no field are ignored: only field names are stored |
| Hooks.FilledByPrecedence | classno/_hooks.py:15-23 | a field is stored iff something supplies it and its factory, when called, does not raise, with keyword argument before default before factory |
| Hooks.FactoryStop | classno/_hooks.py:15-21 | construction stops at the first field whose factory is called and raises: no earlier factory raises, and the one at the stop does |
| Hooks.StoredBeforeStop | classno/_hooks.py:15-21 | the attributes stored by a construction that stops are exactly the supplied fields before the raising factory, with their highest-precedence values; no later field is stored |
| Hooks.FactoryCalledOnce | classno/_hooks.py:20-21 | no factory is called twice in one construction |
| Hooks.InitError | classno/_hooks.py:25-29 | the construction raises iff some field is missing, and then one TypeError listing every missing field |
| Hooks.InitRaised | classno/_hooks.py:20-29 | construction raises nothing iff every field is supplied and no called factory raises; a raising factory's exception wins, and the missing-fields TypeError is raised only when no factory raised |
| Hooks.Failing | classno/_validation.py:14-15 | the validation pass reads every field, so it fails to read iff some field was never stored |
| Hooks.FailingNames | classno/_validation.py:10-24 | the collected failures are exactly the fields whose value does not have the field's shape |
| Hooks.FailingMissing | classno/_validation.py:15 | a field that was never stored stops the pass with that field's AttributeError |
| Hooks.ValidationCollectsAll | classno/_validation.py:10-24 | every field is checked without stopping: nothing is raised iff every value validates, and otherwise one ValidationError naming exactly the failing fields |
| Hooks.ValidationNeedsStored | classno/_validation.py:14-15 | a field that was never stored makes the pass raise AttributeError before any ValidationError |
| Hooks.FailedAreFields | classno/_casting.py:10-25 | only field names are recorded as failed casts |
| Hooks.CastAllStops | classno/_casting.py:10-25 | once an exception other than TypeError escapes, the rest of the table is skipped |
| Hooks.CastAllWritesBack | classno/_casting.py:10-25 | when nothing escapes, each field holds its cast value or, after a TypeError, its old value; failed names exactly the fields whose cast raised TypeError; no other attribute changes |
| Hooks.CastAllField | classno/_casting.py:13-21 | field `i` holds its cast value or its old value, and is listed as failed iff its cast raised TypeError |
| Hooks.CastAllClean | classno/_casting.py:23-25 | the CastingError is raised iff some field's cast raised a TypeError |
| Hooks.CastAllEscapes | classno/_casting.py:10-25 | nothing escapes the pass iff every field is stored and every cast succeeds or raises a TypeError |
| Hooks.CastAllFrame | classno/_casting.py:10-25 | when nothing escapes, every field was stored and no attribute outside the table is added, removed or changed |
| Hooks.CastAllKeeps | classno/_casting.py:10-25 | the pass leaves an attribute outside the table as it was |
| Hooks.CastFirstAccepts | classno/_hooks.py:98-105 | casting first, with both flags, construction raises nothing when every cast succeeds into a shape the caster produces valid values for, and each field holds its cast value |
| Hooks.AllValid | classno/_validation.py:10-24 | a table whose every stored value validates passes the validation pass |
| Hooks.ValidateFirstRejectsCastable | classno/_hooks.py:98-105 | the hook as written raises ValidationError for `x: int = "5"`, where casting first stores 5 and raises nothing |
| Hooks.DictOf | classno/core.py:142-149 | `as_dict` is every field name with its current value in table order, or the first unreadable field's AttributeError |
| Hooks.Public | classno/core.py:161-162 | the kept pairs are exactly those whose name does not start with an underscore |
| Hooks.PublicConcat | classno/core.py:161-162 | the filter keeps order: the public pairs of `a + b` are those of `a` followed by those of `b` |
| Hooks.PublicSingle | classno/core.py:161-162 | a single pair is kept, once, exactly when its name does not start with an underscore |
| Hooks.KwargsOf | classno/core.py:151-163 | `as_kwargs` succeeds exactly when `as_dict` does; without PRIVATE its pairs are the `as_dict` pairs, with PRIVATE they are the `as_dict` pairs whose name does not start with an underscore |
| Hooks.KwargsSnoc | classno/core.py:151-163 | one more field appends its pair after those of the earlier fields, unless PRIVATE is set and its name is private, or raises its AttributeError when unreadable: the `as_kwargs` pairs are the `as_dict` pairs in table order, each once, with the private ones dropped |
| Records.RecordClass.SetFields | classno/_hooks.py:32-48 | the class's table becomes `Hooks.FieldTable` when every declaration is accepted, and is left alone with the first refused default raised otherwise |
| Records.RecordClass.SetKeys | classno/_hooks.py:51-55 | only the chosen key tuple changes, to `Hooks.DefaultKeys` of its old value |
| Records.RecordClass.SetEnabledKeys | classno/_hooks.py:51-55 | each key tuple whose flag is set is defaulted; the others and the table are unchanged |
| Records.Record.InitObj | classno/_hooks.py:12-29 | the object gains exactly the `Hooks.Filled` values of the fields before `Hooks.FactoryStop`, the factory calls are `Hooks.FactoryCalls` up to and including the raising one, and the error is `Hooks.InitRaised` |
| Records.Record.ValidateFields | classno/_validation.py:10-24 | reads every field and raises `Hooks.ValidationOutcome`, writing nothing |
| Records.Record.CastFields | classno/_casting.py:10-25 | the object's attributes and the raised exception are `Hooks.CastOutcome` of the old attributes |
| Records.Record.ProcessObjFeatures | classno/_hooks.py:98-105 | casts first, then validates, each only when its flag is set, as `Hooks.ObjFeatures` gives |
| Records.Record.Construct | classno/core.py:79-87 | the init hook, then the object-feature hook, then `__post__init__`, each only when the previous one raised nothing, with the state and exception each step gives (a raising factory included) |
| Records.Record.SetAttr | classno/_setattrs.py:56-66 | stores exactly the pair `Pipeline.Process` yields under its name, or stores nothing and raises its exception |
| Records.WriteThenRead | classno/_getattrs.py:4-8 | without PRIVATE, a stored write reads back under the name it was written to |
| Pipeline.PrivateName | classno/_setattrs.py:9-16 | a declared public name raises the private-write error; an underscore name whose bare form is undeclared raises "not found"; otherwise the first character is dropped, underscore or not |
| Pipeline.FrozenGuard | classno/_setattrs.py:19-22 | every write raises the frozen error naming the class |
| Pipeline.CastStage | classno/_setattrs.py:37-40 | the cast stage keeps the name and replaces the value with its cast, or raises the cast's exception; an undeclared name is a KeyError |
| Pipeline.ValidateStage | classno/_setattrs.py:25-34 | the pair passes unchanged iff the value validates; any mismatch becomes one TypeError naming the field |
| Pipeline.ResolvedName | classno/_setattrs.py:43-46 | the name stage is private-name resolution when PRIVATE is set and the identity otherwise: at most one runs |
| Pipeline.FrozenRefusesAll | classno/_setattrs.py:48-53 | a frozen object refuses every write, with the frozen error before any cast or validation when the name resolves |
| Pipeline.PrivateWriteRefused | classno/_setattrs.py:10-11 | with PRIVATE, a write to a field's public name is refused, frozen or not |
| Pipeline.CastThenValidate | classno/_setattrs.py:48-66 | with casting and validation, the write is stored iff the cast succeeds and the cast value validates, and then the cast value is stored under the resolved name |
| Pipeline.CastOnly | classno/_setattrs.py:37-40 | with casting alone, the stored pair is the resolved name and the cast value |
| Pipeline.ValidateOnly | classno/_setattrs.py:25-34 | with validation alone, the written value is stored unchanged or refused |
| Pipeline.Store | classno/core.py:125 | the final store succeeds iff the instance is not slotted or the name is declared; otherwise it raises AttributeError naming the attribute |
| Pipeline.PlainWrite | classno/_setattrs.py:56-66 | with no handler enabled, the value is stored under the resolved name, declared or not, except that a slotted instance refuses an undeclared name with AttributeError |
| Pipeline.SlottedStoresDeclared | classno/core.py:59-61 | whatever the flags, a slotted instance only ever stores declared names |
| Pipeline.HandlersKeepName | classno/_setattrs.py:62-64 | no handler renames: a stored pair carries the resolved name |
| Pipeline.PrivateReadName | classno/_getattrs.py:4-8 | `_x` reads field `x` when `x` is declared; every other name is read as it is |
| Pipeline.ReadAttr | classno/_getattrs.py:4-8 | a stored name reads its value; a missing name raises AttributeError, or goes through the private mapping when PRIVATE is set |
| Pipeline.PrivateWriteThenRead | classno/_getattrs.py:4-8 | after a private write of `_x` is stored, reading `x` and reading `_x` both give the stored value |
| Slots.CollectSlotsMoves | classno/core.py:44-57 | the walk collects exactly the non-reserved annotated names, removes exactly the ones the namespace defines, and records each removed entry as that name's default |
| Slots.SlotsOffUnchanged | classno/core.py:30-41 | without SLOTS on the class or any base, the namespace is unchanged |
| Slots.SlotsOnRewrites | classno/core.py:44-63 | with slots, other entries survive, collected defaults are gone, and `__slots__` and `_field_defaults` are set iff a name was collected and there was no `__slots__` yet |
| Slots.PrepareSlots | classno/core.py:10-65 | the namespace is rewritten in place exactly as `Slots.Prepared` gives |
| Slots.ClassView | classno/core.py:59-63 | once the class exists with the collected names as `__slots__`, each of those names reads as its slot descriptor |
| Slots.SlotsLoseDefault | classno/_hooks.py:40-41 | a slotted field with a plain default gets the slot descriptor as its field default, where the class without slots gives the declared value |
| Slots.FieldViewRestores | classno/core.py:54-63 | a lookup that reads moved defaults from `_field_defaults` sees every name but `__slots__` exactly as declared |
| Slots.SlotsKeepFieldTable | classno/_hooks.py:32-48 | through that lookup, `set_fields` builds the same field table as without slots |
| Ordering.Less | classno/_dunders.py:46-59 | numbers compare by value, a bool counting as 0 or 1; two lists, two tuples or two deques compare at their first differing element, else the shorter first; anything that cannot be compared raises TypeError |
| Ordering.LessIrreflexive | classno/_dunders.py:46-47 | no value is less than itself |
| Ordering.LessAsymmetric | classno/_dunders.py:46-47 | `x < y` and `y < x` never both hold |
| Ordering.TupleEquality | classno/_dunders.py:38-43 | key-tuple equality never raises and holds exactly for the same tuple |
| Ordering.TupleFlip | classno/_dunders.py:54-59 | `s > t` is `t < s` and `s >= t` is `t <= s`, errors included |
| Ordering.TupleLeIsLtOrEq | classno/_dunders.py:50-51 | `s <= t` is true for equal tuples and is `s < t` otherwise |
| Ordering.TupleIrreflexive | classno/_dunders.py:46-47 | no tuple is less than itself |
| Ordering.TupleAsymmetric | classno/_dunders.py:46-47 | `s < t` and `t < s` never both hold |
| Dunders.KeyValues | classno/_dunders.py:42-43 | the key tuple reads every key in order, or raises the first failed read |
| Dunders.OtherClassNotComparable | classno/_dunders.py:72-73 | an object of another exact class gives NotImplemented, whatever the keys |
| Dunders.EqualityIsKeyEquality | classno/_dunders.py:38-43 | two objects of one class are equal iff their eq-key values are the same |
| Dunders.GreaterIsFlippedLess | classno/_dunders.py:54-59 | `a > b` answers as `b < a` and `a >= b` as `b <= a` |
| Dunders.LessEqualIsLessOrSame | classno/_dunders.py:50-51 | `a <= b` is true when the order-key values are equal and is `a < b` otherwise |
| Dunders.LessIsAsymmetric | classno/_dunders.py:46-47 | if `a < b` then `b < a` is false |
| Dunders.LessIsIrreflexive | classno/_dunders.py:46-47 | `a < a` is false |
| Dunders.MakeHashable | classno/_dunders.py:14-33 | only dicts, lists and sets can fail to get a surrogate, and then with a TypeError |
| Dunders.DictSurrogate | classno/_dunders.py:16-21 | a dict stands for its `(key, surrogate)` items sorted by key, or raises TypeError when its keys cannot be sorted |
| Dunders.DictOrderIrrelevant | classno/_dunders.py:16-21 | two dicts with the same items, in any insertion order and of any kinds, have the same surrogate or raise the same TypeError |
| Dunders.DictValueFails | classno/_dunders.py:19-20 | a dict with a value that has no surrogate raises that TypeError |
| Dunders.SortItemsSorted | classno/_dunders.py:21 | items with pairwise different key ranks come out strictly sorted by key |
| Dunders.SortedIsUnique | classno/_dunders.py:21 | two strictly sorted item sequences with the same items are the same sequence |
| Dunders.ListSurrogate | classno/_dunders.py:22-24 | a list or set stands for the tuple of its elements' surrogates, in iteration order |
| Dunders.ScalarsAndOtherIterables | classno/_dunders.py:25-33 | text, bytes and non-iterables stand for themselves; a bytearray stands for the tuple of its byte values; a tuple, frozenset or deque stands for the tuple of its elements' surrogates in order, or for its text form when some element raises |
| Dunders.OtherIterableCongruent | classno/_dunders.py:25-30 | a tuple, frozenset or deque whose elements pairwise have the same surrogates has the same surrogate |
| Dunders.HashValue | classno/_dunders.py:35 | the hash tuple has exactly one surrogate per hash key, each of that key's value |
| Dunders.SameKeysSameHash | classno/_dunders.py:35 | objects whose hash keys read the same values have the same hash tuple |
| Dunders.EqualObjectsHashAlike | classno/_dunders.py:9-43 | when a class hashes on its eq keys, objects that compare equal have the same hash tuple |

## Left out

- Type-hint reflection is not modelled: no `typing.get_type_hints`, `get_origin` or `get_args`, and no inheritance of fields. A shape is a ready-made `Shapes.Shape` and the field table is an input.
- Foreign constructors are the `Converter` parameter, returning a value or an exception of any class (`Errors.Foreign` for classes the core never raises itself). These are `hint(value)` for a plain class, `origin(items)` for an unknown iterable origin, and `bool(value)` for non-text values. A field's `default_factory()` is likewise a parameter of construction that returns a value or an exception; nothing is assumed about which. Float conversion and truncation are floating point and are not modelled.
- Bare generic aliases without type arguments (`typing.List`, `typing.Set`, `typing.Deque`, `typing.FrozenSet`, an unsubscripted user generic) are not modelled: every `Shapes.SeqOf` and `Shapes.Other` carries an element shape. In the source, unpacking their empty argument tuple raises ValueError in validation and casting (`classno/_validation.py:48`, `:70`, `:77`; `classno/_casting.py:43`, `:72`, `:81`), even for an empty container.
- `Values.Lower` is ASCII lower-casing. Characters outside ASCII that `str.lower` would map into a bool word do not exist, so the bool-text rule is unaffected.
- Value equality is structural: `True == 1`, and set and dict equality that ignores order, are not modelled. A set or dict is a sequence in iteration order; that order is the order of insertion, not CPython's hash order.
- `Ordering.Less`: sets ordered by inclusion, and comparisons of user objects through their own `__lt__`, raise TypeError in the model.
- `Dunders.MakeHashable`: `sorted` is modelled for dict keys that are all numbers, all text or all bytes, compared by value. Other mixes, such as tuple keys, raise TypeError in the model where Python might sort them. The integer `hash()` produces is not modelled; the hash is the surrogate tuple.
- An origin without a handler is described only by its `Shapes.Origin` record: whether it is a class, which runtime classes are its instances, and whether it is iterable or textual. Its own `__iter__` is not run; a value is iterated as `Values.Iterate` says.
- Error message text is not modelled (it comes from `classno/_errors.py`). Exceptions carry a class and a reason tag.
- `process_cls_features`, `MetaClassno.__new__` and `classno/_feature_handlers.py` install the dunders by reflection. The model dispatches on the flag set directly: `Records.RecordClass.SetEnabledKeys`, `Dunders.Compare`, `Records.Record.SetAttr`.
- Attribute lookup does not fall back to class attributes. Objects hold only their stored attributes, so a failed lookup raises AttributeError.
- Attribute deletion (`classno/_delattrs.py`) is not modelled; on frozen objects it always raises, like `Pipeline.FrozenGuard`.
- Field records are values. `set_fields` mutates a `field(...)` object shared with the class attribute; that aliasing is not modelled.
- Under slots, the `_field_defaults` namespace entry is the separate `Slots.Namespace.fieldDefaults` field. As in the source, nothing reads it; see "## Findings".
- `Pipeline.Slotted` decides which writes a slotted instance refuses from the class's own flags and field table: SLOTS set and at least one field. SLOTS inherited from a base, an unslotted intermediate base (which gives instances a `__dict__`), and a class's own explicit `__slots__` are not modelled.
- `CastFixpoints.ValidIsKept` does not cover every valid value. Some exclusions are real failures of the property: a union with two container members can recast a value valid for a later member (`CastFixpoints.TwoContainersRecast`); a dict subclass is cast to a plain dict (`CastLaws.MapCastIsPlainDict`); a bare `Dict` or one-argument mapping accepts any dict while its cast raises ValueError; an unknown origin is rebuilt by its constructor; a forward reference validates by class name while its cast raises TypeError. Other exclusions are only not proved: a union mixing plain classes with a container whose class one of them also names (`list | list[int]`, `dict | dict[str, int]`). Values built outside Python's rules (a set with repeated elements) are excluded by `CastFixpoints.Settled`.
- `CastFixpoints.CastIdempotent` is proved only for unions of plain classes, optionals around one stable member, and plain classes mixed with one stable collection, tuple or plain-dict member of a different class. For a union with two or more container members the property is false: `CastFixpoints.TwoContainersNotIdempotent` casts a tuple into `list[int] | list[str]` as `["1"]` and then `["1"]` into `[1]`. Not proved either way: a union mixing a container with a plain class that names the same container class (`list | list[int]`), a union holding a `defaultdict`, `OrderedDict` or `Counter` member beside members other than None, and a union with an unknown-origin or forward-reference member beside anything but None.
- Positional constructor arguments are not modelled; `init_obj` reads only keyword arguments.
- `copy`, `deepcopy`, pickling, `__repr__` and the `__slots__` memory layout are not modelled.
- `classno/root.py` and `classno/_utils.py` are earlier drafts that the current modules supersede. They are not part of this model.

## Findings

| source | as written | input that shows it | evidently intended | confidence | as-written member | corrected member |
|---|---|---|---|---|---|---|
| classno/_hooks.py:98-105 | with VALIDATION and LOSSY_AUTOCAST, construction validates the raw values and only then casts them | a field `x: int`, constructed with `x="5"` and a converter that turns "5" into 5: ValidationError for `x` | cast first, then validate the cast values, as the write pipeline does (`classno/_setattrs.py:48-53`): `x` becomes 5 and nothing is raised | not executed | Hooks.ValidateFirstRejectsCastable | Hooks.CastFirstAccepts |
| classno/core.py:54-63 | under slots, a class-level default is moved into `_field_defaults`, which nothing reads; `set_fields` (`classno/_hooks.py:40-41`) then reads the class attribute, which is now the slot descriptor | `count: int = 0` on a class with SLOTS: the field's default becomes the `count` member descriptor, and `C().count` is that descriptor, not 0 | `set_fields` takes a moved default from `_field_defaults` (and treats a slot without one as having no default), so the field table is the one the class would have without slots | not executed | Slots.SlotsLoseDefault | Slots.SlotsKeepFieldTable |

=== FILE: cast_fixpoints.dfy ===
/**
 * How casting and validation fit together: a second cast changes nothing, a cast result
 * passes validation, and a value that already validates is left alone by the cast, each for
 * the family of shapes where the source's rules make it so.
 */
module CastFixpoints {
  import opened Wrappers
  import opened Values
  import opened Shapes
  import opened Errors
  import opened Casting
  import opened Validation
  import opened CastLaws

  /** Every member but one is None, and that one is a generic or a reference (`Optional[List[int]]`). */
  predicate OneMember(ms: seq<Shape>, j: nat) {
    j < |ms| && !ms[j].Union? && !ms[j].Prim? && forall l :: 0 <= l < |ms| && l != j ==> ms[l] == NoneShape
  }

  /**
   * The plain class `k` and the container `c` admit no common value: no isinstance() check
   * on a value of class `k` finds the origin of `c`.
   */
  predicate Apart(k: PrimKind, c: Shape) {
    match c
    case SeqOf(ck, _) => k != CollType(ck)
    case TupleVar(_) => k != CollType(Tuple)
    case TupleFixed(_) => k != CollType(Tuple)
    case MapOf(_, _) => !k.DictType?
    case _ => false
  }

  /**
   * One container member, a collection, tuple or plain `dict`, and every other member a
   * plain class apart from it (`int | list[int] | None`).
   */
  predicate MixedAt(ms: seq<Shape>, j: nat) {
    && j < |ms|
    && (ms[j].SeqOf? || ms[j].TupleVar? || ms[j].TupleFixed? || (ms[j].MapOf? && ms[j].mk == Dict))
    && forall l :: 0 <= l < |ms| && l != j ==> ms[l].Prim? && Apart(ms[l].kind, ms[j])
  }

  /**
   * Shapes whose cast is idempotent. Unions qualify when their members are plain classes,
   * when they are an optional around one stable shape, or when they mix plain classes with
   * one stable container apart from them; with two container members the second cast can
   * pick a different member than the first (`TwoContainersNotIdempotent`).
   */
  predicate Stable(s: Shape) {
    match s
    case Prim(_) => true
    case SelfRef(_) => true
    case Other(_, _) => true
    case SeqOf(_, e) => Stable(e)
    case TupleVar(e) => Stable(e)
    case TupleFixed(ts) => forall i :: 0 <= i < |ts| ==> Stable(ts[i])
    case MapOf(_, args) => args.KeyVal? ==> Stable(args.key) && Stable(args.val)
    case Union(ms) =>
      || AllPrim(ms)
      || (exists j :: 0 <= j < |ms| && OneMember(ms, j) && Stable(ms[j]))
      || (exists j :: 0 <= j < |ms| && MixedAt(ms, j) && Stable(ms[j]))
  }

  /** Shapes whose cast results always validate: no unknown origins, no container in a union. */
  predicate Validating(s: Shape) {
    match s
    case Prim(_) => true
    case SelfRef(_) => true
    case Other(_, _) => false
    case SeqOf(_, e) => Validating(e)
    case TupleVar(e) => Validating(e)
    case TupleFixed(ts) => forall i :: 0 <= i < |ts| ==> Validating(ts[i])
    case MapOf(mk, args) =>
      args.KeyVal? ==> mk == Dict && KeyShape(args.key) && Validating(args.val)
    case Union(ms) => AllPrim(ms)
  }

  /** A key shape isinstance() accepts: a class or a union of classes. */
  predicate KeyShape(k: Shape) {
    k.Prim? || (k.Union? && AllPrim(k.members))
  }

  /**
   * Shapes for which an already valid value is returned as it is: plain classes, unions of
   * them, unions of plain classes with one keeping container apart from them (optionals
   * included), the sequence kinds and tuples of keeping shapes, and `dict[K, V]` with a
   * class key.
   */
  predicate Keeps(s: Shape) {
    match s
    case Prim(_) => true
    case Union(ms) => AllPrim(ms) || exists j :: 0 <= j < |ms| && MixedAt(ms, j) && Keeps(ms[j])
    case SeqOf(_, e) => Keeps(e)
    case TupleVar(e) => Keeps(e)
    case TupleFixed(ts) => forall i :: 0 <= i < |ts| ==> Keeps(ts[i])
    case MapOf(mk, args) => mk == Dict && args.KeyVal? && KeyShape(args.key) && Keeps(args.val)
    case _ => false
  }

  /**
   * A value as Python builds it, all the way down: a set or frozenset holds distinct
   * hashable elements, a dict has distinct hashable keys; and every dict is a plain dict.
   */
  predicate Settled(v: Value) {
    match v
    case VColl(ck, xs) =>
      && ((ck == Set || ck == FrozenSet) ==> Distinct(xs) && AllHashable(xs))
      && forall i :: 0 <= i < |xs| ==> Settled(xs[i])
    case VDict(mk, es) =>
      && mk == Dict && Distinct(Keys(es)) && AllHashable(Keys(es))
      && forall i :: 0 <= i < |es| ==> Settled(es[i].0) && Settled(es[i].1)
    case _ => true
  }

  /** A successful cast to a plain class is an instance of it, and never via NoneType(). */
  lemma PrimCastInstance(conv: Converter, v: Value, k: PrimKind)
    requires WellBehaved(conv) && Cast(conv, v, Prim(k)).Ok?
    ensures IsInstance(Cast(conv, v, Prim(k)).value, k)
    ensures k == NoneType ==> v == VNone
  {
  }

  lemma {:induction false} EachFixed(conv: Converter, ys: seq<Value>, e: Shape)
    requires forall i :: 0 <= i < |ys| ==> Cast(conv, ys[i], e) == Ok(ys[i])
    ensures CastEach(conv, ys, e) == Ok(ys)
  {
    CastEachPointwise(conv, ys, e);
    var r := CastEach(conv, ys, e);
    assert r.Ok?;
    assert r.value == ys;
  }

  lemma {:induction false} SetOfDistinct(ys: seq<Value>)
    requires Distinct(ys)
    ensures SetOf(ys) == ys
    decreases |ys|
  {
    if ys != [] {
      var p := ys[..|ys| - 1];
      assert Distinct(p);
      SetOfDistinct(p);
      assert ys[|ys| - 1] !in p;
      assert p + [ys[|ys| - 1]] == ys;
    }
  }

  /** A prefix of a distinct sequence is distinct, holds only elements of the whole, and lacks the next element. */
  lemma DistinctPrefix(ys: seq<Value>, n: nat)
    requires Distinct(ys) && n < |ys|
    ensures Distinct(ys[..n]) && ys[n] !in ys[..n]
    ensures forall y | y in ys[..n] :: y in ys
  {
    var p := ys[..n];
    forall i, j | 0 <= i < j < |p| ensures p[i] != p[j] {
      assert p[i] == ys[i] && p[j] == ys[j];
    }
    forall i | 0 <= i < n ensures p[i] != ys[n] {
      assert p[i] == ys[i];
    }
  }

  lemma {:induction false} FrozenFixed(conv: Converter, ys: seq<Value>, e: Shape)
    requires Distinct(ys) && AllHashable(ys)
    requires forall y | y in ys :: Cast(conv, y, e) == Ok(y)
    ensures CastFrozen(conv, ys, e) == Ok(ys)
    decreases |ys|
  {
    if ys != [] {
      var n := |ys| - 1;
      DistinctPrefix(ys, n);
      FrozenFixed(conv, ys[..n], e);
      assert ys[n] in ys;
      FrozenStepFixed(conv, ys, e);
    }
  }

  /** Adding a new hashable element that casts to itself to a fixed prefix keeps the frozenset cast fixed. */
  lemma FrozenStepFixed(conv: Converter, ys: seq<Value>, e: Shape)
    requires ys != [] && Hashable(ys[|ys| - 1]) && ys[|ys| - 1] !in ys[..|ys| - 1]
    requires CastFrozen(conv, ys[..|ys| - 1], e) == Ok(ys[..|ys| - 1]) && Cast(conv, ys[|ys| - 1], e) == Ok(ys[|ys| - 1])
    ensures CastFrozen(conv, ys, e) == Ok(ys)
  {
    assert ys[..|ys| - 1] + [ys[|ys| - 1]] == ys;
  }

  lemma {:induction false} ZipFixed(conv: Converter, ys: seq<Value>, s: Shape, n: nat)
    requires s.TupleFixed? && |ys| == |s.elems| && n <= |ys|
    requires forall i :: 0 <= i < |ys| ==> Cast(conv, ys[i], s.elems[i]) == Ok(ys[i])
    ensures CastZip(conv, ys, s, n) == Ok(ys[..n])
  {
    if n > 0 {
      ZipFixed(conv, ys, s, n - 1);
      assert ys[..n - 1] + [ys[n - 1]] == ys[..n];
    }
  }

  /** The key of entry `n - 1` of a dict is hashable and absent from the entries before it. */
  lemma NextKeyFresh(es: seq<(Value, Value)>, n: nat)
    requires Distinct(Keys(es)) && AllHashable(Keys(es)) && 0 < n <= |es|
    ensures es[n - 1].0 !in Keys(es[..n - 1]) && Hashable(es[n - 1].0)
    ensures es[..n - 1] + [es[n - 1]] == es[..n]
  {
    var p := es[..n - 1];
    assert es[n - 1].0 == Keys(es)[n - 1];
    forall i | 0 <= i < |p| ensures Keys(p)[i] != es[n - 1].0 {
      assert Keys(p)[i] == Keys(es)[i];
    }
    assert Keys(es)[n - 1] in Keys(es);
  }

  /** The first `n` entries each have a key and a value that cast to themselves. */
  predicate EntriesKept(conv: Converter, es: seq<(Value, Value)>, s: Shape, n: nat)
    requires s.MapOf? && s.args.KeyVal? && n <= |es|
    decreases n
  {
    n == 0 || (EntriesKept(conv, es, s, n - 1) && Cast(conv, es[n - 1].0, s.args.key) == Ok(es[n - 1].0) && Cast(conv, es[n - 1].1, s.args.val) == Ok(es[n - 1].1))
  }

  lemma {:induction false} EntriesKeptAll(conv: Converter, es: seq<(Value, Value)>, s: Shape, n: nat)
    requires s.MapOf? && s.args.KeyVal? && n <= |es|
    requires forall i :: 0 <= i < n ==> Cast(conv, es[i].0, s.args.key) == Ok(es[i].0) && Cast(conv, es[i].1, s.args.val) == Ok(es[i].1)
    ensures EntriesKept(conv, es, s, n)
    decreases n
  {
    if n > 0 {
      EntriesKeptAll(conv, es, s, n - 1);
    }
  }

  lemma {:induction false} EntriesFixed(conv: Converter, es: seq<(Value, Value)>, s: Shape, n: nat)
    requires s.MapOf? && s.args.KeyVal? && n <= |es|
    requires Distinct(Keys(es)) && AllHashable(Keys(es))
    requires EntriesKept(conv, es, s, n)
    ensures CastEntries(conv, es, s, n) == Ok(es[..n])
  {
    if n > 0 {
      EntriesFixed(conv, es, s, n - 1);
      NextKeyFresh(es, n);
      EntryFixed(conv, es, s, n);
    }
  }

  /** An entry whose key and value are both kept, under a fresh hashable key, is appended as it is. */
  lemma EntryFixed(conv: Converter, es: seq<(Value, Value)>, s: Shape, n: nat)
    requires s.MapOf? && s.args.KeyVal? && 0 < n <= |es|
    requires CastEntries(conv, es, s, n - 1) == Ok(es[..n - 1])
    requires Cast(conv, es[n - 1].0, s.args.key) == Ok(es[n - 1].0) && Cast(conv, es[n - 1].1, s.args.val) == Ok(es[n - 1].1)
    requires es[n - 1].0 !in Keys(es[..n - 1]) && Hashable(es[n - 1].0)
    requires es[..n - 1] + [es[n - 1]] == es[..n]
    ensures CastEntries(conv, es, s, n) == Ok(es[..n])
  {
    CastEntriesSnoc(conv, es, s, n);
    assert DictSet(es[..n - 1], es[n - 1].0, es[n - 1].1) == es[..n - 1] + [es[n - 1]];
  }

  /**
   * Casting a cast value again gives the same value, for stable shapes and constructors
   * that build instances of their class.
   */
  lemma {:induction false} CastIdempotent(conv: Converter, v: Value, s: Shape)
    requires WellBehaved(conv) && Stable(s) && Cast(conv, v, s).Ok?
    ensures Cast(conv, Cast(conv, v, s).value, s) == Cast(conv, v, s)
    decreases s, 2
  {
    var w := Cast(conv, v, s).value;
    match s
    case Prim(k) =>
      PrimCastInstance(conv, v, k);
    case SelfRef(_) =>
    case Other(_, _) =>
    case SeqOf(_, _) =>
      SeqIdempotent(conv, v, s);
    case TupleVar(_) =>
      VarTupleIdempotent(conv, v, s);
    case TupleFixed(_) =>
      FixedTupleIdempotent(conv, v, s);
    case MapOf(_, _) =>
      MapIdempotent(conv, v, s);
    case Union(ms) =>
      if w != v {
        if AllPrim(ms) {
          PrimUnionIdempotent(conv, v, ms);
        } else {
          if j :| 0 <= j < |ms| && OneMember(ms, j) && Stable(ms[j]) {
            OptionalIdempotent(conv, v, s, j);
          } else {
            var j :| 0 <= j < |ms| && MixedAt(ms, j) && Stable(ms[j]);
            MixedIdempotent(conv, v, s, j);
          }
        }
      }
  }

  lemma {:induction false} SeqIdempotent(conv: Converter, v: Value, s: Shape)
    requires WellBehaved(conv) && s.SeqOf? && Stable(s) && Cast(conv, v, s).Ok?
    ensures Cast(conv, Cast(conv, v, s).value, s) == Cast(conv, v, s)
    decreases s, 1
  {
    if s.sk == FrozenSet {
      FrozenIdempotent(conv, v, s);
    } else {
      FlatIdempotent(conv, v, s);
    }
  }

  lemma {:induction false} FrozenIdempotent(conv: Converter, v: Value, s: Shape)
    requires WellBehaved(conv) && s.SeqOf? && s.sk == FrozenSet && Stable(s) && Cast(conv, v, s).Ok?
    ensures Cast(conv, Cast(conv, v, s).value, s) == Cast(conv, v, s)
    decreases s, 0
  {
    SeqCastOf(conv, v, s);
    var xs := Iterate(v).value;
    var e := s.elem;
    var acc := CastFrozen(conv, xs, e).value;
    forall y | y in acc ensures Cast(conv, y, e) == Ok(y) {
      FrozenMemberFixed(conv, xs, e, y);
    }
    FrozenFixed(conv, acc, e);
    SeqCastOf(conv, VColl(FrozenSet, acc), s);
  }

  /** A member of a cast frozenset is the cast of an element, so casting it again leaves it as it is. */
  lemma {:induction false} FrozenMemberFixed(conv: Converter, xs: seq<Value>, e: Shape, y: Value)
    requires WellBehaved(conv) && Stable(e) && CastFrozen(conv, xs, e).Ok? && y in CastFrozen(conv, xs, e).value
    ensures Cast(conv, y, e) == Ok(y)
    decreases e, 3
  {
    FrozenMemberFrom(conv, xs, e, y);
    var i :| 0 <= i < |xs| && Cast(conv, xs[i], e) == Ok(y);
    CastIdempotent(conv, xs[i], e);
  }

  lemma {:induction false} FlatIdempotent(conv: Converter, v: Value, s: Shape)
    requires WellBehaved(conv) && s.SeqOf? && s.sk != FrozenSet && Stable(s) && Cast(conv, v, s).Ok?
    ensures Cast(conv, Cast(conv, v, s).value, s) == Cast(conv, v, s)
    decreases s, 0
  {
    SeqCastOf(conv, v, s);
    var xs := Iterate(v).value;
    var e := s.elem;
    ElementsIdempotent(conv, xs, e);
    var ys := CastEach(conv, xs, e).value;
    if s.sk == Set {
      SetIdempotent(conv, ys, e);
      SeqCastOf(conv, VColl(Set, SetOf(ys)), s);
    } else {
      EachFixed(conv, ys, e);
      SeqCastOf(conv, VColl(s.sk, ys), s);
    }
  }

  lemma {:induction false} ElementsIdempotent(conv: Converter, xs: seq<Value>, e: Shape)
    requires WellBehaved(conv) && Stable(e) && CastEach(conv, xs, e).Ok?
    ensures forall i :: 0 <= i < |xs| ==>
      Cast(conv, CastEach(conv, xs, e).value[i], e) == Ok(CastEach(conv, xs, e).value[i])
    decreases e, 3
  {
    CastEachPointwise(conv, xs, e);
    var ys := CastEach(conv, xs, e).value;
    forall i | 0 <= i < |ys| ensures Cast(conv, ys[i], e) == Ok(ys[i]) {
      CastIdempotent(conv, xs[i], e);
    }
  }

  /** One step of the collection handler, with the element walk left folded. */
  lemma SeqCastOf(conv: Converter, v: Value, s: Shape)
    requires s.SeqOf?
    ensures Cast(conv, v, s) == CastSeq(conv, v, s)
    ensures Iterate(v).Some? && s.sk == FrozenSet ==>
      Cast(conv, v, s) == match CastFrozen(conv, Iterate(v).value, s.elem)
        case Err(x) => Err(x)
        case Ok(acc) => Ok(VColl(FrozenSet, acc))
    ensures Iterate(v).Some? && s.sk != FrozenSet ==>
      Cast(conv, v, s) == match CastEach(conv, Iterate(v).value, s.elem)
        case Err(x) => Err(x)
        case Ok(ys) =>
          if s.sk != Set then Ok(VColl(s.sk, ys))
          else if AllHashable(ys) then Ok(VColl(Set, SetOf(ys)))
          else Err(TypeError(Unhashable))
    ensures Iterate(v).None? ==> Cast(conv, v, s) == Err(TypeError(NotIterable))
  {
  }

  lemma SetIdempotent(conv: Converter, ys: seq<Value>, e: Shape)
    requires forall i :: 0 <= i < |ys| ==> Cast(conv, ys[i], e) == Ok(ys[i])
    requires AllHashable(ys)
    ensures CastEach(conv, SetOf(ys), e) == Ok(SetOf(ys)) && AllHashable(SetOf(ys)) && SetOf(SetOf(ys)) == SetOf(ys)
  {
    var zs := SetOf(ys);
    forall i | 0 <= i < |zs| ensures Cast(conv, zs[i], e) == Ok(zs[i]) {
      assert zs[i] in ys;
    }
    EachFixed(conv, zs, e);
    SetOfDistinct(zs);
    assert AllHashable(zs) by {
      forall z | z in zs ensures Hashable(z) {
        assert z in ys;
      }
    }
  }

  lemma {:induction false} VarTupleIdempotent(conv: Converter, v: Value, s: Shape)
    requires WellBehaved(conv) && s.TupleVar? && Stable(s) && Cast(conv, v, s).Ok?
    ensures Cast(conv, Cast(conv, v, s).value, s) == Cast(conv, v, s)
    decreases s, 1
  {
    TupleCastOf(conv, v, s);
    var xs := Iterate(v).value;
    ElementsIdempotent(conv, xs, s.elem);
    var ys := CastEach(conv, xs, s.elem).value;
    EachFixed(conv, ys, s.elem);
    TupleCastOf(conv, VColl(Tuple, ys), s);
  }

  lemma {:induction false} FixedTupleIdempotent(conv: Converter, v: Value, s: Shape)
    requires WellBehaved(conv) && s.TupleFixed? && Stable(s) && Cast(conv, v, s).Ok?
    ensures Cast(conv, Cast(conv, v, s).value, s) == Cast(conv, v, s)
    decreases s, 1
  {
    TupleCastOf(conv, v, s);
    var xs := Iterate(v).value;
    PositionsIdempotent(conv, xs, s);
    var ys := CastZip(conv, xs, s, |xs|).value;
    ZipFixed(conv, ys, s, |ys|);
    assert ys[..|ys|] == ys;
    TupleCastOf(conv, VColl(Tuple, ys), s);
  }

  lemma {:induction false} PositionsIdempotent(conv: Converter, xs: seq<Value>, s: Shape)
    requires WellBehaved(conv) && s.TupleFixed? && Stable(s) && |xs| == |s.elems|
    requires CastZip(conv, xs, s, |xs|).Ok?
    ensures forall i :: 0 <= i < |xs| ==>
      Cast(conv, CastZip(conv, xs, s, |xs|).value[i], s.elems[i]) == Ok(CastZip(conv, xs, s, |xs|).value[i])
    decreases s, 0
  {
    var ys := CastZip(conv, xs, s, |xs|).value;
    forall i | 0 <= i < |ys| ensures Cast(conv, ys[i], s.elems[i]) == Ok(ys[i]) {
      CastZipAt(conv, xs, s, |xs|, i);
      CastIdempotent(conv, xs[i], s.elems[i]);
    }
  }

  /** One step of the tuple handler, with the element walk left folded. */
  lemma TupleCastOf(conv: Converter, v: Value, s: Shape)
    requires s.TupleVar? || s.TupleFixed?
    ensures Cast(conv, v, s) == CastTuple(conv, v, s)
    ensures Iterate(v).Some? && s.TupleVar? ==>
      Cast(conv, v, s) == match CastEach(conv, Iterate(v).value, s.elem)
        case Err(x) => Err(x)
        case Ok(ys) => Ok(VColl(Tuple, ys))
    ensures Iterate(v).Some? && s.TupleFixed? && |s.elems| == |Iterate(v).value| ==>
      Cast(conv, v, s) == match CastZip(conv, Iterate(v).value, s, |s.elems|)
        case Err(x) => Err(x)
        case Ok(ys) => Ok(VColl(Tuple, ys))
    ensures Iterate(v).Some? && s.TupleFixed? && |s.elems| != |Iterate(v).value| ==>
      Cast(conv, v, s) == Err(TypeError(ArityMismatch(|s.elems|, |Iterate(v).value|)))
    ensures Iterate(v).None? ==> Cast(conv, v, s) == Err(TypeError(NotIterable))
  {
  }

  lemma {:induction false} MapIdempotent(conv: Converter, v: Value, s: Shape)
    requires WellBehaved(conv) && s.MapOf? && Stable(s) && Cast(conv, v, s).Ok?
    ensures Cast(conv, Cast(conv, v, s).value, s) == Cast(conv, v, s)
    decreases s, 0
  {
    MapCastIsPlainDict(conv, v, s.mk, s.args);
    var es := v.entries;
    var out := CastEntries(conv, es, s, |es|).value;
    forall e | e in out
      ensures Cast(conv, e.0, s.args.key) == Ok(e.0) && Cast(conv, e.1, s.args.val) == Ok(e.1)
    {
      assert EntryFrom(conv, es, s, |es|, e);
      var j :| 0 <= j < |es| && Cast(conv, es[j].0, s.args.key) == Ok(e.0) && Cast(conv, es[j].1, s.args.val) == Ok(e.1);
      CastIdempotent(conv, es[j].0, s.args.key);
      CastIdempotent(conv, es[j].1, s.args.val);
    }
    forall i | 0 <= i < |out|
      ensures Cast(conv, out[i].0, s.args.key) == Ok(out[i].0) && Cast(conv, out[i].1, s.args.val) == Ok(out[i].1)
    {
      assert out[i] in out;
    }
    EntriesKeptAll(conv, out, s, |out|);
    EntriesFixed(conv, out, s, |out|);
    assert out[..|out|] == out;
  }

  lemma PrimUnionIdempotent(conv: Converter, v: Value, ms: seq<Shape>)
    requires WellBehaved(conv) && AllPrim(ms) && Cast(conv, v, Union(ms)).Ok?
    requires Cast(conv, v, Union(ms)).value != v
    ensures Cast(conv, Cast(conv, v, Union(ms)).value, Union(ms)) == Cast(conv, v, Union(ms))
  {
    var r := Cast(conv, v, Union(ms));
    if SomeMemberAdmits(v, ms) {
      UnionKeepsMember(conv, v, ms);
    }
    UnionTriesInOrder(conv, v, ms);
    var j :| 0 <= j < |ms| && Eligible(v, ms[j]) && Cast(conv, v, ms[j]) == r;
    PrimCastInstance(conv, v, ms[j].kind);
    assert ms[j] in ms;
    UnionKeepsMember(conv, r.value, ms);
  }

  /** The membership pass skips the None members of an optional and stops at its one member. */
  lemma {:induction false} ExistingSkipsNone(conv: Converter, x: Value, s: Shape, j: nat, i: nat)
    requires s.Union? && OneMember(s.members, j) && i <= |s.members|
    ensures i <= j ==> UnionExisting(conv, x, s, i) == UnionExisting(conv, x, s, j)
    ensures j < i ==> UnionExisting(conv, x, s, i) == None
    decreases |s.members| - i
  {
    if i < |s.members| {
      ExistingSkipsNone(conv, x, s, j, i + 1);
    }
  }

  /** The attempt pass over an optional decides by its one member when None is not in play. */
  lemma OptionalAttempt(conv: Converter, x: Value, s: Shape, j: nat)
    requires s.Union? && OneMember(s.members, j) && (x != VNone || NoneShape !in s.members)
    ensures !IsTypeError(Cast(conv, x, s.members[j])) ==>
      UnionAttempt(conv, x, s, 0) == Cast(conv, x, s.members[j])
    ensures !IsTypeError(UnionAttempt(conv, x, s, 0)) ==>
      UnionAttempt(conv, x, s, 0) == Cast(conv, x, s.members[j])
  {
    var r := UnionAttempt(conv, x, s, 0);
    UnionAttemptFacts(conv, x, s, 0);
    if !IsTypeError(r) {
      var j' :| 0 <= j' < |s.members| && Eligible(x, s.members[j']) && Cast(conv, x, s.members[j']) == r;
      assert s.members[j'] in s.members;
    }
  }

  lemma {:induction false} OptionalIdempotent(conv: Converter, v: Value, s: Shape, j: nat)
    requires WellBehaved(conv) && s.Union? && OneMember(s.members, j) && Stable(s.members[j])
    requires Cast(conv, v, s).Ok? && Cast(conv, v, s).value != v
    ensures Cast(conv, Cast(conv, v, s).value, s) == Cast(conv, v, s)
    decreases s, 1
  {
    OptionalFirstCast(conv, v, s, j);
    CastIdempotent(conv, v, s.members[j]);
    OptionalRecast(conv, Cast(conv, v, s).value, s, j);
  }

  /** A cast through an optional that changed the value went through its one member. */
  lemma OptionalFirstCast(conv: Converter, v: Value, s: Shape, j: nat)
    requires s.Union? && OneMember(s.members, j)
    requires Cast(conv, v, s).Ok? && Cast(conv, v, s).value != v
    ensures Cast(conv, v, s.members[j]) == Cast(conv, v, s)
  {
    var ms := s.members;
    assert Cast(conv, v, s) == CastUnion(conv, v, s);
    assert !(v == VNone && NoneShape in ms);
    ExistingSkipsNone(conv, v, s, j, 0);
    ExistingAtMember(conv, v, s, j);
    if UnionExisting(conv, v, s, j).None? {
      OptionalAttempt(conv, v, s, j);
    }
  }

  /** The membership pass at the optional's one member: it decides there or finds nothing. */
  lemma ExistingAtMember(conv: Converter, x: Value, s: Shape, j: nat)
    requires s.Union? && OneMember(s.members, j)
    ensures UnionExisting(conv, x, s, j).Some? ==>
      UnionExisting(conv, x, s, j) == Some(Err(TypeError(NotAType))) ||
      UnionExisting(conv, x, s, j) == Some(Rescue(Cast(conv, x, s.members[j]), x))
  {
    ExistingSkipsNone(conv, x, s, j, j + 1);
  }

  /** A value its one member keeps is kept by the optional. */
  lemma OptionalRecast(conv: Converter, w: Value, s: Shape, j: nat)
    requires s.Union? && OneMember(s.members, j)
    requires Cast(conv, w, s.members[j]) == Ok(w)
    ensures Cast(conv, w, s) == Ok(w)
  {
    var ms := s.members;
    assert Cast(conv, w, s) == CastUnion(conv, w, s);
    if !(w == VNone && NoneShape in ms) {
      ExistingSkipsNone(conv, w, s, j, 0);
      ExistingSkipsNone(conv, w, s, j, j + 1);
      OptionalAttempt(conv, w, s, j);
    }
  }

  /** Some plain-class member from `i` on, other than None, admits the value. */
  predicate PrimAdmitsFrom(x: Value, ms: seq<Shape>, i: nat) {
    exists l :: i <= l < |ms| && ms[l].Prim? && ms[l] != NoneShape && IsInstance(x, ms[l].kind)
  }

  /** A value the container of a mixed union admits is admitted by none of its plain classes. */
  lemma NoPrimAdmitsContainer(x: Value, ms: seq<Shape>, j: nat, i: nat)
    requires MixedAt(ms, j) && OriginAdmits(x, ms[j])
    ensures !PrimAdmitsFrom(x, ms, i)
  {
    forall l | i <= l < |ms| && ms[l].Prim? ensures !IsInstance(x, ms[l].kind) {
      assert l != j && Apart(ms[l].kind, ms[j]);
    }
  }

  /**
   * The membership pass over a mixed union: a plain class that admits the value keeps it,
   * otherwise the container decides when its origin admits the value, otherwise nothing.
   */
  lemma {:induction false} MixedExisting(conv: Converter, x: Value, s: Shape, j: nat, i: nat)
    requires s.Union? && MixedAt(s.members, j) && i <= |s.members|
    ensures UnionExisting(conv, x, s, i) ==
      if PrimAdmitsFrom(x, s.members, i) then Some(Ok(x))
      else if i <= j && OriginAdmits(x, s.members[j]) then Some(Rescue(Cast(conv, x, s.members[j]), x))
      else None
    decreases |s.members| - i
  {
    var ms := s.members;
    if i < |ms| {
      MixedExisting(conv, x, s, j, i + 1);
      if i == j {
        assert PrimAdmitsFrom(x, ms, i) == PrimAdmitsFrom(x, ms, i + 1);
        if OriginAdmits(x, ms[j]) {
          NoPrimAdmitsContainer(x, ms, j, i);
        }
      } else if ms[i] != NoneShape && IsInstance(x, ms[i].kind) {
        assert PrimAdmitsFrom(x, ms, i);
      } else {
        assert PrimAdmitsFrom(x, ms, i) == PrimAdmitsFrom(x, ms, i + 1);
      }
    }
  }

  /** A successful cast to a collection, tuple or plain-dict shape builds a value of its origin. */
  lemma ContainerCastAdmits(conv: Converter, v: Value, c: Shape)
    requires c.SeqOf? || c.TupleVar? || c.TupleFixed? || (c.MapOf? && c.mk == Dict)
    requires Cast(conv, v, c).Ok?
    ensures OriginAdmits(Cast(conv, v, c).value, c)
  {
    if c.SeqOf? {
      SeqCastOf(conv, v, c);
    } else if c.MapOf? {
      MapCastOf(conv, v, c);
    } else {
      TupleCastOf(conv, v, c);
      if c.TupleFixed? && |c.elems| == |Iterate(v).value| {
        assert Cast(conv, v, c).value == VColl(Tuple, CastZip(conv, Iterate(v).value, c, |c.elems|).value);
      }
    }
  }

  /**
   * A cast through a mixed union that changed the value went through its container, or
   * built an instance of one of its plain classes.
   */
  lemma MixedFirstCast(conv: Converter, v: Value, s: Shape, j: nat)
    requires WellBehaved(conv) && s.Union? && MixedAt(s.members, j)
    requires Cast(conv, v, s).Ok? && Cast(conv, v, s).value != v
    ensures Cast(conv, v, s.members[j]) == Cast(conv, v, s) || PrimAdmitsFrom(Cast(conv, v, s).value, s.members, 0)
  {
    var ms := s.members;
    var r := Cast(conv, v, s);
    assert r == CastUnion(conv, v, s);
    assert !(v == VNone && NoneShape in ms);
    MixedExisting(conv, v, s, j, 0);
    if UnionExisting(conv, v, s, 0).None? {
      UnionAttemptFacts(conv, v, s, 0);
      var l :| 0 <= l < |ms| && Eligible(v, ms[l]) && Cast(conv, v, ms[l]) == r;
      if l != j {
        PrimCastInstance(conv, v, ms[l].kind);
        assert ms[l] in ms;
        assert PrimAdmitsFrom(r.value, ms, 0);
      }
    }
  }

  /** A value one of the plain classes of a mixed union admits is kept. */
  lemma MixedRecastPrim(conv: Converter, w: Value, s: Shape, j: nat)
    requires s.Union? && MixedAt(s.members, j) && PrimAdmitsFrom(w, s.members, 0)
    ensures Cast(conv, w, s) == Ok(w)
  {
    assert Cast(conv, w, s) == CastUnion(conv, w, s);
    MixedExisting(conv, w, s, j, 0);
  }

  /** A value the container of a mixed union admits and keeps is kept by the union. */
  lemma MixedRecastContainer(conv: Converter, w: Value, s: Shape, j: nat)
    requires s.Union? && MixedAt(s.members, j) && OriginAdmits(w, s.members[j])
    requires Cast(conv, w, s.members[j]) == Ok(w)
    ensures Cast(conv, w, s) == Ok(w)
  {
    assert Cast(conv, w, s) == CastUnion(conv, w, s);
    NoPrimAdmitsContainer(w, s.members, j, 0);
    MixedExisting(conv, w, s, j, 0);
  }

  lemma {:induction false} MixedIdempotent(conv: Converter, v: Value, s: Shape, j: nat)
    requires WellBehaved(conv) && s.Union? && MixedAt(s.members, j) && Stable(s.members[j])
    requires Cast(conv, v, s).Ok? && Cast(conv, v, s).value != v
    ensures Cast(conv, Cast(conv, v, s).value, s) == Cast(conv, v, s)
    decreases s, 1
  {
    var ms := s.members;
    var w := Cast(conv, v, s).value;
    MixedFirstCast(conv, v, s, j);
    if Cast(conv, v, ms[j]) == Cast(conv, v, s) {
      CastIdempotent(conv, v, ms[j]);
      ContainerCastAdmits(conv, v, ms[j]);
      MixedRecastContainer(conv, w, s, j);
    } else {
      MixedRecastPrim(conv, w, s, j);
    }
  }

  /** A one-element iterable cast to `list[k]`: the list of the element's cast, or its exception. */
  lemma OneItemCast(conv: Converter, v: Value, x: Value, k: PrimKind)
    requires Iterate(v) == Some([x])
    ensures Cast(conv, v, SeqOf(List, Prim(k))) ==
      match Cast(conv, x, Prim(k))
      case Err(e) => Err(e)
      case Ok(y) => Ok(VColl(List, [y]))
  {
    var s := SeqOf(List, Prim(k));
    SeqCastOf(conv, v, s);
    var xs := [x];
    assert xs[..0] == [] && xs[..1] == xs;
    assert CastEach(conv, xs[..0], Prim(k)) == Ok([]);
    CastEachSnoc(conv, xs, Prim(k), 0);
    if Cast(conv, x, Prim(k)).Ok? {
      var y := Cast(conv, x, Prim(k)).value;
      assert [] + [y] == [y];
    }
  }

  /**
   * With two container members the cast is not idempotent, even for a well-behaved
   * converter: an object `int()` rejects and `str()` turns into "1", in a tuple, is cast into
   * `list[int] | list[str]` as `["1"]`, and casting `["1"]` again gives `[1]`.
   */
  lemma TwoContainersNotIdempotent(conv: Converter)
    requires WellBehaved(conv)
    requires conv(PrimCtor(IntType), VObj("X", 0)) == Err(TypeError(Mismatch))
    requires conv(PrimCtor(StrType), VObj("X", 0)) == Ok(VStr("1"))
    requires conv(PrimCtor(IntType), VStr("1")) == Ok(VInt(1))
    ensures var s := Union([SeqOf(List, Prim(IntType)), SeqOf(List, Prim(StrType))]);
      var w := VColl(List, [VStr("1")]);
      && Cast(conv, VColl(Tuple, [VObj("X", 0)]), s) == Ok(w)
      && Cast(conv, w, s) == Ok(VColl(List, [VInt(1)]))
      && VColl(List, [VInt(1)]) != w
  {
    var ms := [SeqOf(List, Prim(IntType)), SeqOf(List, Prim(StrType))];
    var v := VColl(Tuple, [VObj("X", 0)]);
    var w := VColl(List, [VStr("1")]);
    assert Cast(conv, VObj("X", 0), Prim(IntType)) == Err(TypeError(ConversionFailed("int")));
    assert Cast(conv, VObj("X", 0), Prim(StrType)) == Ok(VStr("1"));
    assert Cast(conv, VStr("1"), Prim(IntType)) == Ok(VInt(1));
    OneItemCast(conv, v, VObj("X", 0), IntType);
    OneItemCast(conv, v, VObj("X", 0), StrType);
    OneItemCast(conv, w, VStr("1"), IntType);
    assert Passes(v, ms[0]) && Passes(v, ms[1]);
    assert NoneShape !in ms;
    UnionTriesInOrder(conv, v, ms);
    assert UnionAttempt(conv, v, Union(ms), 0) == Ok(w);
    UnionContainerMember(conv, w, ms, 0);
  }

  /**
   * A cast result passes validation against the same shape, for shapes without unknown
   * origins, without containers inside unions and with plain-class dict keys.
   */
  lemma {:induction false} CastThenValidates(conv: Converter, v: Value, s: Shape)
    requires WellBehaved(conv) && Validating(s) && Cast(conv, v, s).Ok?
    ensures Validate(Cast(conv, v, s).value, s) == Accept
    decreases s, 2
  {
    var w := Cast(conv, v, s).value;
    match s
    case Prim(k) =>
      PrimCastInstance(conv, v, k);
    case SelfRef(_) =>
    case SeqOf(_, _) =>
      SeqValidates(conv, v, s);
    case TupleVar(_) =>
      TupleValidates(conv, v, s);
    case TupleFixed(_) =>
      TupleValidates(conv, v, s);
    case MapOf(_, _) =>
      MapValidates(conv, v, s);
    case Union(ms) =>
      PrimUnionValidates(conv, v, ms);
  }

  lemma PrimUnionValidates(conv: Converter, v: Value, ms: seq<Shape>)
    requires WellBehaved(conv) && AllPrim(ms) && Cast(conv, v, Union(ms)).Ok?
    ensures Validate(Cast(conv, v, Union(ms)).value, Union(ms)) == Accept
  {
    var s := Union(ms);
    var r := Cast(conv, v, s);
    if v == VNone && NoneShape in ms {
      var j :| 0 <= j < |ms| && ms[j] == NoneShape;
      assert Validate(VNone, ms[j]) == Accept;
    } else if SomeMemberAdmits(v, ms) {
      UnionKeepsMember(conv, v, ms);
      var m :| m in ms && m.Prim? && m != NoneShape && IsInstance(v, m.kind);
      var j :| 0 <= j < |ms| && ms[j] == m;
      assert Validate(v, ms[j]) == Accept;
    } else {
      UnionTriesInOrder(conv, v, ms);
      var j :| 0 <= j < |ms| && Eligible(v, ms[j]) && Cast(conv, v, ms[j]) == r;
      assert ms[j] in ms;
      PrimCastInstance(conv, v, ms[j].kind);
      assert Validate(r.value, ms[j]) == Accept;
    }
  }

  lemma {:induction false} SeqValidates(conv: Converter, v: Value, s: Shape)
    requires WellBehaved(conv) && s.SeqOf? && Validating(s) && Cast(conv, v, s).Ok?
    ensures Validate(Cast(conv, v, s).value, s) == Accept
    decreases s, 1
  {
    SeqCastOf(conv, v, s);
    if s.sk == FrozenSet {
      FrozenValidates(conv, v, s);
    } else {
      FlatValidates(conv, v, s);
    }
  }

  lemma {:induction false} FrozenValidates(conv: Converter, v: Value, s: Shape)
    requires WellBehaved(conv) && s.SeqOf? && s.sk == FrozenSet && Validating(s) && Cast(conv, v, s).Ok?
    ensures Validate(Cast(conv, v, s).value, s) == Accept
    decreases s, 0
  {
    SeqCastOf(conv, v, s);
    var xs := Iterate(v).value;
    var e := s.elem;
    var acc := CastFrozen(conv, xs, e).value;
    forall i | 0 <= i < |acc| ensures Validate(acc[i], e) == Accept {
      assert acc[i] in acc;
      FrozenMemberFrom(conv, xs, e, acc[i]);
      var k :| 0 <= k < |xs| && Cast(conv, xs[k], e) == Ok(acc[i]);
      CastThenValidates(conv, xs[k], e);
    }
  }

  lemma {:induction false} FlatValidates(conv: Converter, v: Value, s: Shape)
    requires WellBehaved(conv) && s.SeqOf? && s.sk != FrozenSet && Validating(s) && Cast(conv, v, s).Ok?
    ensures Validate(Cast(conv, v, s).value, s) == Accept
    decreases s, 0
  {
    SeqCastOf(conv, v, s);
    var xs := Iterate(v).value;
    var e := s.elem;
    CastEachPointwise(conv, xs, e);
    var ys := CastEach(conv, xs, e).value;
    forall i | 0 <= i < |ys| ensures Validate(ys[i], e) == Accept {
      CastThenValidates(conv, xs[i], e);
    }
    if s.sk == Set {
      var zs := SetOf(ys);
      forall i | 0 <= i < |zs| ensures Validate(zs[i], e) == Accept {
        assert zs[i] in ys;
      }
    }
  }

  lemma {:induction false} TupleValidates(conv: Converter, v: Value, s: Shape)
    requires WellBehaved(conv) && (s.TupleVar? || s.TupleFixed?) && Validating(s) && Cast(conv, v, s).Ok?
    ensures Validate(Cast(conv, v, s).value, s) == Accept
    decreases s, 0
  {
    var xs := Iterate(v).value;
    if s.TupleVar? {
      CastEachPointwise(conv, xs, s.elem);
      var ys := CastEach(conv, xs, s.elem).value;
      forall i | 0 <= i < |ys| ensures Validate(ys[i], s.elem) == Accept {
        CastThenValidates(conv, xs[i], s.elem);
      }
    } else {
      var ys := CastZip(conv, xs, s, |xs|).value;
      forall i | 0 <= i < |ys| ensures Validate(ys[i], s.elems[i]) == Accept {
        CastZipAt(conv, xs, s, |xs|, i);
        CastThenValidates(conv, xs[i], s.elems[i]);
      }
    }
  }

  lemma {:induction false} MapValidates(conv: Converter, v: Value, s: Shape)
    requires WellBehaved(conv) && s.MapOf? && Validating(s) && Cast(conv, v, s).Ok?
    ensures Validate(Cast(conv, v, s).value, s) == Accept
    decreases s, 1
  {
    MapCastOf(conv, v, s);
    var es := v.entries;
    var out := CastEntries(conv, es, s, |es|).value;
    var ks, xs := s.args.key, s.args.val;
    forall i | 0 <= i < |out|
      ensures KeyIsInstance(Keys(out)[i], ks) == Accept && Validate(Vals(out)[i], xs) == Accept
    {
      assert out[i] in out;
      EntryCameFrom(conv, es, s, |es|, out[i]);
      EntryValidates(conv, es, s, out[i]);
    }
    assert CheckKeys(Keys(out), ks) == Accept;
    assert ValidateEach(Vals(out), xs) == Accept;
    assert ValidateDict(out, s) == Accept;
  }

  /** One entry of a dict cast: its key is an instance of the key class, its value validates. */
  lemma EntryValidates(conv: Converter, es: seq<(Value, Value)>, s: Shape, e: (Value, Value))
    requires WellBehaved(conv) && s.MapOf? && s.args.KeyVal? && Validating(s)
    requires EntryFrom(conv, es, s, |es|, e)
    ensures KeyIsInstance(e.0, s.args.key) == Accept && Validate(e.1, s.args.val) == Accept
    decreases s, 0
  {
    var ks, xs := s.args.key, s.args.val;
    var j :| 0 <= j < |es| && Cast(conv, es[j].0, ks) == Ok(e.0) && Cast(conv, es[j].1, xs) == Ok(e.1);
    CastThenValidates(conv, es[j].1, xs);
    if ks.Prim? {
      PrimCastInstance(conv, es[j].0, ks.kind);
    } else {
      PrimUnionValidates(conv, es[j].0, ks.members);
      var l :| 0 <= l < |ks.members| && Validate(e.0, ks.members[l]).Accept?;
      assert ks.members[l] in ks.members;
    }
  }

  /** A successful mapping cast is the plain dict its entries build. */
  lemma MapCastOf(conv: Converter, v: Value, s: Shape)
    requires s.MapOf? && Cast(conv, v, s).Ok?
    ensures s.args.KeyVal? && v.VDict? && CastEntries(conv, v.entries, s, |v.entries|).Ok?
    ensures Cast(conv, v, s) == Ok(VDict(Dict, CastEntries(conv, v.entries, s, |v.entries|).value))
  {
    assert Cast(conv, v, s) == CastDict(conv, v, s);
  }

  /**
   * A value that already validates, and is built as Python builds values, comes back
   * unchanged from the cast, for every shape `Keeps` admits.
   */
  lemma {:induction false} ValidIsKept(conv: Converter, v: Value, s: Shape)
    requires Keeps(s) && Settled(v) && Validate(v, s) == Accept
    ensures Cast(conv, v, s) == Ok(v)
    decreases s, 2
  {
    match s
    case Prim(_) =>
    case Union(ms) =>
      if AllPrim(ms) {
        PrimUnionKept(conv, v, ms);
      } else {
        MixedKept(conv, v, s);
      }
    case SeqOf(k, e) =>
      if k == FrozenSet {
        FrozenSetKept(conv, v, s);
      } else {
        ItemsKept(conv, v.items, e);
        if k == Set {
          SetOfDistinct(v.items);
        }
      }
    case TupleVar(e) =>
      ItemsKept(conv, v.items, e);
    case TupleFixed(ts) =>
      FixedKept(conv, v, s);
    case MapOf(_, _) =>
      DictKept(conv, v, s);
  }

  /** A value one of a union's plain classes admits is kept. */
  lemma PrimUnionKept(conv: Converter, v: Value, ms: seq<Shape>)
    requires AllPrim(ms) && Validate(v, Union(ms)) == Accept
    ensures Cast(conv, v, Union(ms)) == Ok(v)
  {
    if !(v == VNone && NoneShape in ms) {
      var j :| 0 <= j < |ms| && Validate(v, ms[j]).Accept?;
      assert ms[j] in ms;
      UnionKeepsMember(conv, v, ms);
    }
  }

  /**
   * A mixed union keeps None when it lists None, keeps a value one of its plain classes
   * admits, and keeps a valid container through its container member.
   */
  lemma {:induction false} MixedKept(conv: Converter, v: Value, s: Shape)
    requires s.Union? && Settled(v) && Validate(v, s) == Accept
    requires exists j :: 0 <= j < |s.members| && MixedAt(s.members, j) && Keeps(s.members[j])
    ensures Cast(conv, v, s) == Ok(v)
    decreases s, 1
  {
    var ms := s.members;
    var j :| 0 <= j < |ms| && MixedAt(ms, j) && Keeps(ms[j]);
    assert Cast(conv, v, s) == CastUnion(conv, v, s);
    if !(v == VNone && NoneShape in ms) {
      var l :| 0 <= l < |ms| && Validate(v, ms[l]).Accept?;
      MixedExisting(conv, v, s, j, 0);
      if l != j {
        assert ms[l].Prim? && IsInstance(v, ms[l].kind);
        assert ms[l] in ms;
        assert PrimAdmitsFrom(v, ms, 0);
      } else {
        if !OriginAdmits(v, ms[j]) {
          ContainerKindFirst(v, ms[j]);
        }
        NoPrimAdmitsContainer(v, ms, j, 0);
        ValidIsKept(conv, v, ms[j]);
      }
    }
  }

  /** A valid frozenset of kept elements is rebuilt as the same frozenset. */
  lemma {:induction false} FrozenSetKept(conv: Converter, v: Value, s: Shape)
    requires s.SeqOf? && s.sk == FrozenSet && Keeps(s) && Settled(v) && Validate(v, s) == Accept
    ensures Cast(conv, v, s) == Ok(v)
    decreases s, 1
  {
    forall y | y in v.items ensures Cast(conv, y, s.elem) == Ok(y) {
      var i :| 0 <= i < |v.items| && v.items[i] == y;
      ValidIsKept(conv, y, s.elem);
    }
    FrozenFixed(conv, v.items, s.elem);
  }

  /** A valid plain dict with class keys and kept values is rebuilt as the same dict. */
  lemma {:induction false} DictKept(conv: Converter, v: Value, s: Shape)
    requires s.MapOf? && Keeps(s) && Settled(v) && Validate(v, s) == Accept
    ensures Cast(conv, v, s) == Ok(v)
    decreases s, 1
  {
    var es := v.entries;
    var k := s.args.key;
    assert ValidateDict(es, s) == Accept;
    assert CheckKeys(Keys(es), k).Accept? && ValidateEach(Vals(es), s.args.val).Accept?;
    forall i | 0 <= i < |es| ensures Cast(conv, es[i].0, k) == Ok(es[i].0) && Cast(conv, es[i].1, s.args.val) == Ok(es[i].1) {
      assert Keys(es)[i] == es[i].0 && Vals(es)[i] == es[i].1;
      KeyKept(conv, es[i].0, k);
      ValidIsKept(conv, es[i].1, s.args.val);
    }
    EntriesKeptAll(conv, es, s, |es|);
    EntriesFixed(conv, es, s, |es|);
    assert es[..|es|] == es;
  }

  /** A key isinstance() accepts against a class key shape is kept by the cast to it. */
  lemma KeyKept(conv: Converter, x: Value, k: Shape)
    requires KeyShape(k) && KeyIsInstance(x, k).Accept?
    ensures Cast(conv, x, k) == Ok(x)
  {
    if k.Union? {
      var m :| m in k.members && m.Prim? && IsInstance(x, m.kind);
      var j :| 0 <= j < |k.members| && k.members[j] == m;
      assert Validate(x, k.members[j]).Accept?;
      PrimUnionKept(conv, x, k.members);
    }
  }

  /**
   * With two container members, a value valid for the second is recast by the first when
   * that cast succeeds: `[1]` into `list[str] | list[int]` becomes `["1"]`.
   */
  lemma TwoContainersRecast(conv: Converter)
    requires conv(PrimCtor(StrType), VInt(1)) == Ok(VStr("1"))
    ensures var s := Union([SeqOf(List, Prim(StrType)), SeqOf(List, Prim(IntType))]);
      var v := VColl(List, [VInt(1)]);
      Validate(v, s) == Accept && Cast(conv, v, s) == Ok(VColl(List, [VStr("1")]))
  {
    var ms := [SeqOf(List, Prim(StrType)), SeqOf(List, Prim(IntType))];
    var v := VColl(List, [VInt(1)]);
    assert Validate(v, ms[1]) == Accept;
    assert Cast(conv, VInt(1), Prim(StrType)) == Ok(VStr("1"));
    var xs := [VInt(1)];
    assert xs[..0] == [] && xs[..1] == xs;
    assert CastEach(conv, xs[..0], Prim(StrType)) == Ok([]);
    CastEachSnoc(conv, xs, Prim(StrType), 0);
    assert CastEach(conv, xs[..1], Prim(StrType)) == Ok([] + [VStr("1")]);
    assert [] + [VStr("1")] == [VStr("1")];
    assert CastEach(conv, [VInt(1)], Prim(StrType)) == Ok([VStr("1")]);
    assert Cast(conv, v, ms[0]) == CastSeq(conv, v, ms[0]);
    assert Cast(conv, v, ms[0]) == Ok(VColl(List, [VStr("1")]));
    UnionContainerMember(conv, v, ms, 0);
  }

  /** A valid fixed tuple is kept position by position. */
  lemma {:induction false} FixedKept(conv: Converter, v: Value, s: Shape)
    requires s.TupleFixed? && Keeps(s) && Settled(v) && Validate(v, s) == Accept
    ensures Cast(conv, v, s) == Ok(v)
    decreases s, 1
  {
    forall i | 0 <= i < |v.items| ensures Cast(conv, v.items[i], s.elems[i]) == Ok(v.items[i]) {
      assert s.elems[i] < s && Settled(v.items[i]);
      ValidIsKept(conv, v.items[i], s.elems[i]);
    }
    ZipFixed(conv, v.items, s, |v.items|);
    assert v.items[..|v.items|] == v.items;
  }

  /** Elements that each validate against a keeping shape are all kept. */
  lemma {:induction false} ItemsKept(conv: Converter, xs: seq<Value>, e: Shape)
    requires Keeps(e) && forall i :: 0 <= i < |xs| ==> Settled(xs[i]) && Validate(xs[i], e) == Accept
    ensures CastEach(conv, xs, e) == Ok(xs)
    decreases e, 3
  {
    forall i | 0 <= i < |xs| ensures Cast(conv, xs[i], e) == Ok(xs[i]) {
      ValidIsKept(conv, xs[i], e);
    }
    EachFixed(conv, xs, e);
  }
}

=== FILE: cast_laws.dfy ===
/**
 * What the casting walk promises: the union tie-break rules, the bool text vocabulary,
 * tuple arity, the plain-dict result of every mapping cast, and that no path invents None.
 */
module CastLaws {
  import opened Wrappers
  import opened Values
  import opened Shapes
  import opened Errors
  import opened Casting

  /** Every member is a plain class (`int | str | None`, `Optional[bool]`, ...). */
  predicate AllPrim(ms: seq<Shape>) {
    forall m | m in ms :: m.Prim?
  }

  /** Some member other than None already has the value as an instance. */
  predicate SomeMemberAdmits(v: Value, ms: seq<Shape>) {
    exists m | m in ms :: m.Prim? && m != NoneShape && IsInstance(v, m.kind)
  }

  /** The membership pass over plain classes keeps the value iff a non-None member admits it. */
  lemma {:induction false} ExistingOverPrims(conv: Converter, v: Value, s: Shape, i: nat)
    requires s.Union? && i <= |s.members| && AllPrim(s.members)
    ensures UnionExisting(conv, v, s, i) ==
      if SomeMemberAdmits(v, s.members[i..]) then Some(Ok(v)) else None
    decreases |s.members| - i
  {
    if i < |s.members| {
      ExistingOverPrims(conv, v, s, i + 1);
      assert s.members[i..] == [s.members[i]] + s.members[i + 1..];
    }
  }

  /**
   * A value that already is an instance of a plain non-None member comes back unchanged:
   * `"42"` into `int | str` stays text, `True` into `int | str` stays a bool.
   */
  lemma UnionKeepsMember(conv: Converter, v: Value, ms: seq<Shape>)
    requires AllPrim(ms) && SomeMemberAdmits(v, ms)
    ensures Cast(conv, v, Union(ms)) == Ok(v)
  {
    ExistingOverPrims(conv, v, Union(ms), 0);
    assert ms[0..] == ms;
  }

  /** None into a union that admits None is None, whatever the other members are. */
  lemma UnionKeepsNone(conv: Converter, ms: seq<Shape>)
    requires NoneShape in ms
    ensures Cast(conv, VNone, Union(ms)) == Ok(VNone)
  {
  }

  /**
   * Member `m` lets the membership pass go on to the next member: it is None, a plain class
   * the value is not an instance of, or a class origin the value is not an instance of.
   */
  predicate Passes(v: Value, m: Shape) {
    || m == NoneShape
    || (m.Prim? && !IsInstance(v, m.kind))
    || (HasOrigin(m) && !(m.Other? && !m.origin.isType) && !OriginAdmits(v, m))
  }

  /** The membership pass walks over members that let it pass. */
  lemma {:induction false} ExistingPasses(conv: Converter, v: Value, s: Shape, i: nat, j: nat)
    requires s.Union? && i <= j <= |s.members|
    requires forall l :: i <= l < j ==> Passes(v, s.members[l])
    ensures UnionExisting(conv, v, s, i) == UnionExisting(conv, v, s, j)
    decreases j - i
  {
    if i < j {
      ExistingPasses(conv, v, s, i + 1, j);
    }
  }

  /**
   * When the first member that does not let the value pass is a plain non-None class the
   * value is an instance of, the value comes back unchanged, whatever the other members are:
   * `"42"` into `list[int] | str` stays text.
   */
  lemma UnionKeepsFirstPrim(conv: Converter, v: Value, ms: seq<Shape>, j: nat)
    requires j < |ms| && ms[j].Prim? && ms[j] != NoneShape && IsInstance(v, ms[j].kind)
    requires forall l :: 0 <= l < j ==> Passes(v, ms[l])
    ensures Cast(conv, v, Union(ms)) == Ok(v)
  {
    ExistingPasses(conv, v, Union(ms), 0, j);
  }

  /**
   * A member that is a forward reference, a nested union or an origin that is not a class,
   * reached by the membership pass, makes the union raise TypeError before any cast.
   */
  lemma UnionRaisesOnNonClass(conv: Converter, v: Value, ms: seq<Shape>, j: nat)
    requires j < |ms| && (ms[j].SelfRef? || ms[j].Union? || (ms[j].Other? && !ms[j].origin.isType))
    requires forall l :: 0 <= l < j ==> Passes(v, ms[l])
    requires !(v == VNone && NoneShape in ms)
    ensures Cast(conv, v, Union(ms)) == Err(TypeError(NotAType))
  {
    ExistingPasses(conv, v, Union(ms), 0, j);
  }

  /**
   * A value every member lets pass is cast to the members in declared order (None only
   * for None); the first cast that does not raise a TypeError is the result, and when every
   * one raises, the union raises "cannot cast to any type in Union".
   */
  lemma UnionTriesInOrder(conv: Converter, v: Value, ms: seq<Shape>)
    requires forall j :: 0 <= j < |ms| ==> Passes(v, ms[j])
    requires !(v == VNone && NoneShape in ms)
    ensures Cast(conv, v, Union(ms)) == UnionAttempt(conv, v, Union(ms), 0)
    ensures var r := Cast(conv, v, Union(ms));
      && (!IsTypeError(r) ==>
            exists j :: 0 <= j < |ms| && Eligible(v, ms[j]) && Cast(conv, v, ms[j]) == r &&
              forall l :: 0 <= l < j && Eligible(v, ms[l]) ==> IsTypeError(Cast(conv, v, ms[l])))
      && (IsTypeError(r) <==> forall j :: 0 <= j < |ms| && Eligible(v, ms[j]) ==> IsTypeError(Cast(conv, v, ms[j])))
      && (IsTypeError(r) ==> r == Err(TypeError(UnionNoMatch)))
  {
    ExistingPasses(conv, v, Union(ms), 0, |ms|);
    UnionAttemptFacts(conv, v, Union(ms), 0);
  }

  /**
   * The first member whose container origin admits the value decides: its cast is the
   * result, and when that cast raises a TypeError the value is returned as it is.
   */
  lemma {:induction false} UnionContainerMember(conv: Converter, v: Value, ms: seq<Shape>, j: nat)
    requires j < |ms| && HasOrigin(ms[j]) && !(ms[j].Other? && !ms[j].origin.isType) && OriginAdmits(v, ms[j])
    requires forall l :: 0 <= l < j ==> Passes(v, ms[l])
    requires !(v == VNone && NoneShape in ms)
    ensures Cast(conv, v, Union(ms)) == if IsTypeError(Cast(conv, v, ms[j])) then Ok(v) else Cast(conv, v, ms[j])
  {
    ExistingPasses(conv, v, Union(ms), 0, j);
  }

  /**
   * A plain class the value is not an instance of is called on it: what it builds is the
   * result, a ValueError or TypeError it raises becomes the caster's TypeError, and any other
   * exception escapes as it is.
   */
  lemma ConstructorErrors(conv: Converter, v: Value, k: PrimKind)
    requires !IsInstance(v, k) && k != NoneType && !(k == BoolType && v.VStr?)
    ensures conv(PrimCtor(k), v).Ok? ==> Cast(conv, v, Prim(k)) == conv(PrimCtor(k), v)
    ensures conv(PrimCtor(k), v).Err? ==>
      var e := conv(PrimCtor(k), v).error;
      Cast(conv, v, Prim(k)) == if e.TypeError? || e.ValueError? then Err(TypeError(ConversionFailed(PrimName(k)))) else Err(e)
  {
  }

  /**
   * An unknown iterable origin is called on the list of cast elements, and whatever it
   * builds or raises is the result: its exceptions keep their own class.
   */
  lemma OriginErrorsEscape(conv: Converter, v: Value, o: Origin, e: Shape)
    requires o.isType && TagOf(v) !in o.instances && o.iterable && !o.textual
    requires Iterate(v).Some? && CastEach(conv, Iterate(v).value, e).Ok?
    ensures Cast(conv, v, Other(o, e)) == conv(OriginCtor(o), VColl(List, CastEach(conv, Iterate(v).value, e).value))
  {
  }

  /** Lower-casing twice is lower-casing once. */
  lemma LowerIdempotent(t: string)
    ensures Lower(Lower(t)) == Lower(t)
  {
    forall i | 0 <= i < |t|
      ensures Lower(Lower(t))[i] == Lower(t)[i]
    {
      assert 'A' <= Lower(t)[i] <= 'Z' ==> false;
    }
  }

  /**
   * Text into bool never calls bool(): exactly `true`/`1`/`yes` in any letter case give
   * True, exactly `false`/`0`/`no`/empty give False, and any other text raises.
   */
  lemma BoolFromText(conv: Converter, t: string)
    ensures Cast(conv, VStr(t), Prim(BoolType)) == Ok(VBool(true)) <==> Lower(t) in TrueWords
    ensures Cast(conv, VStr(t), Prim(BoolType)) == Ok(VBool(false)) <==> Lower(t) in FalseWords
    ensures Cast(conv, VStr(t), Prim(BoolType)).Err? <==> Lower(t) !in TrueWords + FalseWords
    ensures Cast(conv, VStr(t), Prim(BoolType)) == Cast(conv, VStr(Lower(t)), Prim(BoolType))
  {
    LowerIdempotent(t);
  }

  /** Fixed tuples: a length mismatch raises; otherwise each position is cast by its own shape. */
  lemma FixedTupleArity(conv: Converter, v: Value, ts: seq<Shape>)
    requires Iterate(v).Some?
    ensures |Iterate(v).value| != |ts| ==>
      Cast(conv, v, TupleFixed(ts)) == Err(TypeError(ArityMismatch(|ts|, |Iterate(v).value|)))
    ensures Cast(conv, v, TupleFixed(ts)).Ok? <==>
      |Iterate(v).value| == |ts| && forall i :: 0 <= i < |ts| ==> Cast(conv, Iterate(v).value[i], ts[i]).Ok?
    ensures Cast(conv, v, TupleFixed(ts)).Ok? ==>
      var w := Cast(conv, v, TupleFixed(ts)).value;
      w.VColl? && w.ck == Tuple && |w.items| == |ts| &&
      forall i :: 0 <= i < |ts| ==> Cast(conv, Iterate(v).value[i], ts[i]) == Ok(w.items[i])
  {
    var xs := Iterate(v).value;
    if |xs| == |ts| {
      CastZipFacts(conv, xs, TupleFixed(ts), |xs|);
    }
  }

  /** Variadic tuples: every element by the one shape, at any length. */
  lemma VariadicTuple(conv: Converter, v: Value, e: Shape)
    requires Iterate(v).Some?
    ensures Cast(conv, v, TupleVar(e)).Ok? <==>
      forall i :: 0 <= i < |Iterate(v).value| ==> Cast(conv, Iterate(v).value[i], e).Ok?
    ensures Cast(conv, v, TupleVar(e)).Ok? ==>
      var w := Cast(conv, v, TupleVar(e)).value;
      w.VColl? && w.ck == Tuple && |w.items| == |Iterate(v).value| &&
      forall i :: 0 <= i < |w.items| ==> Cast(conv, Iterate(v).value[i], e) == Ok(w.items[i])
  {
    CastEachPointwise(conv, Iterate(v).value, e);
  }

  /**
   * Every mapping cast builds a plain dict, whatever the declared kind: its keys are
   * distinct and hashable, each comes from casting a source key, and every source entry is
   * represented. Mappings without two type arguments raise ValueError; values without
   * `.items()` raise AttributeError.
   */
  lemma MapCastIsPlainDict(conv: Converter, v: Value, mk: MapKind, args: MapArgs)
    ensures !args.KeyVal? ==> Cast(conv, v, MapOf(mk, args)) == Err(ValueError(NotEnoughTypeArgs))
    ensures args.KeyVal? && !v.VDict? ==> Cast(conv, v, MapOf(mk, args)) == Err(AttributeError(NoItems))
    ensures Cast(conv, v, MapOf(mk, args)).Ok? ==>
      var w := Cast(conv, v, MapOf(mk, args)).value;
      && args.KeyVal? && v.VDict? && w.VDict? && w.mk == Dict
      && Distinct(Keys(w.entries)) && AllHashable(Keys(w.entries)) && |w.entries| <= |v.entries|
      && (forall j :: 0 <= j < |v.entries| ==>
            Cast(conv, v.entries[j].0, args.key).Ok? && Cast(conv, v.entries[j].0, args.key).value in Keys(w.entries))
      && (forall e :: e in w.entries ==>
            exists j :: 0 <= j < |v.entries| &&
              Cast(conv, v.entries[j].0, args.key) == Ok(e.0) && Cast(conv, v.entries[j].1, args.val) == Ok(e.1))
  {
    var s := MapOf(mk, args);
    var r := Cast(conv, v, s);
    if r.Ok? {
      assert r == CastDict(conv, v, s);
      assert args.KeyVal? && v.VDict?;
      var es := CastEntries(conv, v.entries, s, |v.entries|).value;
      CastEntriesCovers(conv, v.entries, s, |v.entries|);
      CastEntriesFrom(conv, v.entries, s, |v.entries|);
      forall e | e in es
        ensures
          exists j :: 0 <= j < |v.entries| &&
            Cast(conv, v.entries[j].0, args.key) == Ok(e.0) && Cast(conv, v.entries[j].1, args.val) == Ok(e.1)
      {
        assert EntryFrom(conv, v.entries, s, |v.entries|, e);
      }
    }
  }

  /** So a successful cast to defaultdict, OrderedDict or Counter fails its own validation. */
  lemma MapCastLosesKind(conv: Converter, v: Value, mk: MapKind, args: MapArgs)
    requires mk != Dict && Cast(conv, v, MapOf(mk, args)).Ok?
    ensures !IsInstance(Cast(conv, v, MapOf(mk, args)).value, DictType(mk))
  {
    MapCastIsPlainDict(conv, v, mk, args);
  }

  /**
   * No path returns None for a value that was not None: given constructors that build
   * instances of their class, a cast that yields None started from None.
   */
  lemma {:induction false} NoImplicitNone(conv: Converter, v: Value, s: Shape)
    requires WellBehaved(conv)
    requires Cast(conv, v, s) == Ok(VNone)
    ensures v == VNone
    decreases s, 1
  {
    match s
    case Union(ms) =>
      if !(v == VNone && NoneShape in ms) {
        match UnionExisting(conv, v, s, 0)
        case Some(r) => ExistingNoNone(conv, v, s, 0);
        case None =>
          UnionAttemptFacts(conv, v, s, 0);
          var j :| 0 <= j < |ms| && Eligible(v, ms[j]) && Cast(conv, v, ms[j]) == Ok(VNone);
          NoImplicitNone(conv, v, ms[j]);
      }
    case Prim(k) =>
    case _ =>
  }

  lemma {:induction false} ExistingNoNone(conv: Converter, v: Value, s: Shape, i: nat)
    requires WellBehaved(conv)
    requires s.Union? && i <= |s.members|
    requires UnionExisting(conv, v, s, i) == Some(Ok(VNone))
    ensures v == VNone
    decreases s, 0, |s.members| - i
  {
    var m := s.members[i];
    if m == NoneShape || (m.Prim? && !IsInstance(v, m.kind)) {
      ExistingNoNone(conv, v, s, i + 1);
    } else if !m.Prim? && !m.SelfRef? && !m.Union? && !(m.Other? && !m.origin.isType) && OriginAdmits(v, m) {
      if !IsTypeError(Cast(conv, v, m)) {
        NoImplicitNone(conv, v, m);
      }
    } else if !m.Prim? && !m.SelfRef? && !m.Union? && !(m.Other? && !m.origin.isType) {
      ExistingNoNone(conv, v, s, i + 1);
    }
  }
}

=== FILE: caster.dfy ===
/**
 * The caster as the source runs it: a recursive dispatch whose handlers build fresh
 * containers by appending in loops, and whose union branch walks the members twice. Each
 * method is proved to compute exactly what the specification functions of Casting say.
 */
module Caster {
  import opened Wrappers
  import opened Values
  import opened Shapes
  import opened Errors
  import opened Casting

  method CastValue(conv: Converter, v: Value, s: Shape) returns (r: Outcome)
    ensures r == Cast(conv, v, s)
    decreases s, 5
  {
    match s {
      case Union(_) =>
        r := CastUnionMembers(conv, v, s);
      case Prim(k) =>
        if IsInstance(v, k) {
          r := Ok(v);
        } else {
          r := Convert(conv, v, k);
        }
      case SelfRef(_) =>
        r := Err(TypeError(NotAType));
      case Other(o, _) =>
        if !o.isType {
          r := Err(TypeError(NotAType));
        } else if TagOf(v) in o.instances {
          r := Ok(v);
        } else if o.iterable && !o.textual {
          r := CastIntoOrigin(conv, v, s);
        } else {
          r := Err(TypeError(NoHandler(o.name)));
        }
      case SeqOf(_, _) =>
        r := CastCollection(conv, v, s);
      case TupleVar(_) =>
        r := CastTupleValue(conv, v, s);
      case TupleFixed(_) =>
        r := CastTupleValue(conv, v, s);
      case MapOf(_, _) =>
        r := CastDictValue(conv, v, s);
    }
  }

  /** The None shortcut, the membership pass, then the attempt pass. */
  method CastUnionMembers(conv: Converter, v: Value, s: Shape) returns (r: Outcome)
    requires s.Union?
    ensures r == CastUnion(conv, v, s)
    decreases s, 4
  {
    if v == VNone && NoneShape in s.members {
      return Ok(VNone);
    }
    var i := 0;
    while i < |s.members|
      invariant i <= |s.members|
      invariant UnionExisting(conv, v, s, 0) == UnionExisting(conv, v, s, i)
    {
      var m := s.members[i];
      if m != NoneShape {
        if m.Prim? {
          if IsInstance(v, m.kind) {
            return Ok(v);
          }
        } else if m.SelfRef? || m.Union? || (m.Other? && !m.origin.isType) {
          return Err(TypeError(NotAType));
        } else if OriginAdmits(v, m) {
          var c := CastValue(conv, v, m);
          return if IsTypeError(c) then Ok(v) else c;
        }
      }
      i := i + 1;
    }
    i := 0;
    while i < |s.members|
      invariant i <= |s.members|
      invariant UnionAttempt(conv, v, s, 0) == UnionAttempt(conv, v, s, i)
    {
      if Eligible(v, s.members[i]) {
        var c := CastValue(conv, v, s.members[i]);
        if !IsTypeError(c) {
          return c;
        }
      }
      i := i + 1;
    }
    return Err(TypeError(UnionNoMatch));
  }

  /** `for el in value: new.append(cast_value(el, tp))`. */
  method CastElements(conv: Converter, xs: seq<Value>, e: Shape) returns (r: Result<seq<Value>, Exc>)
    ensures r == CastEach(conv, xs, e)
    decreases e, 6
  {
    var acc := [];
    var i := 0;
    while i < |xs|
      invariant i <= |xs|
      invariant CastEach(conv, xs[..i], e) == Ok(acc)
    {
      var c := CastValue(conv, xs[i], e);
      CastEachSnoc(conv, xs, e, i);
      if c.Err? {
        CastEachStops(conv, xs, e, i + 1);
        return Err(c.error);
      }
      acc := acc + [c.value];
      i := i + 1;
    }
    assert xs[..i] == xs;
    return Ok(acc);
  }

  /** `new_set.add(cast_value(el, tp))` for every element, then `frozenset(new_set)`. */
  method CastFrozenElements(conv: Converter, xs: seq<Value>, e: Shape) returns (r: Result<seq<Value>, Exc>)
    ensures r == CastFrozen(conv, xs, e)
    decreases e, 6
  {
    var acc := [];
    var i := 0;
    while i < |xs|
      invariant i <= |xs|
      invariant CastFrozen(conv, xs[..i], e) == Ok(acc)
    {
      var c := CastValue(conv, xs[i], e);
      CastFrozenSnoc(conv, xs, e, i);
      if c.Err? {
        CastFrozenStops(conv, xs, e, i + 1);
        return Err(c.error);
      }
      if !Hashable(c.value) {
        CastFrozenStops(conv, xs, e, i + 1);
        return Err(TypeError(Unhashable));
      }
      acc := SetAdd(acc, c.value);
      i := i + 1;
    }
    assert xs[..i] == xs;
    return Ok(acc);
  }

  /** The list, set, frozenset and deque handlers. */
  method CastCollection(conv: Converter, v: Value, s: Shape) returns (r: Outcome)
    requires s.SeqOf?
    ensures r == CastSeq(conv, v, s)
    decreases s, 4
  {
    var it := Iterate(v);
    if it.None? {
      return Err(TypeError(NotIterable));
    }
    if s.sk == FrozenSet {
      var c := CastFrozenElements(conv, it.value, s.elem);
      r := if c.Err? then Err(c.error) else Ok(VColl(FrozenSet, c.value));
    } else {
      var c := CastElements(conv, it.value, s.elem);
      if c.Err? {
        r := Err(c.error);
      } else if s.sk != Set {
        r := Ok(VColl(s.sk, c.value));
      } else if AllHashable(c.value) {
        r := Ok(VColl(Set, SetOf(c.value)));
      } else {
        r := Err(TypeError(Unhashable));
      }
    }
  }

  /** The tuple handler: every element for `Tuple[T, ...]`, position-wise otherwise. */
  method CastTupleValue(conv: Converter, v: Value, s: Shape) returns (r: Outcome)
    requires s.TupleVar? || s.TupleFixed?
    ensures r == CastTuple(conv, v, s)
    decreases s, 4
  {
    var it := Iterate(v);
    if it.None? {
      return Err(TypeError(NotIterable));
    }
    var xs := it.value;
    if s.TupleVar? {
      var c := CastElements(conv, xs, s.elem);
      return if c.Err? then Err(c.error) else Ok(VColl(Tuple, c.value));
    }
    if |s.elems| != |xs| {
      return Err(TypeError(ArityMismatch(|s.elems|, |xs|)));
    }
    var acc := [];
    var i := 0;
    while i < |xs|
      invariant i <= |xs|
      invariant CastZip(conv, xs, s, i) == Ok(acc)
    {
      var c := CastValue(conv, xs[i], s.elems[i]);
      if c.Err? {
        CastZipStops(conv, xs, s, i + 1, |xs|);
        return Err(c.error);
      }
      acc := acc + [c.value];
      i := i + 1;
    }
    return Ok(VColl(Tuple, acc));
  }

  /** The dict handler: unpack two type arguments, then fill a fresh plain dict. */
  method CastDictValue(conv: Converter, v: Value, s: Shape) returns (r: Outcome)
    requires s.MapOf?
    ensures r == CastDict(conv, v, s)
    decreases s, 4
  {
    if !s.args.KeyVal? {
      return Err(ValueError(NotEnoughTypeArgs));
    }
    if !v.VDict? {
      return Err(AttributeError(NoItems));
    }
    var es := v.entries;
    var acc := [];
    var i := 0;
    while i < |es|
      invariant i <= |es|
      invariant CastEntries(conv, es, s, i) == Ok(acc)
    {
      var k := CastValue(conv, es[i].0, s.args.key);
      if k.Err? {
        CastEntriesStops(conv, es, s, i + 1, |es|);
        return Err(k.error);
      }
      var x := CastValue(conv, es[i].1, s.args.val);
      if x.Err? {
        CastEntriesStops(conv, es, s, i + 1, |es|);
        return Err(x.error);
      }
      if !Hashable(k.value) {
        CastEntriesStops(conv, es, s, i + 1, |es|);
        return Err(TypeError(Unhashable));
      }
      acc := DictSet(acc, k.value, x.value);
      i := i + 1;
    }
    return Ok(VDict(Dict, acc));
  }

  /** An iterable origin without a handler: cast into a list, then call the origin on it. */
  method CastIntoOrigin(conv: Converter, v: Value, s: Shape) returns (r: Outcome)
    requires s.Other?
    ensures r == CastFallback(conv, v, s)
    decreases s, 4
  {
    var it := Iterate(v);
    if it.None? {
      return Err(TypeError(NotIterable));
    }
    var c := CastElements(conv, it.value, s.elem);
    if c.Err? {
      return Err(c.error);
    }
    r := conv(OriginCtor(s.origin), VColl(List, c.value));
  }
}

=== FILE: casting.dfy ===
/**
 * The casting walk, as specification functions: the value a declared shape turns a
 * runtime value into, or the exception the walk raises. Constructors of foreign classes are
 * the `conv` parameter; everything else (unions, the bool text rule, the container
 * handlers, the fallback for unknown iterable origins) is spelled out.
 */
module Casting {
  import opened Wrappers
  import opened Values
  import opened Shapes
  import opened Errors

  type Outcome = Result<Value, Exc>

  predicate IsTypeError(r: Outcome) {
    r.Err? && r.error.TypeError?
  }

  /** The dispatcher: union, simple class, or generic with an origin. */
  function Cast(conv: Converter, v: Value, s: Shape): Outcome
    decreases s, 5
  {
    match s
    case Union(_) => CastUnion(conv, v, s)
    case Prim(k) => if IsInstance(v, k) then Ok(v) else Convert(conv, v, k)
    // isinstance() against a forward reference raises before any cast is tried
    case SelfRef(_) => Err(TypeError(NotAType))
    case Other(o, _) =>
      if !o.isType then Err(TypeError(NotAType))
      else if TagOf(v) in o.instances then Ok(v)
      else if o.iterable && !o.textual then CastFallback(conv, v, s)
      else Err(TypeError(NoHandler(o.name)))
    case SeqOf(_, _) => CastSeq(conv, v, s)
    case TupleVar(_) => CastTuple(conv, v, s)
    case TupleFixed(_) => CastTuple(conv, v, s)
    case MapOf(_, _) => CastDict(conv, v, s)
  }

  /**
   * None stays None when the union admits it; a value that already is a member is kept
   * (a container member is cast, and kept as it is when that cast raises a TypeError);
   * otherwise the members are tried in order.
   */
  function CastUnion(conv: Converter, v: Value, s: Shape): Outcome
    requires s.Union?
    decreases s, 4
  {
    if v == VNone && NoneShape in s.members then Ok(VNone)
    else
      match UnionExisting(conv, v, s, 0)
      case Some(r) => r
      case None => UnionAttempt(conv, v, s, 0)
  }

  /** A TypeError from casting a matching container member gives the value back unchanged. */
  function Rescue(r: Outcome, v: Value): (out: Outcome)
    ensures out.Ok? <==> r.Ok? || IsTypeError(r)
  {
    if IsTypeError(r) then Ok(v) else r
  }

  /**
   * The membership pass from member `i` on: None when no member admits the value. A
   * forward-reference, nested-union or non-class member makes isinstance() raise.
   */
  function UnionExisting(conv: Converter, v: Value, s: Shape, i: nat): Option<Outcome>
    requires s.Union? && i <= |s.members|
    decreases s, 3, |s.members| - i
  {
    if i == |s.members| then None
    else
      var m := s.members[i];
      if m == NoneShape then UnionExisting(conv, v, s, i + 1)
      else
        match m
        case Prim(k) => if IsInstance(v, k) then Some(Ok(v)) else UnionExisting(conv, v, s, i + 1)
        case SelfRef(_) => Some(Err(TypeError(NotAType)))
        case Union(_) => Some(Err(TypeError(NotAType)))
        case _ =>
          if m.Other? && !m.origin.isType then Some(Err(TypeError(NotAType)))
          else if OriginAdmits(v, m) then Some(Rescue(Cast(conv, v, m), v))
          else UnionExisting(conv, v, s, i + 1)
  }

  /**
   * The attempt pass from member `i` on: the first member whose cast does not raise a
   * TypeError decides; the None member is only tried for None.
   */
  function UnionAttempt(conv: Converter, v: Value, s: Shape, i: nat): (r: Outcome)
    requires s.Union? && i <= |s.members|
    decreases s, 3, |s.members| - i
  {
    if i == |s.members| then Err(TypeError(UnionNoMatch))
    else if !Eligible(v, s.members[i]) then UnionAttempt(conv, v, s, i + 1)
    else
      var r := Cast(conv, v, s.members[i]);
      if IsTypeError(r) then UnionAttempt(conv, v, s, i + 1) else r
  }

  /**
   * The attempt pass returns the cast to the first eligible member that does not raise a
   * TypeError, and "cannot cast to any type in Union" exactly when every eligible member raises one.
   */
  lemma {:induction false} UnionAttemptFacts(conv: Converter, v: Value, s: Shape, i: nat)
    requires s.Union? && i <= |s.members|
    ensures var r := UnionAttempt(conv, v, s, i);
      && (!IsTypeError(r) ==>
            exists j :: i <= j < |s.members| && Eligible(v, s.members[j]) && Cast(conv, v, s.members[j]) == r &&
              forall l :: i <= l < j && Eligible(v, s.members[l]) ==> IsTypeError(Cast(conv, v, s.members[l])))
      && (IsTypeError(r) <==>
            forall j :: i <= j < |s.members| && Eligible(v, s.members[j]) ==> IsTypeError(Cast(conv, v, s.members[j])))
      && (IsTypeError(r) ==> r == Err(TypeError(UnionNoMatch)))
    decreases |s.members| - i
  {
    if i < |s.members| {
      UnionAttemptFacts(conv, v, s, i + 1);
    }
  }

  /** The attempt pass skips the None member unless the value is None. */
  predicate Eligible(v: Value, m: Shape) {
    m != NoneShape || v == VNone
  }

  function Convert(conv: Converter, v: Value, k: PrimKind): Outcome {
    if k == BoolType && v.VStr? then BoolText(v.s)
    // NoneType() takes no arguments
    else if k == NoneType then Err(TypeError(ConversionFailed(PrimName(NoneType))))
    else
      match conv(PrimCtor(k), v)
      case Ok(w) => Ok(w)
      // only ValueError and TypeError are turned into the caster's TypeError
      case Err(e) => if e.TypeError? || e.ValueError? then Err(TypeError(ConversionFailed(PrimName(k)))) else Err(e)
  }

  const TrueWords: seq<string> := ["true", "1", "yes"]
  const FalseWords: seq<string> := ["false", "0", "no", ""]

  /** Text becomes a bool only through the case-insensitive word lists. */
  function BoolText(t: string): Outcome {
    var l := Lower(t);
    if l in TrueWords then Ok(VBool(true))
    else if l in FalseWords then Ok(VBool(false))
    else Err(TypeError(ConversionFailed(PrimName(BoolType))))
  }

  /** Every element, in iteration order; the first exception wins. */
  function CastEach(conv: Converter, xs: seq<Value>, e: Shape): (r: Result<seq<Value>, Exc>)
    ensures r.Ok? ==> |r.value| == |xs|
    decreases e, 6, |xs|
  {
    if xs == [] then Ok([])
    else
      match CastEach(conv, xs[..|xs| - 1], e)
      case Err(x) => Err(x)
      case Ok(ys) =>
        match Cast(conv, xs[|xs| - 1], e)
        case Err(x) => Err(x)
        case Ok(y) => Ok(ys + [y])
  }

  /** list, set and deque are rebuilt from the cast elements; frozenset adds them one by one. */
  function CastSeq(conv: Converter, v: Value, s: Shape): Outcome
    requires s.SeqOf?
    decreases s, 4
  {
    match Iterate(v)
    case None => Err(TypeError(NotIterable))
    case Some(xs) =>
      if s.sk == FrozenSet then
        match CastFrozen(conv, xs, s.elem)
        case Err(x) => Err(x)
        case Ok(acc) => Ok(VColl(FrozenSet, acc))
      else
        match CastEach(conv, xs, s.elem)
        case Err(x) => Err(x)
        case Ok(ys) =>
          if s.sk != Set then Ok(VColl(s.sk, ys))
          else if AllHashable(ys) then Ok(VColl(Set, SetOf(ys)))
          else Err(TypeError(Unhashable))
  }

  /** The frozenset handler: cast an element, then add it to a growing set. */
  function CastFrozen(conv: Converter, xs: seq<Value>, e: Shape): (r: Result<seq<Value>, Exc>)
    ensures r.Ok? ==> Distinct(r.value) && AllHashable(r.value)
    decreases e, 6, |xs|
  {
    if xs == [] then Ok([])
    else
      match CastFrozen(conv, xs[..|xs| - 1], e)
      case Err(x) => Err(x)
      case Ok(acc) =>
        match Cast(conv, xs[|xs| - 1], e)
        case Err(x) => Err(x)
        case Ok(y) => if Hashable(y) then Ok(SetAdd(acc, y)) else Err(TypeError(Unhashable))
  }

  /** Variadic tuples cast every element; fixed tuples need `len(value)` equal to the arity. */
  function CastTuple(conv: Converter, v: Value, s: Shape): Outcome
    requires s.TupleVar? || s.TupleFixed?
    decreases s, 4
  {
    match Iterate(v)
    case None => Err(TypeError(NotIterable))
    case Some(xs) =>
      if s.TupleVar? then
        match CastEach(conv, xs, s.elem)
        case Err(x) => Err(x)
        case Ok(ys) => Ok(VColl(Tuple, ys))
      else if |s.elems| != |xs| then Err(TypeError(ArityMismatch(|s.elems|, |xs|)))
      else
        match CastZip(conv, xs, s, |xs|)
        case Err(x) => Err(x)
        case Ok(ys) => Ok(VColl(Tuple, ys))
  }

  /** The first `n` positions of a fixed tuple, each against its own shape. */
  function CastZip(conv: Converter, xs: seq<Value>, s: Shape, n: nat): (r: Result<seq<Value>, Exc>)
    requires s.TupleFixed? && |xs| == |s.elems| && n <= |xs|
    ensures r.Ok? ==> |r.value| == n
    decreases s, 1, n
  {
    if n == 0 then Ok([])
    else
      match CastZip(conv, xs, s, n - 1)
      case Err(x) => Err(x)
      case Ok(ys) =>
        match Cast(conv, xs[n - 1], s.elems[n - 1])
        case Err(x) => Err(x)
        case Ok(y) => Ok(ys + [y])
  }

  /**
   * Every mapping kind goes through the same handler: it needs exactly two type arguments
   * and a value with `.items()`, and builds a plain dict.
   */
  function CastDict(conv: Converter, v: Value, s: Shape): Outcome
    requires s.MapOf?
    decreases s, 4
  {
    if !s.args.KeyVal? then Err(ValueError(NotEnoughTypeArgs))
    else if !v.VDict? then Err(AttributeError(NoItems))
    else
      match CastEntries(conv, v.entries, s, |v.entries|)
      case Err(x) => Err(x)
      case Ok(es) => Ok(VDict(Dict, es))
  }

  /** The first `n` entries: key cast, value cast, then `new_dict[key] = value`. */
  function CastEntries(conv: Converter, es: seq<(Value, Value)>, s: Shape, n: nat): (r: Result<seq<(Value, Value)>, Exc>)
    requires s.MapOf? && s.args.KeyVal? && n <= |es|
    ensures r.Ok? ==> |r.value| <= n && Distinct(Keys(r.value)) && AllHashable(Keys(r.value))
    decreases s, 1, n
  {
    if n == 0 then Ok([])
    else
      match CastEntries(conv, es, s, n - 1)
      case Err(x) => Err(x)
      case Ok(acc) =>
        match Cast(conv, es[n - 1].0, s.args.key)
        case Err(x) => Err(x)
        case Ok(k) =>
          match Cast(conv, es[n - 1].1, s.args.val)
          case Err(x) => Err(x)
          case Ok(y) =>
            if Hashable(k) then
              DictSetKeys(acc, k, y);
              Ok(DictSet(acc, k, y))
            else Err(TypeError(Unhashable))
  }

  /** A successful walk of `n` entries is a successful walk of `n - 1` followed by one `new_dict[key] = value`. */
  lemma CastEntriesStep(conv: Converter, es: seq<(Value, Value)>, s: Shape, n: nat)
    requires s.MapOf? && s.args.KeyVal? && 0 < n <= |es| && CastEntries(conv, es, s, n).Ok?
    ensures CastEntries(conv, es, s, n - 1).Ok?
    ensures Cast(conv, es[n - 1].0, s.args.key).Ok? && Cast(conv, es[n - 1].1, s.args.val).Ok?
    ensures Hashable(Cast(conv, es[n - 1].0, s.args.key).value)
    ensures CastEntries(conv, es, s, n) ==
      Ok(DictSet(CastEntries(conv, es, s, n - 1).value, Cast(conv, es[n - 1].0, s.args.key).value, Cast(conv, es[n - 1].1, s.args.val).value))
  {
  }

  /** A built dict holds the cast of every source key. */
  lemma CastEntriesCovers(conv: Converter, es: seq<(Value, Value)>, s: Shape, n: nat)
    requires s.MapOf? && s.args.KeyVal? && n <= |es| && CastEntries(conv, es, s, n).Ok?
    ensures forall j :: 0 <= j < n ==>
      Cast(conv, es[j].0, s.args.key).Ok? && Cast(conv, es[j].0, s.args.key).value in Keys(CastEntries(conv, es, s, n).value)
  {
    forall j | 0 <= j < n
      ensures Cast(conv, es[j].0, s.args.key).Ok? && Cast(conv, es[j].0, s.args.key).value in Keys(CastEntries(conv, es, s, n).value)
    {
      KeyCovered(conv, es, s, n, j);
    }
  }

  /** The cast of source key `j` is a key of the dict built from the first `n` entries. */
  lemma {:induction false} KeyCovered(conv: Converter, es: seq<(Value, Value)>, s: Shape, n: nat, j: nat)
    requires s.MapOf? && s.args.KeyVal? && j < n <= |es| && CastEntries(conv, es, s, n).Ok?
    ensures Cast(conv, es[j].0, s.args.key).Ok? && Cast(conv, es[j].0, s.args.key).value in Keys(CastEntries(conv, es, s, n).value)
    decreases n
  {
    CastEntriesStep(conv, es, s, n);
    if j < n - 1 {
      KeyCovered(conv, es, s, n - 1, j);
    }
  }

  /** Each entry of a built dict is the cast key and cast value of some source entry. */
  lemma CastEntriesFrom(conv: Converter, es: seq<(Value, Value)>, s: Shape, n: nat)
    requires s.MapOf? && s.args.KeyVal? && n <= |es| && CastEntries(conv, es, s, n).Ok?
    ensures forall e :: e in CastEntries(conv, es, s, n).value ==> EntryFrom(conv, es, s, n, e)
  {
    forall e | e in CastEntries(conv, es, s, n).value ensures EntryFrom(conv, es, s, n, e) {
      EntryCameFrom(conv, es, s, n, e);
    }
  }

  /** One entry of a built dict comes from some source entry. */
  lemma {:induction false} EntryCameFrom(conv: Converter, es: seq<(Value, Value)>, s: Shape, n: nat, e: (Value, Value))
    requires s.MapOf? && s.args.KeyVal? && n <= |es| && CastEntries(conv, es, s, n).Ok?
    requires e in CastEntries(conv, es, s, n).value
    ensures EntryFrom(conv, es, s, n, e)
    decreases n
  {
    CastEntriesStep(conv, es, s, n);
    var k, y := Cast(conv, es[n - 1].0, s.args.key), Cast(conv, es[n - 1].1, s.args.val);
    var acc := CastEntries(conv, es, s, n - 1).value;
    if e == (k.value, y.value) {
      assert 0 <= n - 1 < n && k == Ok(e.0) && y == Ok(e.1);
    } else {
      assert e in acc;
      EntryCameFrom(conv, es, s, n - 1, e);
      EntryFromWiden(conv, es, s, n - 1, e);
    }
  }

  lemma EntryFromWiden(conv: Converter, es: seq<(Value, Value)>, s: Shape, n: nat, e: (Value, Value))
    requires s.MapOf? && s.args.KeyVal? && n < |es| && EntryFrom(conv, es, s, n, e)
    ensures EntryFrom(conv, es, s, n + 1, e)
  {
    var j :| 0 <= j < n && Cast(conv, es[j].0, s.args.key) == Ok(e.0) && Cast(conv, es[j].1, s.args.val) == Ok(e.1);
    assert 0 <= j < n + 1;
  }

  ghost predicate EntryFrom(conv: Converter, es: seq<(Value, Value)>, s: Shape, n: nat, e: (Value, Value))
    requires s.MapOf? && s.args.KeyVal? && n <= |es|
    decreases s, 0
  {
    exists j :: 0 <= j < n && Cast(conv, es[j].0, s.args.key) == Ok(e.0) && Cast(conv, es[j].1, s.args.val) == Ok(e.1)
  }

  /** An unknown iterable origin: cast the elements, then call the origin on the list. */
  function CastFallback(conv: Converter, v: Value, s: Shape): Outcome
    requires s.Other?
    decreases s, 4
  {
    match Iterate(v)
    case None => Err(TypeError(NotIterable))
    case Some(xs) =>
      match CastEach(conv, xs, s.elem)
      case Err(x) => Err(x)
      case Ok(ys) =>
        // whatever the origin raises escapes as it is
        conv(OriginCtor(s.origin), VColl(List, ys))
  }

  /** Once a prefix of the elements raises, the whole walk raises the same exception. */
  lemma {:induction false} CastEachStops(conv: Converter, xs: seq<Value>, e: Shape, j: nat)
    requires j <= |xs| && CastEach(conv, xs[..j], e).Err?
    ensures CastEach(conv, xs, e) == CastEach(conv, xs[..j], e)
    decreases |xs| - j
  {
    if j < |xs| {
      assert xs[..j + 1][..j] == xs[..j];
      CastEachStops(conv, xs, e, j + 1);
    } else {
      assert xs[..j] == xs;
    }
  }

  lemma {:induction false} CastFrozenStops(conv: Converter, xs: seq<Value>, e: Shape, j: nat)
    requires j <= |xs| && CastFrozen(conv, xs[..j], e).Err?
    ensures CastFrozen(conv, xs, e) == CastFrozen(conv, xs[..j], e)
    decreases |xs| - j
  {
    if j < |xs| {
      assert xs[..j + 1][..j] == xs[..j];
      CastFrozenStops(conv, xs, e, j + 1);
    } else {
      assert xs[..j] == xs;
    }
  }

  /** Position `i` of a successful fixed-tuple walk holds that position's cast. */
  lemma {:induction false} CastZipAt(conv: Converter, xs: seq<Value>, s: Shape, n: nat, i: nat)
    requires s.TupleFixed? && |xs| == |s.elems| && i < n <= |xs| && CastZip(conv, xs, s, n).Ok?
    ensures Cast(conv, xs[i], s.elems[i]) == Ok(CastZip(conv, xs, s, n).value[i])
    decreases n
  {
    if i < n - 1 {
      CastZipAt(conv, xs, s, n - 1, i);
    }
  }

  /** A fixed tuple's positions succeed iff each position's cast does, and then hold those casts in order. */
  lemma {:induction false} CastZipFacts(conv: Converter, xs: seq<Value>, s: Shape, n: nat)
    requires s.TupleFixed? && |xs| == |s.elems| && n <= |xs|
    ensures CastZip(conv, xs, s, n).Ok? <==> forall i :: 0 <= i < n ==> Cast(conv, xs[i], s.elems[i]).Ok?
    ensures CastZip(conv, xs, s, n).Ok? ==> forall i :: 0 <= i < n ==> Cast(conv, xs[i], s.elems[i]) == Ok(CastZip(conv, xs, s, n).value[i])
    decreases n
  {
    if n > 0 {
      CastZipFacts(conv, xs, s, n - 1);
    }
  }

  lemma {:induction false} CastZipStops(conv: Converter, xs: seq<Value>, s: Shape, j: nat, n: nat)
    requires s.TupleFixed? && |xs| == |s.elems| && j <= n <= |xs| && CastZip(conv, xs, s, j).Err?
    ensures CastZip(conv, xs, s, n) == CastZip(conv, xs, s, j)
    decreases n - j
  {
    if j < n {
      CastZipStops(conv, xs, s, j + 1, n);
    }
  }

  lemma {:induction false} CastEntriesStops(conv: Converter, es: seq<(Value, Value)>, s: Shape, j: nat, n: nat)
    requires s.MapOf? && s.args.KeyVal? && j <= n <= |es| && CastEntries(conv, es, s, j).Err?
    ensures CastEntries(conv, es, s, n) == CastEntries(conv, es, s, j)
    decreases n - j
  {
    if j < n {
      CastEntriesStops(conv, es, s, j + 1, n);
    }
  }

  /** One more element: the walk of `xs[..i + 1]` from the walk of `xs[..i]`. */
  lemma CastEachSnoc(conv: Converter, xs: seq<Value>, e: Shape, i: nat)
    requires i < |xs| && CastEach(conv, xs[..i], e).Ok?
    ensures Cast(conv, xs[i], e).Err? ==> CastEach(conv, xs[..i + 1], e) == Err(Cast(conv, xs[i], e).error)
    ensures Cast(conv, xs[i], e).Ok? ==>
      CastEach(conv, xs[..i + 1], e) == Ok(CastEach(conv, xs[..i], e).value + [Cast(conv, xs[i], e).value])
  {
    assert xs[..i + 1][..i] == xs[..i];
  }

  /** The walk succeeds iff every element casts, and then holds the cast of each element in place. */
  lemma {:induction false} CastEachPointwise(conv: Converter, xs: seq<Value>, e: Shape)
    ensures CastEach(conv, xs, e).Ok? <==> forall i :: 0 <= i < |xs| ==> Cast(conv, xs[i], e).Ok?
    ensures CastEach(conv, xs, e).Ok? ==> forall i :: 0 <= i < |xs| ==> Cast(conv, xs[i], e) == Ok(CastEach(conv, xs, e).value[i])
    decreases |xs|
  {
    if xs != [] {
      var p := xs[..|xs| - 1];
      CastEachPointwise(conv, p, e);
      assert forall i :: 0 <= i < |p| ==> p[i] == xs[i];
    }
  }

  /** A failed walk raises what the cast of some element raised. */
  lemma {:induction false} CastEachFails(conv: Converter, xs: seq<Value>, e: Shape)
    requires CastEach(conv, xs, e).Err?
    ensures exists i :: 0 <= i < |xs| && Cast(conv, xs[i], e) == Err(CastEach(conv, xs, e).error)
    decreases |xs|
  {
    var p := xs[..|xs| - 1];
    assert forall i :: 0 <= i < |p| ==> p[i] == xs[i];
    if CastEach(conv, p, e).Err? {
      CastEachFails(conv, p, e);
    }
  }

  lemma CastFrozenSnoc(conv: Converter, xs: seq<Value>, e: Shape, i: nat)
    requires i < |xs| && CastFrozen(conv, xs[..i], e).Ok?
    ensures Cast(conv, xs[i], e).Err? ==> CastFrozen(conv, xs[..i + 1], e) == Err(Cast(conv, xs[i], e).error)
    ensures Cast(conv, xs[i], e).Ok? && !Hashable(Cast(conv, xs[i], e).value) ==>
      CastFrozen(conv, xs[..i + 1], e) == Err(TypeError(Unhashable))
    ensures Cast(conv, xs[i], e).Ok? && Hashable(Cast(conv, xs[i], e).value) ==>
      CastFrozen(conv, xs[..i + 1], e) == Ok(SetAdd(CastFrozen(conv, xs[..i], e).value, Cast(conv, xs[i], e).value))
  {
    assert xs[..i + 1][..i] == xs[..i];
  }

  /** One more entry whose key and value both cast, with a hashable key: `new_dict[key] = value`. */
  lemma CastEntriesSnoc(conv: Converter, es: seq<(Value, Value)>, s: Shape, n: nat)
    requires s.MapOf? && s.args.KeyVal? && 0 < n <= |es| && CastEntries(conv, es, s, n - 1).Ok?
    requires Cast(conv, es[n - 1].0, s.args.key).Ok? && Cast(conv, es[n - 1].1, s.args.val).Ok?
    requires Hashable(Cast(conv, es[n - 1].0, s.args.key).value)
    ensures CastEntries(conv, es, s, n) ==
      Ok(DictSet(CastEntries(conv, es, s, n - 1).value, Cast(conv, es[n - 1].0, s.args.key).value, Cast(conv, es[n - 1].1, s.args.val).value))
  {
  }

  /** A frozenset cast that succeeds succeeded on all but the last element and adds that element's hashable cast. */
  lemma CastFrozenStep(conv: Converter, xs: seq<Value>, e: Shape)
    requires xs != [] && CastFrozen(conv, xs, e).Ok?
    ensures var n := |xs| - 1;
      && CastFrozen(conv, xs[..n], e).Ok? && Cast(conv, xs[n], e).Ok? && Hashable(Cast(conv, xs[n], e).value)
      && CastFrozen(conv, xs, e).value == SetAdd(CastFrozen(conv, xs[..n], e).value, Cast(conv, xs[n], e).value)
  {
  }

  /** Every member of a cast frozenset is the cast of some element. */
  lemma {:induction false} FrozenMemberFrom(conv: Converter, xs: seq<Value>, e: Shape, y: Value)
    requires CastFrozen(conv, xs, e).Ok? && y in CastFrozen(conv, xs, e).value
    ensures exists i :: 0 <= i < |xs| && Cast(conv, xs[i], e) == Ok(y)
    decreases |xs|
  {
    assert xs != [];
    var n := |xs| - 1;
    CastFrozenStep(conv, xs, e);
    if y == Cast(conv, xs[n], e).value {
      assert Cast(conv, xs[n], e) == Ok(y);
    } else {
      FrozenMemberFrom(conv, xs[..n], e, y);
      var i :| 0 <= i < n && Cast(conv, xs[..n][i], e) == Ok(y);
      assert xs[..n][i] == xs[i];
    }
  }

  /** The cast of every element is a member of the cast frozenset. */
  lemma {:induction false} FrozenMemberIn(conv: Converter, xs: seq<Value>, e: Shape, i: nat)
    requires CastFrozen(conv, xs, e).Ok? && i < |xs|
    ensures Cast(conv, xs[i], e).Ok? && Cast(conv, xs[i], e).value in CastFrozen(conv, xs, e).value
    decreases |xs|
  {
    var n := |xs| - 1;
    CastFrozenStep(conv, xs, e);
    if i < n {
      FrozenMemberIn(conv, xs[..n], e, i);
      assert xs[..n][i] == xs[i];
    }
  }

  /** The members of a cast frozenset are exactly the cast elements. */
  lemma FrozenMembers(conv: Converter, xs: seq<Value>, e: Shape)
    requires CastFrozen(conv, xs, e).Ok?
    ensures forall y :: y in CastFrozen(conv, xs, e).value <==> exists i :: 0 <= i < |xs| && Cast(conv, xs[i], e) == Ok(y)
  {
    forall y ensures y in CastFrozen(conv, xs, e).value <==> exists i :: 0 <= i < |xs| && Cast(conv, xs[i], e) == Ok(y) {
      if y in CastFrozen(conv, xs, e).value {
        FrozenMemberFrom(conv, xs, e, y);
      }
      if exists i :: 0 <= i < |xs| && Cast(conv, xs[i], e) == Ok(y) {
        var i :| 0 <= i < |xs| && Cast(conv, xs[i], e) == Ok(y);
        FrozenMemberIn(conv, xs, e, i);
      }
    }
  }
}

=== FILE: dunders.dfy ===
/**
 * Comparison and hashing of record objects. Every comparison dunder refuses an object of
 * another exact class (NotImplemented) and otherwise compares key tuples read from both
 * objects: the eq keys for `==`, the order keys for `<`, `<=`, `>`, `>=`. The hash is
 * taken of a tuple of hashable surrogates, one per hash key; a dict's surrogate is its
 * items sorted by key, so two dicts with the same items have the same surrogate.
 */
module Dunders {
  import opened Wrappers
  import opened Values
  import opened Errors
  import opened Ordering
  import opened Records

  /** What a comparison dunder returns: NotImplemented, or the comparison's answer. */
  datatype CmpResult = NotImplemented | Answer(b: bool)

  /** `tuple(getattr(self, k) for k in keys)`: the first failed read raises. */
  function KeyValues(r: Record, keys: seq<string>): (res: Result<seq<Value>, Exc>)
    reads r, r.cls
    ensures res.Ok? <==> forall i :: 0 <= i < |keys| ==> GetAttr(r, keys[i]).Ok?
    ensures res.Ok? ==> |res.value| == |keys| && forall i :: 0 <= i < |keys| ==> res.value[i] == GetAttr(r, keys[i]).value
    ensures res.Err? ==> exists i :: 0 <= i < |keys| && GetAttr(r, keys[i]) == Err(res.error)
    decreases |keys|
  {
    if keys == [] then Ok([])
    else
      var init := keys[..|keys| - 1];
      assert forall i :: 0 <= i < |init| ==> init[i] == keys[i];
      match KeyValues(r, init)
      case Err(e) => Err(e)
      case Ok(vs) =>
        match GetAttr(r, keys[|keys| - 1])
        case Err(e) => Err(e)
        case Ok(v) => Ok(vs + [v])
  }

  /** The key tuple an operator compares: the eq keys for `==`, the order keys otherwise. */
  function KeysFor(cls: RecordClass, op: CmpOp): seq<string>
    reads cls
  {
    if op == Eq then cls.eqKeys else cls.orderKeys
  }

  /**
   * `_cmp_factory`: an object of another exact class is not comparable; otherwise the
   * left object's key tuple is read, then the right one's, and the operator is applied.
   */
  function Compare(a: Record, b: Record, op: CmpOp): Result<CmpResult, Exc>
    reads a, a.cls, b, b.cls
  {
    if a.cls != b.cls then Ok(NotImplemented)
    else
      match KeyValues(a, KeysFor(a.cls, op))
      case Err(e) => Err(e)
      case Ok(s) =>
        match KeyValues(b, KeysFor(a.cls, op))
        case Err(e) => Err(e)
        case Ok(t) =>
          match TupleCompare(op, s, t)
          case Err(e) => Err(e)
          case Ok(x) => Ok(Answer(x))
  }

  /** Objects of different exact classes are never compared, whatever their keys. */
  lemma OtherClassNotComparable(a: Record, b: Record, op: CmpOp)
    requires a.cls != b.cls
    ensures Compare(a, b, op) == Ok(NotImplemented)
  {
  }

  /** Two objects of one class are equal exactly when their eq-key values are. */
  lemma EqualityIsKeyEquality(a: Record, b: Record)
    requires a.cls == b.cls
    requires KeyValues(a, a.cls.eqKeys).Ok? && KeyValues(b, a.cls.eqKeys).Ok?
    ensures Compare(a, b, Eq) == Ok(Answer(KeyValues(a, a.cls.eqKeys).value == KeyValues(b, a.cls.eqKeys).value))
  {
    TupleEquality(KeyValues(a, a.cls.eqKeys).value, KeyValues(b, a.cls.eqKeys).value);
  }

  /** `a > b` answers as `b < a` and `a >= b` as `b <= a` once both key tuples are read. */
  lemma GreaterIsFlippedLess(a: Record, b: Record)
    requires a.cls == b.cls
    requires KeyValues(a, a.cls.orderKeys).Ok? && KeyValues(b, a.cls.orderKeys).Ok?
    ensures Compare(a, b, Gt) == Compare(b, a, Lt)
    ensures Compare(a, b, Ge) == Compare(b, a, Le)
  {
    TupleFlip(KeyValues(a, a.cls.orderKeys).value, KeyValues(b, a.cls.orderKeys).value);
  }

  /** `a <= b` answers as `a < b`, except that equal order-key values give true outright. */
  lemma LessEqualIsLessOrSame(a: Record, b: Record)
    requires a.cls == b.cls
    requires KeyValues(a, a.cls.orderKeys).Ok? && KeyValues(b, a.cls.orderKeys).Ok?
    ensures KeyValues(a, a.cls.orderKeys) == KeyValues(b, a.cls.orderKeys) ==> Compare(a, b, Le) == Ok(Answer(true))
    ensures KeyValues(a, a.cls.orderKeys) != KeyValues(b, a.cls.orderKeys) ==> Compare(a, b, Le) == Compare(a, b, Lt)
  {
    TupleLeIsLtOrEq(KeyValues(a, a.cls.orderKeys).value, KeyValues(b, a.cls.orderKeys).value);
  }

  /** Ordering is a strict order on the objects it answers for: `a < b` excludes `b < a`. */
  lemma LessIsAsymmetric(a: Record, b: Record)
    requires Compare(a, b, Lt) == Ok(Answer(true))
    ensures Compare(b, a, Lt) == Ok(Answer(false))
  {
    TupleAsymmetric(KeyValues(a, a.cls.orderKeys).value, KeyValues(b, a.cls.orderKeys).value);
  }

  /** No object is less than itself. */
  lemma LessIsIrreflexive(a: Record)
    requires KeyValues(a, a.cls.orderKeys).Ok?
    ensures Compare(a, a, Lt) == Ok(Answer(false))
  {
    TupleIrreflexive(KeyValues(a, a.cls.orderKeys).value);
  }

  /** A hashable stand-in for a value: the value itself, a tuple of stand-ins, or the value's text form. */
  datatype Surrogate = Same(v: Value) | Tup(items: seq<Surrogate>) | Text(of: Value)

  /** The families of dict keys that `sorted` can order among themselves. */
  datatype Family = NumFamily | TextFamily | BytesFamily | OtherFamily

  function FamilyOf(k: Value): Family {
    if IsNumber(k) then NumFamily
    else if k.VStr? then TextFamily
    else if k.VBytes? then BytesFamily
    else OtherFamily
  }

  /** The position of a key in its family's order, as an integer sequence compared lexicographically. */
  function Rank(k: Value): seq<int> {
    if IsNumber(k) then [Num(k)]
    else if k.VStr? then Codes(k.s)
    else if k.VBytes? then k.data
    else []
  }

  /** Within a family, `<` on keys is the lexicographic order of their ranks. */
  lemma RankOrdersKeys(x: Value, y: Value)
    requires FamilyOf(x) == FamilyOf(y) != OtherFamily
    ensures Less(x, y) == Ok(LexLess(Rank(x), Rank(y)))
  {
  }

  /**
   * Whether `sorted` orders the given keys without raising: any two different keys
   * belong to one orderable family and are not equal as numbers.
   */
  predicate Sortable(keys: seq<Value>) {
    forall a, b :: a in keys && b in keys && a != b ==>
      FamilyOf(a) == FamilyOf(b) && FamilyOf(a) != OtherFamily && Rank(a) != Rank(b)
  }

  /** Items in strictly increasing key order. */
  predicate StrictlySorted(ps: seq<(Value, Surrogate)>) {
    forall i, j :: 0 <= i < j < |ps| ==> LexLess(Rank(ps[i].0), Rank(ps[j].0))
  }

  /** Puts an item before the first item with a greater key. */
  function Insert(p: (Value, Surrogate), ps: seq<(Value, Surrogate)>): (r: seq<(Value, Surrogate)>)
    ensures |r| == |ps| + 1
    ensures forall x :: x in r <==> x == p || x in ps
  {
    if ps == [] then [p]
    else if LexLess(Rank(p.0), Rank(ps[0].0)) then [p] + ps
    else [ps[0]] + Insert(p, ps[1..])
  }

  /** Inserting an item whose key rank is new keeps the items strictly sorted. */
  lemma {:induction false} InsertSorted(p: (Value, Surrogate), ps: seq<(Value, Surrogate)>)
    requires StrictlySorted(ps)
    requires forall x :: x in ps ==> Rank(x.0) != Rank(p.0)
    ensures StrictlySorted(Insert(p, ps))
  {
    if ps != [] {
      if LexLess(Rank(p.0), Rank(ps[0].0)) {
        forall j | 0 < j < |ps| ensures LexLess(Rank(p.0), Rank(ps[j].0)) {
          LexTransitive(Rank(p.0), Rank(ps[0].0), Rank(ps[j].0));
        }
      } else {
        assert ps[0] in ps;
        LexTotal(Rank(p.0), Rank(ps[0].0));
        InsertSorted(p, ps[1..]);
        var rest := Insert(p, ps[1..]);
        forall x | x in rest ensures LexLess(Rank(ps[0].0), Rank(x.0)) {
          if x != p {
            var j :| 0 <= j < |ps[1..]| && ps[1..][j] == x;
            assert ps[j + 1] == x;
          }
        }
        assert forall j :: 0 <= j < |rest| ==> rest[j] in rest;
      }
    }
  }

  /** `sorted(items)`: an insertion sort on key rank, one item at a time. */
  function SortItems(ps: seq<(Value, Surrogate)>): (r: seq<(Value, Surrogate)>)
    ensures |r| == |ps|
    ensures forall x :: x in r <==> x in ps
    decreases |ps|
  {
    if ps == [] then []
    else
      var init := ps[..|ps| - 1];
      assert forall x :: x in ps <==> x in init || x == ps[|ps| - 1];
      Insert(ps[|ps| - 1], SortItems(init))
  }

  /** Items with pairwise different key ranks come out strictly sorted. */
  lemma {:induction false} SortItemsSorted(ps: seq<(Value, Surrogate)>)
    requires forall i, j :: 0 <= i < j < |ps| ==> Rank(ps[i].0) != Rank(ps[j].0)
    ensures StrictlySorted(SortItems(ps))
    decreases |ps|
  {
    if ps != [] {
      var init := ps[..|ps| - 1];
      var last := ps[|ps| - 1];
      SortItemsSorted(init);
      forall x | x in SortItems(init) ensures Rank(x.0) != Rank(last.0) {
        var j :| 0 <= j < |init| && init[j] == x;
        assert ps[j] == x;
      }
      InsertSorted(last, SortItems(init));
    }
  }

  /** Two strictly sorted item sequences with the same items are the same sequence. */
  lemma {:induction false} SortedIsUnique(xs: seq<(Value, Surrogate)>, ys: seq<(Value, Surrogate)>)
    requires StrictlySorted(xs) && StrictlySorted(ys)
    requires forall x :: x in xs <==> x in ys
    ensures xs == ys
    decreases |xs|
  {
    SameMembersEmpty(xs, ys);
    if xs != [] {
      SortedHeadsMatch(xs, ys);
      SortedTailMembers(xs, ys);
      SortedTailMembers(ys, xs);
      SortedIsUnique(xs[1..], ys[1..]);
      assert xs == [xs[0]] + xs[1..] && ys == [ys[0]] + ys[1..];
    }
  }

  /** Two sequences with the same members are empty together. */
  lemma SameMembersEmpty(xs: seq<(Value, Surrogate)>, ys: seq<(Value, Surrogate)>)
    requires forall x :: x in xs <==> x in ys
    ensures xs == [] <==> ys == []
  {
    if xs != [] {
      assert xs[0] in xs;
    }
    if ys != [] {
      assert ys[0] in ys;
    }
  }

  /** Two sorted sequences with the same members start with the same item. */
  lemma SortedHeadsMatch(xs: seq<(Value, Surrogate)>, ys: seq<(Value, Surrogate)>)
    requires StrictlySorted(xs) && StrictlySorted(ys) && xs != []
    requires forall x :: x in xs <==> x in ys
    ensures ys != [] && xs[0] == ys[0]
  {
    assert xs[0] in xs;
    assert ys[0] in ys;
    if xs[0] != ys[0] {
      var j :| 0 <= j < |ys| && ys[j] == xs[0];
      var k :| 0 <= k < |xs| && xs[k] == ys[0];
      assert LexLess(Rank(ys[0].0), Rank(xs[0].0));
      assert LexLess(Rank(xs[0].0), Rank(ys[0].0));
      LexAsymmetric(Rank(xs[0].0), Rank(ys[0].0));
    }
  }

  /** Past a shared head, every later item of one is a later item of the other, and the tails stay sorted. */
  lemma SortedTailMembers(xs: seq<(Value, Surrogate)>, ys: seq<(Value, Surrogate)>)
    requires StrictlySorted(xs) && StrictlySorted(ys) && xs != [] && ys != [] && xs[0] == ys[0]
    requires forall x :: x in xs <==> x in ys
    ensures StrictlySorted(xs[1..])
    ensures forall x :: x in xs[1..] ==> x in ys[1..]
  {
    LexIrreflexive(Rank(xs[0].0));
    forall x | x in xs[1..] ensures x in ys[1..] {
      var i :| 0 <= i < |xs[1..]| && xs[1..][i] == x;
      assert LexLess(Rank(xs[0].0), Rank(xs[i + 1].0));
      assert x in ys && x != ys[0];
      var j :| 0 <= j < |ys| && ys[j] == x;
      assert ys[1..][j - 1] == x;
    }
  }

  /** The results in order, or the first failure among them. */
  function Collect(rs: seq<Result<Surrogate, Exc>>): (r: Result<seq<Surrogate>, Exc>)
    ensures r.Ok? <==> forall i :: 0 <= i < |rs| ==> rs[i].Ok?
    ensures r.Ok? ==> |r.value| == |rs| && forall i :: 0 <= i < |rs| ==> r.value[i] == rs[i].value
    ensures r.Err? ==> exists i :: 0 <= i < |rs| && rs[i] == Err(r.error)
  {
    if rs == [] then Ok([])
    else match rs[0]
      case Err(e) => Err(e)
      case Ok(s) =>
        match Collect(rs[1..])
        case Err(e) => Err(e)
        case Ok(ss) => Ok([s] + ss)
  }

  /** A dict's surrogate items, `(key, surrogate)` each, as a tuple of pairs. */
  function PairTuple(ps: seq<(Value, Surrogate)>): seq<Surrogate> {
    seq(|ps|, i requires 0 <= i < |ps| => Tup([Same(ps[i].0), ps[i].1]))
  }

  /**
   * `make_hashable`: a dict becomes its `(key, surrogate)` items sorted by key, a list or
   * set the tuple of its elements' surrogates, another iterable (not text or bytes) the
   * same or, if that raises TypeError, its text form; anything else stands for itself.
   */
  function MakeHashable(v: Value): (r: Result<Surrogate, Exc>)
    ensures r.Err? ==> r.error == TypeError(Incomparable)
    ensures r.Err? ==> v.VDict? || (v.VColl? && (v.ck == List || v.ck == Set))
    decreases v
  {
    match v
    case VDict(_, es) =>
      (match Collect(seq(|es|, i requires 0 <= i < |es| => MakeHashable(es[i].1)))
       case Err(e) => Err(e)
       case Ok(ss) =>
         if Sortable(Keys(es)) then Ok(Tup(PairTuple(SortItems(seq(|es|, i requires 0 <= i < |es| => (es[i].0, ss[i]))))))
         else Err(TypeError(Incomparable)))
    case VColl(ck, xs) =>
      (match Collect(seq(|xs|, i requires 0 <= i < |xs| => MakeHashable(xs[i])))
       case Ok(ss) => Ok(Tup(ss))
       case Err(e) => if ck == List || ck == Set then Err(e) else Ok(Text(v)))
    case VByteArray(d) => Ok(Tup(seq(|d|, i requires 0 <= i < |d| => Same(VInt(d[i])))))
    case _ => Ok(Same(v))
  }

  /** The items of a dict with their values' surrogates, when every value has one. */
  function SurrogateItems(es: seq<(Value, Value)>): seq<(Value, Surrogate)>
    requires forall i :: 0 <= i < |es| ==> MakeHashable(es[i].1).Ok?
  {
    seq(|es|, i requires 0 <= i < |es| => (es[i].0, MakeHashable(es[i].1).value))
  }

  /** The surrogates of a sequence's elements, in order, when every element has one. */
  function ElementSurrogates(xs: seq<Value>): seq<Surrogate>
    requires forall i :: 0 <= i < |xs| ==> MakeHashable(xs[i]).Ok?
  {
    seq(|xs|, i requires 0 <= i < |xs| => MakeHashable(xs[i]).value)
  }

  /** A dict whose values all have surrogates is unhashable exactly when its keys cannot be sorted. */
  lemma DictSurrogate(mk: MapKind, es: seq<(Value, Value)>)
    requires forall i :: 0 <= i < |es| ==> MakeHashable(es[i].1).Ok?
    ensures Sortable(Keys(es)) ==> MakeHashable(VDict(mk, es)) == Ok(Tup(PairTuple(SortItems(SurrogateItems(es)))))
    ensures !Sortable(Keys(es)) ==> MakeHashable(VDict(mk, es)) == Err(TypeError(Incomparable))
  {
    var rs := seq(|es|, i requires 0 <= i < |es| => MakeHashable(es[i].1));
    assert Collect(rs).Ok?;
    var ss := Collect(rs).value;
    var items := seq(|es|, i requires 0 <= i < |es| => (es[i].0, ss[i]));
    forall i | 0 <= i < |es| ensures items[i] == SurrogateItems(es)[i] {
      assert ss[i] == rs[i].value;
    }
    assert items == SurrogateItems(es);
  }

  /**
   * Insertion order does not matter: two dicts of any kinds with the same items (each
   * with distinct keys) have the same surrogate, or both raise the same TypeError.
   */
  lemma DictOrderIrrelevant(mk1: MapKind, es1: seq<(Value, Value)>, mk2: MapKind, es2: seq<(Value, Value)>)
    requires Distinct(Keys(es1)) && Distinct(Keys(es2))
    requires forall e :: e in es1 <==> e in es2
    ensures MakeHashable(VDict(mk1, es1)) == MakeHashable(VDict(mk2, es2))
  {
    var allOk1 := forall i :: 0 <= i < |es1| ==> MakeHashable(es1[i].1).Ok?;
    var allOk2 := forall i :: 0 <= i < |es2| ==> MakeHashable(es2[i].1).Ok?;
    if allOk1 {
      SameValuesHash(es1, es2);
      SortsAlike(mk1, es1, mk2, es2);
    } else if allOk2 {
      SameValuesHash(es2, es1);
    } else {
      DictValueFails(mk1, es1);
      DictValueFails(mk2, es2);
    }
  }

  /** A dict with a value that has no surrogate raises the value's TypeError. */
  lemma DictValueFails(mk: MapKind, es: seq<(Value, Value)>)
    requires exists i :: 0 <= i < |es| && MakeHashable(es[i].1).Err?
    ensures MakeHashable(VDict(mk, es)) == Err(TypeError(Incomparable))
  {
    var rs := seq(|es|, i requires 0 <= i < |es| => MakeHashable(es[i].1));
    var k :| 0 <= k < |es| && MakeHashable(es[k].1).Err?;
    assert rs[k].Err?;
    assert Collect(rs).Err?;
  }

  /** Dicts with the same items, every value hashable, sort to the same surrogate or both fail to sort. */
  lemma SortsAlike(mk1: MapKind, es1: seq<(Value, Value)>, mk2: MapKind, es2: seq<(Value, Value)>)
    requires Distinct(Keys(es1)) && Distinct(Keys(es2))
    requires forall e :: e in es1 <==> e in es2
    requires forall i :: 0 <= i < |es1| ==> MakeHashable(es1[i].1).Ok?
    requires forall i :: 0 <= i < |es2| ==> MakeHashable(es2[i].1).Ok?
    ensures MakeHashable(VDict(mk1, es1)) == MakeHashable(VDict(mk2, es2))
  {
    DictSurrogate(mk1, es1);
    DictSurrogate(mk2, es2);
    SameKeys(es1, es2);
    if Sortable(Keys(es1)) {
      var items1, items2 := SurrogateItems(es1), SurrogateItems(es2);
      DistinctRanks(es1);
      DistinctRanks(es2);
      SortItemsSorted(items1);
      SortItemsSorted(items2);
      SameItems(es1, es2);
      SortedIsUnique(SortItems(items1), SortItems(items2));
    }
  }

  /** Dicts with the same items have their values hashable together or not at all. */
  lemma SameValuesHash(es1: seq<(Value, Value)>, es2: seq<(Value, Value)>)
    requires forall e :: e in es1 <==> e in es2
    requires forall i :: 0 <= i < |es1| ==> MakeHashable(es1[i].1).Ok?
    ensures forall i :: 0 <= i < |es2| ==> MakeHashable(es2[i].1).Ok?
  {
    forall i | 0 <= i < |es2| ensures MakeHashable(es2[i].1).Ok? {
      assert es2[i] in es1;
      var j :| 0 <= j < |es1| && es1[j] == es2[i];
    }
  }

  /** Dicts with the same items have the same key set, so both sort or neither does. */
  lemma SameKeys(es1: seq<(Value, Value)>, es2: seq<(Value, Value)>)
    requires forall e :: e in es1 <==> e in es2
    ensures Sortable(Keys(es1)) <==> Sortable(Keys(es2))
  {
    forall k | k in Keys(es1) ensures k in Keys(es2) {
      var i :| 0 <= i < |es1| && Keys(es1)[i] == k;
      assert es1[i] in es2;
      var j :| 0 <= j < |es2| && es2[j] == es1[i];
      assert Keys(es2)[j] == k;
    }
    forall k | k in Keys(es2) ensures k in Keys(es1) {
      var i :| 0 <= i < |es2| && Keys(es2)[i] == k;
      assert es2[i] in es1;
      var j :| 0 <= j < |es1| && es1[j] == es2[i];
      assert Keys(es1)[j] == k;
    }
  }

  /** Sortable distinct keys have pairwise different ranks. */
  lemma DistinctRanks(es: seq<(Value, Value)>)
    requires Distinct(Keys(es)) && Sortable(Keys(es))
    requires forall i :: 0 <= i < |es| ==> MakeHashable(es[i].1).Ok?
    ensures forall i, j :: 0 <= i < j < |SurrogateItems(es)| ==> Rank(SurrogateItems(es)[i].0) != Rank(SurrogateItems(es)[j].0)
  {
    forall i, j | 0 <= i < j < |es| ensures Rank(es[i].0) != Rank(es[j].0) {
      assert Keys(es)[i] == es[i].0 && Keys(es)[j] == es[j].0;
      assert es[i].0 in Keys(es) && es[j].0 in Keys(es);
    }
  }

  /** Dicts with the same items have the same surrogate items. */
  lemma SameItems(es1: seq<(Value, Value)>, es2: seq<(Value, Value)>)
    requires forall e :: e in es1 <==> e in es2
    requires forall i :: 0 <= i < |es1| ==> MakeHashable(es1[i].1).Ok?
    requires forall i :: 0 <= i < |es2| ==> MakeHashable(es2[i].1).Ok?
    ensures forall x :: x in SurrogateItems(es1) <==> x in SurrogateItems(es2)
  {
    forall x | x in SurrogateItems(es1) ensures x in SurrogateItems(es2) {
      var i :| 0 <= i < |es1| && SurrogateItems(es1)[i] == x;
      assert es1[i] in es2;
      var j :| 0 <= j < |es2| && es2[j] == es1[i];
      assert SurrogateItems(es2)[j] == x;
    }
    forall x | x in SurrogateItems(es2) ensures x in SurrogateItems(es1) {
      var i :| 0 <= i < |es2| && SurrogateItems(es2)[i] == x;
      assert es2[i] in es1;
      var j :| 0 <= j < |es1| && es1[j] == es2[i];
      assert SurrogateItems(es1)[j] == x;
    }
  }

  /** A list or set stands for the tuple of its elements' surrogates, in iteration order. */
  lemma ListSurrogate(ck: CollKind, xs: seq<Value>)
    requires ck == List || ck == Set
    requires forall i :: 0 <= i < |xs| ==> MakeHashable(xs[i]).Ok?
    ensures MakeHashable(VColl(ck, xs)).Ok?
    ensures |MakeHashable(VColl(ck, xs)).value.items| == |xs|
    ensures forall i :: 0 <= i < |xs| ==> MakeHashable(VColl(ck, xs)).value.items[i] == MakeHashable(xs[i]).value
  {
    var rs := seq(|xs|, i requires 0 <= i < |xs| => MakeHashable(xs[i]));
    assert Collect(rs).Ok?;
  }

  /**
   * Text, byte strings and non-iterables stand for themselves; a bytearray stands for the
   * tuple of its byte values; a tuple, frozenset or deque stands for the tuple of its
   * elements' surrogates, or for its text form when some element has none.
   */
  lemma ScalarsAndOtherIterables(v: Value)
    ensures v.VNone? || v.VBool? || v.VInt? || v.VStr? || v.VBytes? || v.VObj? ==> MakeHashable(v) == Ok(Same(v))
    ensures v.VByteArray? ==> MakeHashable(v) == Ok(Tup(seq(|v.data|, i requires 0 <= i < |v.data| => Same(VInt(v.data[i])))))
    ensures v.VColl? && v.ck in {Tuple, FrozenSet, Deque} && (forall i :: 0 <= i < |v.items| ==> MakeHashable(v.items[i]).Ok?) ==>
      MakeHashable(v) == Ok(Tup(ElementSurrogates(v.items)))
    ensures v.VColl? && v.ck in {Tuple, FrozenSet, Deque} && (exists i :: 0 <= i < |v.items| && MakeHashable(v.items[i]).Err?) ==>
      MakeHashable(v) == Ok(Text(v))
  {
    if v.VColl? {
      var xs := v.items;
      var rs := seq(|xs|, i requires 0 <= i < |xs| => MakeHashable(xs[i]));
      if Collect(rs).Ok? {
        forall i | 0 <= i < |xs| ensures MakeHashable(xs[i]).Ok? {
          assert rs[i] == MakeHashable(xs[i]);
        }
        assert Collect(rs).value == ElementSurrogates(xs);
      } else {
        var k :| 0 <= k < |rs| && rs[k] == Err(Collect(rs).error);
        assert MakeHashable(xs[k]).Err?;
      }
    }
  }

  /**
   * A tuple, frozenset or deque whose elements pairwise have the same surrogates has the
   * same surrogate: a tuple of two dicts with the same items in different insertion orders
   * hashes alike.
   */
  lemma OtherIterableCongruent(ck: CollKind, xs: seq<Value>, ys: seq<Value>)
    requires ck in {Tuple, FrozenSet, Deque} && |xs| == |ys|
    requires forall i :: 0 <= i < |xs| ==> MakeHashable(xs[i]).Ok? && MakeHashable(xs[i]) == MakeHashable(ys[i])
    ensures MakeHashable(VColl(ck, xs)) == MakeHashable(VColl(ck, ys))
  {
    ScalarsAndOtherIterables(VColl(ck, xs));
    ScalarsAndOtherIterables(VColl(ck, ys));
    assert ElementSurrogates(xs) == ElementSurrogates(ys);
  }

  /**
   * `_hash_value`: one surrogate per hash key, each key read and converted in turn; the
   * first failed read or conversion raises.
   */
  function HashValue(r: Record, keys: seq<string>): (res: Result<seq<Surrogate>, Exc>)
    reads r, r.cls
    ensures res.Ok? ==> |res.value| == |keys|
    ensures res.Ok? ==> forall i :: 0 <= i < |keys| ==>
      GetAttr(r, keys[i]).Ok? && MakeHashable(GetAttr(r, keys[i]).value) == Ok(res.value[i])
    decreases |keys|
  {
    if keys == [] then Ok([])
    else
      var init := keys[..|keys| - 1];
      assert forall i :: 0 <= i < |init| ==> init[i] == keys[i];
      match HashValue(r, init)
      case Err(e) => Err(e)
      case Ok(hs) =>
        match GetAttr(r, keys[|keys| - 1])
        case Err(e) => Err(e)
        case Ok(v) =>
          match MakeHashable(v)
          case Err(e) => Err(e)
          case Ok(h) => Ok(hs + [h])
  }

  /** Objects whose hash keys read the same values have the same hash tuple. */
  lemma {:induction false} SameKeysSameHash(a: Record, b: Record, keys: seq<string>)
    requires forall i :: 0 <= i < |keys| ==> GetAttr(a, keys[i]) == GetAttr(b, keys[i])
    ensures HashValue(a, keys) == HashValue(b, keys)
    decreases |keys|
  {
    if keys != [] {
      SameKeysSameHash(a, b, keys[..|keys| - 1]);
    }
  }

  /**
   * Hashing agrees with equality when a class hashes on its eq keys: objects that compare
   * equal have the same hash tuple.
   */
  lemma EqualObjectsHashAlike(a: Record, b: Record)
    requires a.cls == b.cls && a.cls.hashKeys == a.cls.eqKeys
    requires Compare(a, b, Eq) == Ok(Answer(true))
    ensures HashValue(a, a.cls.hashKeys) == HashValue(b, b.cls.hashKeys)
  {
    var keys := a.cls.eqKeys;
    EqualityIsKeyEquality(a, b);
    SameKeysSameHash(a, b, keys);
  }
}

=== FILE: errors.dfy ===
/**
 * The exceptions the core raises, by Python class, with a tag for the reason in place of
 * the formatted message. Only TypeError is caught by the caster's union handling and by
 * the field-level collectors; every other class propagates.
 */
module Errors {
  import opened Values

  datatype TypeReason =
    | Mismatch                                  // a bare `raise TypeError` after a failed check
    | NotAType                                  // isinstance() handed a forward reference, a union or a parameterised generic
    | ConversionFailed(target: string)          // the target's constructor (or the bool text rule) rejected the value
    | ConstructorFailed(origin: string)         // the constructor of an unregistered container kind raised TypeError
    | NotIterable                               // `for el in value` / `len(value)` on a non-container
    | ArityMismatch(expected: nat, actual: nat) // fixed tuple of the wrong length
    | Unhashable                                // a set element or dict key that cannot be hashed
    | NoHandler(origin: string)                 // "No casting/validation handler available for type ..."
    | UnionNoMatch                              // "Cannot cast ... to any type in Union"
    | Incomparable                              // `<` between values Python cannot order
    | MissingArguments(names: seq<string>)      // "__init__() missing N required arguments: ..."
    | FieldInvalid(field: string)               // the per-write validation stage

  datatype ValueReason =
    | BothDefaults                              // "cannot specify both default and default_factory"
    | MutableDefault(value: Value)              // "Mutable default values are not allowed ..."
    | NotEnoughTypeArgs                         // `keys_type, val_type = get_args(hint)` with fewer than two
    | Rejected                                  // raised by a foreign constructor

  datatype AttrReason =
    | PrivateWrite                              // public-name write to a private field
    | PrivateNotFound(name: string)             // "Private field '_x' not found"
    | FrozenModify(className: string)           // "Cannot modify attributes of frozen class C"
    | NoItems                                   // `value.items()` on a value that is not a dict
    | NoAttribute(name: string)                 // plain attribute lookup failed

  datatype Exc =
    | TypeError(treason: TypeReason)
    | ValueError(vreason: ValueReason)
    | AttributeError(areason: AttrReason)
    | KeyError(key: string)
    | ValidationError(failedFields: seq<string>)
    | CastingError(failedFields: seq<string>)
    | Foreign(className: string)                // any other class, raised by a constructor the caster calls
}

=== FILE: features.dfy ===
/**
 * The feature flags a record class declares, their presets, and the names the library
 * reserves for its own class attributes. A flag set is a `set<Feature>`: composition is
 * union and a feature test is membership.
 */
module Features {
  datatype Feature = EQ | ORDER | HASH | REPR | SLOTS | FROZEN | PRIVATE | VALIDATION | LOSSY_AUTOCAST

  const NONE: set<Feature> := {}
  const DEFAULT: set<Feature> := {EQ, ORDER}
  const IMMUTABLE: set<Feature> := DEFAULT + {HASH, SLOTS, FROZEN}

  const KeysAttrs: set<string> := {"__hash_keys__", "__eq_keys__", "__order_keys__"}
  const ClassnoAttrs: set<string> := {"__features__", "__fields__"} + KeysAttrs

  /** The presets: NONE is empty, DEFAULT is exactly equality and order, IMMUTABLE adds hash, slots and freezing. */
  lemma Presets()
    ensures NONE == {} && |NONE| == 0
    ensures forall f :: f in DEFAULT <==> f == EQ || f == ORDER
    ensures forall f :: f in IMMUTABLE <==> f in DEFAULT || f == HASH || f == SLOTS || f == FROZEN
    ensures FROZEN in IMMUTABLE && PRIVATE !in IMMUTABLE && VALIDATION !in IMMUTABLE
  {
  }

  /** The five reserved names, none of which can start an ordinary identifier without a double underscore. */
  lemma ReservedNames()
    ensures |ClassnoAttrs| == 5
    ensures KeysAttrs <= ClassnoAttrs
    ensures forall n :: n in ClassnoAttrs ==> |n| > 4 && n[..2] == "__"
  {
    assert ClassnoAttrs == {"__features__", "__fields__", "__hash_keys__", "__eq_keys__", "__order_keys__"};
  }
}

=== FILE: fields.dfy ===
/**
 * Field declarations: `field(default=..., default_factory=..., metadata=...)` and the record
 * it builds. MISSING is `None` in the optional default and factory; a factory is known by
 * name, and calling it is left to whoever constructs an object.
 */
module Fields {
  import opened Wrappers
  import opened Values
  import opened Shapes
  import opened Errors

  /** A zero-argument callable such as `list` or `dict`. */
  datatype Factory = Factory(name: string)

  /** `name` and `hint` stay unset until the class's field table is built. */
  datatype Field = Field(
    name: Option<string>,
    hint: Option<Shape>,
    default: Option<Value>,
    factory: Option<Factory>,
    metadata: map<string, Value>)

  /** `isinstance(value, (list, dict, set, bytearray))`: the dict subclasses count, deque and frozenset do not. */
  predicate Mutable(v: Value) {
    match v
    case VColl(ck, _) => ck == List || ck == Set
    case VDict(_, _) => true
    case VByteArray(_) => true
    case _ => false
  }

  /** The mutable-default guard: a shared list, dict, set or bytearray is refused. */
  function CheckDefault(v: Value): (r: Option<Exc>)
    ensures r.Some? <==> Mutable(v)
    ensures r.Some? ==> r.value == ValueError(MutableDefault(v))
  {
    if Mutable(v) then Some(ValueError(MutableDefault(v))) else None
  }

  /** `Field.__init__`: no name or hint yet, metadata None becomes the empty mapping. */
  function NewField(default: Option<Value>, factory: Option<Factory>, metadata: Option<map<string, Value>>): (f: Field)
    ensures f.name.None? && f.hint.None?
    ensures f.default == default && f.factory == factory
    ensures f.metadata == if metadata.Some? then metadata.value else map[]
  {
    Field(None, None, default, factory, if metadata.Some? then metadata.value else map[])
  }

  /** `field(...)`: both defaults raise first, then a mutable default; a MISSING default is never checked. */
  function MakeField(default: Option<Value>, factory: Option<Factory>, metadata: Option<map<string, Value>>): (r: Result<Field, Exc>)
    ensures r == Err(ValueError(BothDefaults)) <==> default.Some? && factory.Some?
    ensures r.Err? <==> (default.Some? && factory.Some?) || (default.Some? && Mutable(default.value))
    ensures r.Err? && factory.None? ==> r.error == ValueError(MutableDefault(default.value))
    ensures r.Ok? ==> r.value == NewField(default, factory, metadata)
  {
    if default.Some? && factory.Some? then Err(ValueError(BothDefaults))
    else if default.Some? && CheckDefault(default.value).Some? then Err(CheckDefault(default.value).value)
    else Ok(NewField(default, factory, metadata))
  }

  /** Immutable defaults are accepted as they are: text, numbers, None, tuples, frozensets and deques. */
  lemma ImmutableDefaultsAccepted(v: Value, metadata: Option<map<string, Value>>)
    requires v.VNone? || v.VBool? || v.VInt? || v.VStr? || v.VBytes? || (v.VColl? && v.ck in {Tuple, FrozenSet, Deque})
    ensures MakeField(Some(v), None, metadata) == Ok(Field(None, None, Some(v), None, if metadata.Some? then metadata.value else map[]))
  {
  }

  /** A factory with no default is always accepted, whatever it will produce. */
  lemma FactoryAlwaysAccepted(fac: Factory, metadata: Option<map<string, Value>>)
    ensures MakeField(None, Some(fac), metadata).Ok?
    ensures MakeField(None, Some(fac), metadata).value.factory == Some(fac)
  {
  }

  /** The names of a field table, in table order (unset names read as the empty string). */
  function Names(table: seq<Field>): (ns: seq<string>)
    ensures |ns| == |table|
    ensures forall i :: 0 <= i < |table| ==> ns[i] == NameOf(table[i])
  {
    if table == [] then [] else Names(table[..|table| - 1]) + [NameOf(table[|table| - 1])]
  }

  function NameOf(f: Field): string {
    if f.name.Some? then f.name.value else ""
  }

  /** A built table: every field has its name and hint, and no name occurs twice. */
  predicate WellFormed(table: seq<Field>) {
    && (forall i :: 0 <= i < |table| ==> table[i].name.Some? && table[i].hint.Some?)
    && (forall i, j :: 0 <= i < j < |table| ==> NameOf(table[i]) != NameOf(table[j]))
  }

  /** `name in self.__fields__`. */
  predicate Declared(table: seq<Field>, name: string) {
    name in Names(table)
  }

  /** `self.__fields__[name]` for a declared name. */
  function Lookup(table: seq<Field>, name: string): (f: Field)
    requires Declared(table, name)
    ensures f in table && NameOf(f) == name
  {
    if NameOf(table[0]) == name then table[0]
    else
      assert Names(table[1..]) == Names(table)[1..];
      Lookup(table[1..], name)
  }

  /** The hint a declared field carries. */
  function HintOf(table: seq<Field>, name: string): Shape
    requires Declared(table, name)
  {
    FieldHint(Lookup(table, name))
  }

  /** A field's hint (a field without one reads as an empty union, which accepts nothing). */
  function FieldHint(f: Field): Shape {
    if f.hint.Some? then f.hint.value else Union([])
  }
}

=== FILE: hooks.dfy ===
/**
 * What the class- and object-level hooks compute, as specification functions over the
 * ordered field table and the object's attribute map: the table built from annotations,
 * the default key tuples, the values a construction stores, the field-level validation
 * and casting passes, and the object-feature post-processing. The methods of
 * `Records` that carry them out are proved equal to these.
 */
module Hooks {
  import opened Wrappers
  import opened Values
  import opened Shapes
  import opened Errors
  import opened Features
  import opened Fields
  import opened Casting
  import opened Validation
  import opened CastLaws
  import opened CastFixpoints

  /** A class attribute found under an annotated name: a `field(...)` record or a plain value. */
  datatype ClassAttr = FieldAttr(field: Field) | PlainAttr(value: Value)

  /** The field an annotated name gets: its own `field(...)`, or `field(default=attr)`. */
  function DeclaredField(name: string, attrs: map<string, ClassAttr>): Result<Field, Exc> {
    if name in attrs && attrs[name].FieldAttr? then Ok(attrs[name].field)
    else MakeField(if name in attrs then Some(attrs[name].value) else None, None, None)
  }

  /** The field table `set_fields` builds from the annotations, in annotation order. */
  function FieldTable(hints: seq<(string, Shape)>, attrs: map<string, ClassAttr>): Result<seq<Field>, Exc>
    decreases |hints|
  {
    if hints == [] then Ok([])
    else
      var n := hints[|hints| - 1].0;
      match FieldTable(hints[..|hints| - 1], attrs)
      case Err(e) => Err(e)
      case Ok(acc) =>
        if n in ClassnoAttrs then Ok(acc)
        else match DeclaredField(n, attrs)
          case Err(e) => Err(e)
          case Ok(f) => Ok(acc + [f.(name := Some(n), hint := Some(hints[|hints| - 1].1))])
  }

  /** The annotated names that become fields: all but the library's own attributes. */
  function FieldNames(hints: seq<(string, Shape)>): (ns: seq<string>)
    ensures forall n :: n in ns <==> n !in ClassnoAttrs && exists i :: 0 <= i < |hints| && hints[i].0 == n
    decreases |hints|
  {
    if hints == [] then []
    else
      var n := hints[|hints| - 1].0;
      var ns := FieldNames(hints[..|hints| - 1]);
      assert forall i :: 0 <= i < |hints| - 1 ==> hints[..|hints| - 1][i] == hints[i];
      if n in ClassnoAttrs then ns else ns + [n]
  }

  /** Whether the annotated name would get a refused mutable default. */
  predicate RefusedDefault(name: string, attrs: map<string, ClassAttr>) {
    name !in ClassnoAttrs && name in attrs && attrs[name].PlainAttr? && Mutable(attrs[name].value)
  }

  /** A mutable plain default anywhere among the field names makes the table fail, with that ValueError. */
  lemma {:induction false} FieldTableRefuses(hints: seq<(string, Shape)>, attrs: map<string, ClassAttr>)
    ensures FieldTable(hints, attrs).Err? <==> exists i :: 0 <= i < |hints| && RefusedDefault(hints[i].0, attrs)
    ensures FieldTable(hints, attrs).Err? ==>
      exists i :: 0 <= i < |hints| && RefusedDefault(hints[i].0, attrs) &&
        FieldTable(hints, attrs).error == ValueError(MutableDefault(attrs[hints[i].0].value))
    decreases |hints|
  {
    if hints != [] {
      var init := hints[..|hints| - 1];
      FieldTableRefuses(init, attrs);
      assert forall i :: 0 <= i < |init| ==> init[i] == hints[i];
      var n := hints[|hints| - 1].0;
      if FieldTable(init, attrs).Ok? && RefusedDefault(n, attrs) {
        assert FieldTable(hints, attrs) == Err(ValueError(MutableDefault(attrs[n].value)));
      }
    }
  }

  /**
   * The table holds one field per annotated name outside the reserved ones, in annotation
   * order, each carrying its name and the hint it was annotated with.
   */
  lemma {:induction false} FieldTableNames(hints: seq<(string, Shape)>, attrs: map<string, ClassAttr>)
    requires FieldTable(hints, attrs).Ok?
    ensures Names(FieldTable(hints, attrs).value) == FieldNames(hints)
    ensures forall j :: 0 <= j < |FieldTable(hints, attrs).value| ==>
      var f := FieldTable(hints, attrs).value[j];
      f.name.Some? && f.hint.Some? && exists i :: 0 <= i < |hints| && hints[i] == (f.name.value, f.hint.value)
    decreases |hints|
  {
    if hints != [] {
      var init := hints[..|hints| - 1];
      FieldTableNames(init, attrs);
      FieldTableSnoc(hints, attrs);
      assert forall i :: 0 <= i < |init| ==> init[i] == hints[i];
      var n := hints[|hints| - 1].0;
      if n !in ClassnoAttrs {
        var t0 := FieldTable(init, attrs).value;
        var t := FieldTable(hints, attrs).value;
        assert t == t0 + [t[|t0|]];
        assert Names(t) == Names(t0) + [n];
      }
    }
  }

  /** A plain class attribute becomes the field's default; an unassigned annotation has neither default nor factory. */
  lemma {:induction false} FieldTableDefaults(hints: seq<(string, Shape)>, attrs: map<string, ClassAttr>)
    requires FieldTable(hints, attrs).Ok?
    ensures forall j :: 0 <= j < |FieldTable(hints, attrs).value| ==>
      var f := FieldTable(hints, attrs).value[j];
      && (NameOf(f) in attrs && attrs[NameOf(f)].PlainAttr? ==> f.default == Some(attrs[NameOf(f)].value) && f.factory.None?)
      && (NameOf(f) !in attrs ==> f.default.None? && f.factory.None?)
    decreases |hints|
  {
    if hints != [] {
      FieldTableDefaults(hints[..|hints| - 1], attrs);
    }
  }

  /** Annotation names are distinct (they are dictionary keys), so the table is well formed. */
  lemma {:induction false} FieldTableWellFormed(hints: seq<(string, Shape)>, attrs: map<string, ClassAttr>)
    requires forall i, j :: 0 <= i < j < |hints| ==> hints[i].0 != hints[j].0
    requires FieldTable(hints, attrs).Ok?
    ensures WellFormed(FieldTable(hints, attrs).value)
    decreases |hints|
  {
    if hints != [] {
      var init := hints[..|hints| - 1];
      var n := hints[|hints| - 1].0;
      assert forall i :: 0 <= i < |init| ==> init[i] == hints[i];
      FieldTableWellFormed(init, attrs);
      FieldTableNames(init, attrs);
      FieldTableSnoc(hints, attrs);
      if n !in ClassnoAttrs {
        var t0 := FieldTable(init, attrs).value;
        var t := FieldTable(hints, attrs).value;
        assert n !in FieldNames(init);
        WellFormedSnoc(t0, t[|t0|]);
        assert t == t0 + [t[|t0|]];
      }
    }
  }

  /** One annotation adds nothing for a reserved name and one named, hinted field otherwise. */
  lemma FieldTableSnoc(hints: seq<(string, Shape)>, attrs: map<string, ClassAttr>)
    requires hints != [] && FieldTable(hints, attrs).Ok?
    ensures FieldTable(hints[..|hints| - 1], attrs).Ok?
    ensures var t0 := FieldTable(hints[..|hints| - 1], attrs).value;
      var t := FieldTable(hints, attrs).value;
      var n := hints[|hints| - 1].0;
      && (n in ClassnoAttrs ==> t == t0)
      && (n !in ClassnoAttrs ==> |t| == |t0| + 1 && t[..|t0|] == t0 && t[|t0|].name == Some(n) && t[|t0|].hint.Some?)
  {
  }

  /** Appending a named, hinted field under a new name keeps a table well formed. */
  lemma WellFormedSnoc(t: seq<Field>, f: Field)
    requires WellFormed(t) && f.name.Some? && f.hint.Some? && NameOf(f) !in Names(t)
    ensures WellFormed(t + [f])
  {
    forall i | 0 <= i < |t| ensures NameOf(t[i]) != NameOf(f) {
      assert Names(t)[i] == NameOf(t[i]);
    }
  }

  /** Once a prefix of the annotations fails, the whole table fails the same way. */
  lemma {:induction false} FieldTableStops(hints: seq<(string, Shape)>, attrs: map<string, ClassAttr>, j: nat)
    requires j <= |hints| && FieldTable(hints[..j], attrs).Err?
    ensures FieldTable(hints, attrs) == FieldTable(hints[..j], attrs)
    decreases |hints| - j
  {
    if j < |hints| {
      assert hints[..j + 1][..j] == hints[..j];
      FieldTableStops(hints, attrs, j + 1);
    } else {
      assert hints[..j] == hints;
    }
  }

  /** `set_keys`: an empty key tuple becomes every field name in table order. */
  function DefaultKeys(keys: seq<string>, table: seq<Field>): (r: seq<string>)
    ensures keys != [] ==> r == keys
    ensures keys == [] ==> |r| == |table| && forall i :: 0 <= i < |table| ==> r[i] == NameOf(table[i])
  {
    if keys == [] then Names(table) else keys
  }

  /** Where a field's initial value comes from. */
  datatype Source = FromKwarg | FromDefault | FromFactory | NoSource

  /** Keyword argument first, then the static default, then the factory. */
  function SourceOf(f: Field, kwargs: map<string, Value>): Source {
    if NameOf(f) in kwargs then FromKwarg
    else if f.default.Some? then FromDefault
    else if f.factory.Some? then FromFactory
    else NoSource
  }

  /**
   * The value a field starts with, or the exception its factory raises; the factory is
   * called only when nothing else supplies one.
   */
  function Initial(f: Field, kwargs: map<string, Value>, produce: Factory -> Result<Value, Exc>): Option<Result<Value, Exc>> {
    match SourceOf(f, kwargs)
    case FromKwarg => Some(Ok(kwargs[NameOf(f)]))
    case FromDefault => Some(Ok(f.default.value))
    case FromFactory => Some(produce(f.factory.value))
    case NoSource => None
  }

  /** The field's factory is the one called, and it raises. */
  predicate Raises(f: Field, kwargs: map<string, Value>, produce: Factory -> Result<Value, Exc>) {
    SourceOf(f, kwargs) == FromFactory && produce(f.factory.value).Err?
  }

  /** Where construction stops: the first field whose factory raises, or the end of the table. */
  function FactoryStop(table: seq<Field>, kwargs: map<string, Value>, produce: Factory -> Result<Value, Exc>): (n: nat)
    ensures n <= |table|
    ensures forall i :: 0 <= i < n ==> !Raises(table[i], kwargs, produce)
    ensures n < |table| ==> Raises(table[n], kwargs, produce)
    decreases |table|
  {
    if table == [] then 0
    else
      var init := table[..|table| - 1];
      var s := FactoryStop(init, kwargs, produce);
      assert forall i :: 0 <= i < |init| ==> init[i] == table[i];
      if s < |init| then s
      else if Raises(table[|init|], kwargs, produce) then |init|
      else |table|
  }

  /** The attributes the fields store, field by field in table order; a raising factory stores nothing. */
  function Filled(table: seq<Field>, kwargs: map<string, Value>, produce: Factory -> Result<Value, Exc>): map<string, Value>
    decreases |table|
  {
    if table == [] then map[]
    else
      var f := table[|table| - 1];
      var acc := Filled(table[..|table| - 1], kwargs, produce);
      match Initial(f, kwargs, produce)
      case Some(Ok(v)) => acc[NameOf(f) := v]
      case _ => acc
  }

  /** The fields nothing supplies, in table order. */
  function MissingNames(table: seq<Field>, kwargs: map<string, Value>): (ms: seq<string>)
    ensures forall n :: n in ms <==> exists i :: 0 <= i < |table| && NameOf(table[i]) == n && SourceOf(table[i], kwargs) == NoSource
    decreases |table|
  {
    if table == [] then []
    else
      var f := table[|table| - 1];
      var ms := MissingNames(table[..|table| - 1], kwargs);
      assert forall i :: 0 <= i < |table| - 1 ==> table[..|table| - 1][i] == table[i];
      if SourceOf(f, kwargs) == NoSource then ms + [NameOf(f)] else ms
  }

  /** The fields whose factory is called, in table order. */
  function FactoryCalls(table: seq<Field>, kwargs: map<string, Value>): (cs: seq<string>)
    ensures forall n :: n in cs <==> exists i :: 0 <= i < |table| && NameOf(table[i]) == n && SourceOf(table[i], kwargs) == FromFactory
    decreases |table|
  {
    if table == [] then []
    else
      var f := table[|table| - 1];
      var cs := FactoryCalls(table[..|table| - 1], kwargs);
      assert forall i :: 0 <= i < |table| - 1 ==> table[..|table| - 1][i] == table[i];
      if SourceOf(f, kwargs) == FromFactory then cs + [NameOf(f)] else cs
  }

  /** One more field of the construction: what it adds to the stored values, the missing names and the factory calls. */
  lemma FilledStep(table: seq<Field>, kwargs: map<string, Value>, produce: Factory -> Result<Value, Exc>, i: nat)
    requires i < |table|
    ensures Filled(table[..i + 1], kwargs, produce) ==
      if SourceOf(table[i], kwargs) == NoSource || Raises(table[i], kwargs, produce) then Filled(table[..i], kwargs, produce)
      else Filled(table[..i], kwargs, produce)[NameOf(table[i]) := Initial(table[i], kwargs, produce).value.value]
    ensures MissingNames(table[..i + 1], kwargs) ==
      MissingNames(table[..i], kwargs) + if SourceOf(table[i], kwargs) == NoSource then [NameOf(table[i])] else []
    ensures FactoryCalls(table[..i + 1], kwargs) ==
      FactoryCalls(table[..i], kwargs) + if SourceOf(table[i], kwargs) == FromFactory then [NameOf(table[i])] else []
  {
    assert table[..i + 1][..i] == table[..i];
  }

  /** Keyword arguments that name no field are ignored: only field names are stored. */
  lemma {:induction false} FilledOnlyFields(table: seq<Field>, kwargs: map<string, Value>, produce: Factory -> Result<Value, Exc>)
    ensures forall k :: k in Filled(table, kwargs, produce) ==> k in Names(table)
    decreases |table|
  {
    if table != [] {
      var init := table[..|table| - 1];
      FilledOnlyFields(init, kwargs, produce);
      assert Names(table) == Names(init) + [NameOf(table[|table| - 1])];
    }
  }

  /**
   * Every field with a source is filled with the value of its highest-precedence source,
   * and a field without one, or whose factory raises, is left unset.
   */
  lemma {:induction false} FilledByPrecedence(table: seq<Field>, kwargs: map<string, Value>, produce: Factory -> Result<Value, Exc>, i: nat)
    requires WellFormed(table) && i < |table|
    ensures NameOf(table[i]) in Filled(table, kwargs, produce) <==>
      SourceOf(table[i], kwargs) != NoSource && !Raises(table[i], kwargs, produce)
    ensures SourceOf(table[i], kwargs) != NoSource && !Raises(table[i], kwargs, produce) ==>
      Filled(table, kwargs, produce)[NameOf(table[i])] == Initial(table[i], kwargs, produce).value.value
    decreases |table|
  {
    var init := table[..|table| - 1];
    var last := table[|table| - 1];
    assert forall k :: 0 <= k < |init| ==> init[k] == table[k];
    if i == |table| - 1 {
      FilledOnlyFields(init, kwargs, produce);
      assert NameOf(last) !in Names(init);
    } else {
      assert WellFormed(init);
      FilledByPrecedence(init, kwargs, produce, i);
      assert NameOf(table[i]) != NameOf(last);
    }
  }

  /** Each factory is called at most once per construction: the call list has no repeats. */
  lemma {:induction false} FactoryCalledOnce(table: seq<Field>, kwargs: map<string, Value>)
    requires WellFormed(table)
    ensures forall i, j :: 0 <= i < j < |FactoryCalls(table, kwargs)| ==> FactoryCalls(table, kwargs)[i] != FactoryCalls(table, kwargs)[j]
    decreases |table|
  {
    if table != [] {
      var init := table[..|table| - 1];
      assert forall i :: 0 <= i < |init| ==> init[i] == table[i];
      assert WellFormed(init);
      FactoryCalledOnce(init, kwargs);
      var last := table[|table| - 1];
      if SourceOf(last, kwargs) == FromFactory {
        assert NameOf(last) !in FactoryCalls(init, kwargs);
      }
    }
  }

  /** The construction error: one TypeError listing every missing field, or none. */
  function InitError(table: seq<Field>, kwargs: map<string, Value>): (r: Option<Exc>)
    ensures r.None? <==> forall i :: 0 <= i < |table| ==> SourceOf(table[i], kwargs) != NoSource
    ensures r.Some? ==> r.value == TypeError(MissingArguments(MissingNames(table, kwargs)))
  {
    var ms := MissingNames(table, kwargs);
    if ms == [] then
      assert forall i :: 0 <= i < |table| ==> SourceOf(table[i], kwargs) != NoSource by {
        forall i | 0 <= i < |table| ensures SourceOf(table[i], kwargs) != NoSource {
          assert NameOf(table[i]) !in ms;
        }
      }
      None
    else
      assert ms[0] in ms;
      Some(TypeError(MissingArguments(ms)))
  }

  /**
   * What construction raises: the exception of the first factory that raises, before any
   * later field is looked at; otherwise the missing-arguments TypeError, if any.
   */
  function InitRaised(table: seq<Field>, kwargs: map<string, Value>, produce: Factory -> Result<Value, Exc>): (r: Option<Exc>)
    ensures r.None? <==> forall i :: 0 <= i < |table| ==> SourceOf(table[i], kwargs) != NoSource && !Raises(table[i], kwargs, produce)
    ensures FactoryStop(table, kwargs, produce) < |table| ==>
      r == Some(produce(table[FactoryStop(table, kwargs, produce)].factory.value).error)
    ensures FactoryStop(table, kwargs, produce) == |table| ==> r == InitError(table, kwargs)
  {
    var n := FactoryStop(table, kwargs, produce);
    if n < |table| then Some(produce(table[n].factory.value).error) else InitError(table, kwargs)
  }

  /** The first raising factory is where construction stops, and decides what it raises. */
  lemma StopAt(table: seq<Field>, kwargs: map<string, Value>, produce: Factory -> Result<Value, Exc>, i: nat)
    requires i <= |table| && forall k :: 0 <= k < i ==> !Raises(table[k], kwargs, produce)
    requires i < |table| ==> Raises(table[i], kwargs, produce)
    ensures FactoryStop(table, kwargs, produce) == i
    ensures InitRaised(table, kwargs, produce) ==
      if i < |table| then Some(produce(table[i].factory.value).error) else InitError(table, kwargs)
  {
  }

  /**
   * The attributes construction stores are those of the fields before the first raising
   * factory: such a field is stored iff something supplies it, a later field never is.
   */
  lemma StoredBeforeStop(table: seq<Field>, kwargs: map<string, Value>, produce: Factory -> Result<Value, Exc>, i: nat)
    requires WellFormed(table) && i < |table|
    ensures var n := FactoryStop(table, kwargs, produce);
      NameOf(table[i]) in Filled(table[..n], kwargs, produce) <==> i < n && SourceOf(table[i], kwargs) != NoSource
    ensures var n := FactoryStop(table, kwargs, produce);
      i < n && SourceOf(table[i], kwargs) != NoSource ==>
        Filled(table[..n], kwargs, produce)[NameOf(table[i])] == Initial(table[i], kwargs, produce).value.value
  {
    var n := FactoryStop(table, kwargs, produce);
    var pre := table[..n];
    assert forall k :: 0 <= k < n ==> pre[k] == table[k];
    assert WellFormed(pre);
    if i < n {
      FilledByPrecedence(pre, kwargs, produce, i);
    } else {
      FilledOnlyFields(pre, kwargs, produce);
    }
  }

  /**
   * The validation pass over the stored fields: the names of the fields whose value does
   * not have the field's shape, in table order; reading a field that was never stored
   * raises AttributeError.
   */
  function Failing(table: seq<Field>, attrs: map<string, Value>): (r: Result<seq<string>, Exc>)
    ensures r.Ok? <==> forall i :: 0 <= i < |table| ==> NameOf(table[i]) in attrs
    decreases |table|
  {
    if table == [] then Ok([])
    else
      var f := table[|table| - 1];
      var n := NameOf(f);
      assert forall i :: 0 <= i < |table| - 1 ==> table[..|table| - 1][i] == table[i];
      match Failing(table[..|table| - 1], attrs)
      case Err(e) => Err(e)
      case Ok(fs) =>
        if n !in attrs then Err(AttributeError(NoAttribute(n)))
        else if Validate(attrs[n], FieldHint(f)).Reject? then Ok(fs + [n])
        else Ok(fs)
  }

  /** The pass names exactly the stored fields whose value does not have the field's shape. */
  lemma {:induction false} FailingNames(table: seq<Field>, attrs: map<string, Value>)
    requires Failing(table, attrs).Ok?
    ensures forall n :: n in Failing(table, attrs).value <==>
      exists i :: 0 <= i < |table| && NameOf(table[i]) == n && Validate(attrs[n], FieldHint(table[i])).Reject?
    decreases |table|
  {
    if table != [] {
      var init := table[..|table| - 1];
      assert forall i :: 0 <= i < |init| ==> init[i] == table[i];
      FailingNames(init, attrs);
    }
  }

  /** A field that was never stored stops the pass with that field's AttributeError. */
  lemma {:induction false} FailingMissing(table: seq<Field>, attrs: map<string, Value>)
    requires Failing(table, attrs).Err?
    ensures exists i :: (0 <= i < |table| && NameOf(table[i]) !in attrs &&
      Failing(table, attrs).error == AttributeError(NoAttribute(NameOf(table[i]))))
    decreases |table|
  {
    var init := table[..|table| - 1];
    assert forall i :: 0 <= i < |init| ==> init[i] == table[i];
    if Failing(init, attrs).Err? {
      FailingMissing(init, attrs);
    }
  }

  /** Once a prefix of the table fails to read, the whole pass fails the same way. */
  lemma {:induction false} FailingStops(table: seq<Field>, attrs: map<string, Value>, j: nat)
    requires j <= |table| && Failing(table[..j], attrs).Err?
    ensures Failing(table, attrs) == Failing(table[..j], attrs)
    decreases |table| - j
  {
    if j < |table| {
      assert table[..j + 1][..j] == table[..j];
      FailingStops(table, attrs, j + 1);
    } else {
      assert table[..j] == table;
    }
  }

  /** What `validate_fields` raises: nothing, one ValidationError for all failing fields, or the lookup error. */
  function ValidationOutcome(table: seq<Field>, attrs: map<string, Value>): Option<Exc> {
    match Failing(table, attrs)
    case Err(e) => Some(e)
    case Ok(fs) => if fs == [] then None else Some(ValidationError(fs))
  }

  /**
   * `validate_fields` checks every field without stopping at the first failure: when
   * every field is stored it raises nothing exactly when every value has its field's
   * shape, and otherwise one ValidationError naming exactly the failing fields.
   */
  lemma ValidationCollectsAll(table: seq<Field>, attrs: map<string, Value>)
    requires forall i :: 0 <= i < |table| ==> NameOf(table[i]) in attrs
    ensures ValidationOutcome(table, attrs).None? <==>
      forall i :: 0 <= i < |table| ==> Validate(attrs[NameOf(table[i])], FieldHint(table[i])).Accept?
    ensures ValidationOutcome(table, attrs).Some? ==> ValidationOutcome(table, attrs).value.ValidationError?
    ensures ValidationOutcome(table, attrs).Some? ==> forall n :: n in ValidationOutcome(table, attrs).value.failedFields <==>
      exists i :: 0 <= i < |table| && NameOf(table[i]) == n && Validate(attrs[n], FieldHint(table[i])).Reject?
  {
    FailingNames(table, attrs);
    var fs := Failing(table, attrs).value;
    if fs != [] {
      assert fs[0] in fs;
    } else {
      forall i | 0 <= i < |table| ensures Validate(attrs[NameOf(table[i])], FieldHint(table[i])).Accept? {
        assert NameOf(table[i]) !in fs;
      }
    }
  }

  /**
   * A field that was never stored makes `validate_fields` raise AttributeError for the
   * first such field, before any ValidationError.
   */
  lemma ValidationNeedsStored(table: seq<Field>, attrs: map<string, Value>)
    requires exists i :: 0 <= i < |table| && NameOf(table[i]) !in attrs
    ensures ValidationOutcome(table, attrs).Some? && ValidationOutcome(table, attrs).value.AttributeError?
    ensures exists i :: (0 <= i < |table| && NameOf(table[i]) !in attrs &&
      ValidationOutcome(table, attrs) == Some(AttributeError(NoAttribute(NameOf(table[i])))))
  {
    FailingMissing(table, attrs);
  }

  /** The state of the casting pass: the attributes so far, the failed fields, an escaped exception. */
  datatype CastRun = CastRun(attrs: map<string, Value>, failed: seq<string>, escaped: Option<Exc>)

  /** One field of the casting pass. */
  function CastStep(conv: Converter, f: Field, run: CastRun): CastRun {
    if run.escaped.Some? then run
    else
      var n := NameOf(f);
      if n !in run.attrs then run.(escaped := Some(AttributeError(NoAttribute(n))))
      else match Cast(conv, run.attrs[n], FieldHint(f))
        case Ok(w) => run.(attrs := run.attrs[n := w])
        case Err(e) => if e.TypeError? then run.(failed := run.failed + [n]) else run.(escaped := Some(e))
  }

  /** The casting pass over the table: every field is attempted until an exception other than TypeError escapes. */
  function CastAll(conv: Converter, table: seq<Field>, attrs: map<string, Value>): CastRun
    decreases |table|
  {
    if table == [] then CastRun(attrs, [], None)
    else CastStep(conv, table[|table| - 1], CastAll(conv, table[..|table| - 1], attrs))
  }

  /** Only field names are ever recorded as failed. */
  lemma {:induction false} FailedAreFields(conv: Converter, table: seq<Field>, attrs: map<string, Value>)
    ensures forall x :: x in CastAll(conv, table, attrs).failed ==> x in Names(table)
    decreases |table|
  {
    if table != [] {
      var init := table[..|table| - 1];
      FailedAreFields(conv, init, attrs);
      assert Names(table) == Names(init) + [NameOf(table[|table| - 1])];
    }
  }

  /** Once an exception escapes, the rest of the table is skipped. */
  lemma {:induction false} CastAllStops(conv: Converter, table: seq<Field>, attrs: map<string, Value>, j: nat)
    requires j <= |table| && CastAll(conv, table[..j], attrs).escaped.Some?
    ensures CastAll(conv, table, attrs) == CastAll(conv, table[..j], attrs)
    decreases |table| - j
  {
    if j < |table| {
      assert table[..j + 1][..j] == table[..j];
      CastAllStops(conv, table, attrs, j + 1);
    } else {
      assert table[..j] == table;
    }
  }

  /** The field is stored, and casting it either succeeds or raises a TypeError, which the pass collects. */
  predicate Settles(conv: Converter, f: Field, attrs: map<string, Value>) {
    NameOf(f) in attrs && (Cast(conv, attrs[NameOf(f)], FieldHint(f)).Ok? || IsTypeError(Cast(conv, attrs[NameOf(f)], FieldHint(f))))
  }

  /** What one step of the casting pass does to the run, spelled out. */
  lemma CastStepFacts(conv: Converter, f: Field, run: CastRun)
    ensures var r := CastStep(conv, f, run);
      var n := NameOf(f);
      && (r.escaped.None? <==> run.escaped.None? && Settles(conv, f, run.attrs))
      && (r.escaped.None? ==>
            var c := Cast(conv, run.attrs[n], FieldHint(f));
            && r.attrs.Keys == run.attrs.Keys
            && (forall k :: k in run.attrs && k != n ==> r.attrs[k] == run.attrs[k])
            && r.attrs[n] == (if c.Ok? then c.value else run.attrs[n])
            && r.failed == (if IsTypeError(c) then run.failed + [n] else run.failed))
  {
  }

  /** When nothing escapes, every field was stored, and no attribute is added, removed or touched outside the table. */
  lemma {:induction false} CastAllFrame(conv: Converter, table: seq<Field>, attrs: map<string, Value>)
    ensures var run := CastAll(conv, table, attrs);
      run.escaped.None? ==>
        && run.attrs.Keys == attrs.Keys
        && (forall k :: k in attrs && k !in Names(table) ==> run.attrs[k] == attrs[k])
        && (forall i :: 0 <= i < |table| ==> NameOf(table[i]) in attrs)
    decreases |table|
  {
    if table != [] {
      var init := table[..|table| - 1];
      assert forall i :: 0 <= i < |init| ==> init[i] == table[i];
      assert Names(table) == Names(init) + [NameOf(table[|table| - 1])];
      CastAllFrame(conv, init, attrs);
      CastStepFacts(conv, table[|table| - 1], CastAll(conv, init, attrs));
    }
  }

  /** When nothing escapes, field `i` holds its cast value or, after a failed cast, its old value, and is listed as failed iff its cast raised TypeError. */
  lemma {:induction false} CastAllField(conv: Converter, table: seq<Field>, attrs: map<string, Value>, i: nat)
    requires WellFormed(table) && i < |table|
    requires CastAll(conv, table, attrs).escaped.None?
    requires NameOf(table[i]) in attrs
    ensures var c := Cast(conv, attrs[NameOf(table[i])], FieldHint(table[i]));
      var run := CastAll(conv, table, attrs);
      && NameOf(table[i]) in run.attrs
      && run.attrs[NameOf(table[i])] == (if c.Ok? then c.value else attrs[NameOf(table[i])])
      && (NameOf(table[i]) in run.failed <==> IsTypeError(c))
    decreases |table|
  {
    var init := table[..|table| - 1];
    var n := NameOf(table[|table| - 1]);
    assert forall j :: 0 <= j < |init| ==> init[j] == table[j];
    assert WellFormed(init);
    CastStepFacts(conv, table[|table| - 1], CastAll(conv, init, attrs));
    if i == |table| - 1 {
      assert n !in Names(init);
      CastAllFrame(conv, init, attrs);
      FailedAreFields(conv, init, attrs);
    } else {
      assert NameOf(table[i]) != n;
      CastAllField(conv, init, attrs, i);
    }
  }

  /**
   * When nothing escapes, every field is written back with its cast value if the cast
   * succeeded and keeps its value otherwise, the failed list names exactly the fields whose
   * cast raised a TypeError, and no other attribute changes.
   */
  lemma CastAllWritesBack(conv: Converter, table: seq<Field>, attrs: map<string, Value>)
    requires WellFormed(table)
    ensures var run := CastAll(conv, table, attrs);
      run.escaped.None? ==>
        && run.attrs.Keys == attrs.Keys
        && (forall k :: k in attrs && k !in Names(table) ==> run.attrs[k] == attrs[k])
        && (forall i :: 0 <= i < |table| ==> NameOf(table[i]) in attrs)
        && (forall i :: 0 <= i < |table| ==>
              var c := Cast(conv, attrs[NameOf(table[i])], FieldHint(table[i]));
              && run.attrs[NameOf(table[i])] == (if c.Ok? then c.value else attrs[NameOf(table[i])])
              && (NameOf(table[i]) in run.failed <==> IsTypeError(c)))
  {
    CastAllFrame(conv, table, attrs);
    if CastAll(conv, table, attrs).escaped.None? {
      forall i | 0 <= i < |table|
        ensures var c := Cast(conv, attrs[NameOf(table[i])], FieldHint(table[i]));
          && CastAll(conv, table, attrs).attrs[NameOf(table[i])] == (if c.Ok? then c.value else attrs[NameOf(table[i])])
          && (NameOf(table[i]) in CastAll(conv, table, attrs).failed <==> IsTypeError(c))
      {
        CastAllField(conv, table, attrs, i);
      }
    }
  }

  /** When nothing escapes, the failed list is empty iff no cast raised a TypeError. */
  lemma {:induction false} CastAllClean(conv: Converter, table: seq<Field>, attrs: map<string, Value>)
    requires WellFormed(table)
    ensures var run := CastAll(conv, table, attrs);
      run.escaped.None? ==>
        (run.failed == [] <==> forall i :: 0 <= i < |table| && NameOf(table[i]) in attrs ==> !IsTypeError(Cast(conv, attrs[NameOf(table[i])], FieldHint(table[i]))))
    decreases |table|
  {
    if table != [] {
      var init := table[..|table| - 1];
      var last := table[|table| - 1];
      assert forall i :: 0 <= i < |init| ==> init[i] == table[i];
      assert WellFormed(init);
      CastAllClean(conv, init, attrs);
      CastAllWritesBack(conv, init, attrs);
      CastAllWritesBack(conv, table, attrs);
      CastStepFacts(conv, last, CastAll(conv, init, attrs));
      var n := NameOf(last);
      if CastAll(conv, table, attrs).escaped.None? {
        assert n !in Names(init);
      }
    }
  }

  /** Nothing escapes iff every field is stored and every cast succeeds or raises a TypeError. */
  lemma CastAllEscapes(conv: Converter, table: seq<Field>, attrs: map<string, Value>)
    requires WellFormed(table)
    ensures CastAll(conv, table, attrs).escaped.None? <==> forall i :: 0 <= i < |table| ==> Settles(conv, table[i], attrs)
  {
    if CastAll(conv, table, attrs).escaped.None? {
      forall i | 0 <= i < |table| ensures Settles(conv, table[i], attrs) {
        CastAllSettled(conv, table, attrs, i);
      }
    }
    if forall i :: 0 <= i < |table| ==> Settles(conv, table[i], attrs) {
      CastAllClear(conv, table, attrs);
    }
  }

  /** A field of a pass that nothing escaped from was stored, and its cast succeeded or raised a TypeError. */
  lemma {:induction false} CastAllSettled(conv: Converter, table: seq<Field>, attrs: map<string, Value>, i: nat)
    requires WellFormed(table) && i < |table| && CastAll(conv, table, attrs).escaped.None?
    ensures Settles(conv, table[i], attrs)
    decreases |table|
  {
    var init := table[..|table| - 1];
    var last := table[|table| - 1];
    InitWellFormed(table);
    CastStepEscape(conv, last, CastAll(conv, init, attrs));
    if i < |init| {
      assert init[i] == table[i];
      CastAllSettled(conv, init, attrs, i);
    } else {
      CastAllKeeps(conv, init, attrs, NameOf(last));
    }
  }

  /** Dropping the last field of a well-formed table leaves a well-formed table without its name. */
  lemma InitWellFormed(table: seq<Field>)
    requires WellFormed(table) && table != []
    ensures WellFormed(table[..|table| - 1]) && NameOf(table[|table| - 1]) !in Names(table[..|table| - 1])
  {
    var init := table[..|table| - 1];
    assert forall j :: 0 <= j < |init| ==> init[j] == table[j];
  }

  /** Nothing escapes one step iff nothing escaped before and the field settles. */
  lemma CastStepEscape(conv: Converter, f: Field, run: CastRun)
    ensures CastStep(conv, f, run).escaped.None? <==> run.escaped.None? && Settles(conv, f, run.attrs)
  {
  }

  /** One step leaves every other attribute as it was. */
  lemma CastStepKeeps(conv: Converter, f: Field, run: CastRun, k: string)
    requires k != NameOf(f)
    ensures k in CastStep(conv, f, run).attrs <==> k in run.attrs
    ensures k in run.attrs ==> CastStep(conv, f, run).attrs[k] == run.attrs[k]
  {
  }

  /** The pass leaves an attribute outside the table as it was. */
  lemma {:induction false} CastAllKeeps(conv: Converter, table: seq<Field>, attrs: map<string, Value>, k: string)
    requires k !in Names(table)
    ensures k in CastAll(conv, table, attrs).attrs <==> k in attrs
    ensures k in attrs ==> CastAll(conv, table, attrs).attrs[k] == attrs[k]
    decreases |table|
  {
    if table != [] {
      var init := table[..|table| - 1];
      assert Names(table) == Names(init) + [NameOf(table[|table| - 1])];
      CastAllKeeps(conv, init, attrs, k);
      CastStepKeeps(conv, table[|table| - 1], CastAll(conv, init, attrs), k);
    }
  }

  /** When every field settles, nothing escapes the pass. */
  lemma {:induction false} CastAllClear(conv: Converter, table: seq<Field>, attrs: map<string, Value>)
    requires WellFormed(table)
    requires forall i :: 0 <= i < |table| ==> Settles(conv, table[i], attrs)
    ensures CastAll(conv, table, attrs).escaped.None?
    decreases |table|
  {
    if table != [] {
      var init := table[..|table| - 1];
      var last := table[|table| - 1];
      InitWellFormed(table);
      forall j | 0 <= j < |init| ensures Settles(conv, init[j], attrs) {
        assert init[j] == table[j];
      }
      CastAllClear(conv, init, attrs);
      CastAllKeeps(conv, init, attrs, NameOf(last));
      assert Settles(conv, last, attrs);
      CastStepEscape(conv, last, CastAll(conv, init, attrs));
    }
  }

  /** What `cast_fields` leaves behind and raises. */
  function CastOutcome(conv: Converter, table: seq<Field>, attrs: map<string, Value>): (map<string, Value>, Option<Exc>) {
    var run := CastAll(conv, table, attrs);
    (run.attrs,
     if run.escaped.Some? then run.escaped
     else if run.failed != [] then Some(CastingError(run.failed))
     else None)
  }

  /** Object-level post-processing, casting first and validating the cast values. */
  function ObjFeatures(conv: Converter, features: set<Feature>, table: seq<Field>, attrs: map<string, Value>): (map<string, Value>, Option<Exc>) {
    var cast := if LOSSY_AUTOCAST in features then CastOutcome(conv, table, attrs) else (attrs, None);
    if cast.1.Some? then cast
    else if VALIDATION in features then (cast.0, ValidationOutcome(table, cast.0))
    else cast
  }

  /** The same post-processing in the order the hook spells it: validation before casting. */
  function ObjFeaturesAsWritten(conv: Converter, features: set<Feature>, table: seq<Field>, attrs: map<string, Value>): (map<string, Value>, Option<Exc>) {
    var checked := if VALIDATION in features then ValidationOutcome(table, attrs) else None;
    if checked.Some? then (attrs, checked)
    else if LOSSY_AUTOCAST in features then CastOutcome(conv, table, attrs)
    else (attrs, None)
  }

  /**
   * With both flags, validation sees the cast values: when every field is stored, every
   * cast succeeds and every hint is one the caster produces instances of, construction
   * raises nothing and each field holds its cast value.
   */
  lemma CastFirstAccepts(conv: Converter, features: set<Feature>, table: seq<Field>, attrs: map<string, Value>)
    requires WellBehaved(conv) && WellFormed(table) && LOSSY_AUTOCAST in features && VALIDATION in features
    requires forall i :: 0 <= i < |table| ==> Validating(FieldHint(table[i]))
    requires forall i :: 0 <= i < |table| ==> NameOf(table[i]) in attrs && Cast(conv, attrs[NameOf(table[i])], FieldHint(table[i])).Ok?
    ensures ObjFeatures(conv, features, table, attrs).1.None?
    ensures forall i :: 0 <= i < |table| ==>
      ObjFeatures(conv, features, table, attrs).0[NameOf(table[i])] == Cast(conv, attrs[NameOf(table[i])], FieldHint(table[i])).value
  {
    CastAllEscapes(conv, table, attrs);
    CastAllWritesBack(conv, table, attrs);
    CastAllClean(conv, table, attrs);
    var run := CastAll(conv, table, attrs);
    forall i | 0 <= i < |table|
      ensures NameOf(table[i]) in run.attrs && Validate(run.attrs[NameOf(table[i])], FieldHint(table[i])).Accept?
    {
      CastThenValidates(conv, attrs[NameOf(table[i])], FieldHint(table[i]));
    }
    AllValid(table, run.attrs);
  }

  /** A table whose every stored value validates passes the validation pass. */
  lemma AllValid(table: seq<Field>, attrs: map<string, Value>)
    requires forall i :: 0 <= i < |table| ==> NameOf(table[i]) in attrs && Validate(attrs[NameOf(table[i])], FieldHint(table[i])).Accept?
    ensures ValidationOutcome(table, attrs).None?
  {
    ValidationCollectsAll(table, attrs);
  }

  /** A text field declared `int`, holding "5", with a constructor that turns "5" into 5. */
  const IntField: Field := Field(Some("x"), Some(Prim(IntType)), None, None, map[])

  /**
   * Validating before casting refuses a value the cast would have fixed: with both flags,
   * the hook as written raises ValidationError for `x = "5"`, where casting first stores 5
   * and raises nothing.
   */
  lemma ValidateFirstRejectsCastable(conv: Converter)
    requires conv(PrimCtor(IntType), VStr("5")) == Ok(VInt(5))
    ensures ObjFeaturesAsWritten(conv, {LOSSY_AUTOCAST, VALIDATION}, [IntField], map["x" := VStr("5")]) ==
      (map["x" := VStr("5")], Some(ValidationError(["x"])))
    ensures ObjFeatures(conv, {LOSSY_AUTOCAST, VALIDATION}, [IntField], map["x" := VStr("5")]) ==
      (map["x" := VInt(5)], None)
  {
    var table := [IntField];
    var before, after := map["x" := VStr("5")], map["x" := VInt(5)];
    assert table[..0] == [] && Failing([], before) == Ok([]) && Failing([], after) == Ok([]);
    assert NameOf(IntField) == "x" && FieldHint(IntField) == Prim(IntType);
    assert Validate(VStr("5"), Prim(IntType)) == Reject(Mismatch);
    assert table[|table| - 1] == IntField && "x" in before && before["x"] == VStr("5");
    assert table[..|table| - 1] == [];
    var empty: seq<string> := [];
    assert empty + ["x"] == ["x"];
    assert Failing(table, before) == Ok(["x"]);
    assert ValidationOutcome(table, before) == Some(ValidationError(["x"]));
    assert Cast(conv, VStr("5"), Prim(IntType)) == Ok(VInt(5));
    assert CastAll(conv, table, before) == CastRun(after, [], None);
    assert Validate(VInt(5), Prim(IntType)) == Accept;
    assert Failing(table, after) == Ok([]);
  }

  /** `as_dict`: every field name with its current value, in table order. */
  function DictOf(table: seq<Field>, attrs: map<string, Value>): (r: Result<seq<(string, Value)>, Exc>)
    ensures r.Ok? <==> forall i :: 0 <= i < |table| ==> NameOf(table[i]) in attrs
    ensures r.Ok? ==> |r.value| == |table|
    ensures r.Ok? ==> forall i :: 0 <= i < |table| ==> r.value[i] == (NameOf(table[i]), attrs[NameOf(table[i])])
    ensures r.Err? ==> exists i :: 0 <= i < |table| && NameOf(table[i]) !in attrs && r.error == AttributeError(NoAttribute(NameOf(table[i])))
    decreases |table|
  {
    if table == [] then Ok([])
    else
      var n := NameOf(table[|table| - 1]);
      assert forall i :: 0 <= i < |table| - 1 ==> table[..|table| - 1][i] == table[i];
      match DictOf(table[..|table| - 1], attrs)
      case Err(e) => Err(e)
      case Ok(ps) => if n in attrs then Ok(ps + [(n, attrs[n])]) else Err(AttributeError(NoAttribute(n)))
  }

  /** The pairs whose name does not start with an underscore, in order. */
  function Public(ps: seq<(string, Value)>): (r: seq<(string, Value)>)
    ensures forall p :: p in r <==> p in ps && !StartsWithUnderscore(p.0)
    ensures |r| <= |ps|
  {
    if ps == [] then []
    else if StartsWithUnderscore(ps[0].0) then Public(ps[1..])
    else [ps[0]] + Public(ps[1..])
  }

  /** Filtering works piece by piece: the public pairs of `a + b` are those of `a`, then those of `b`. */
  lemma {:induction false} PublicConcat(a: seq<(string, Value)>, b: seq<(string, Value)>)
    ensures Public(a + b) == Public(a) + Public(b)
    decreases |a|
  {
    if a != [] {
      assert (a + b)[1..] == a[1..] + b;
      PublicConcat(a[1..], b);
    } else {
      assert a + b == b;
    }
  }

  /** A single pair is kept exactly when its name does not start with an underscore. */
  lemma PublicSingle(p: (string, Value))
    ensures Public([p]) == if StartsWithUnderscore(p.0) then [] else [p]
  {
    assert [p][1..] == [];
  }

  /** `as_kwargs` before formatting: the `as_dict` pairs, without private names when PRIVATE is set. */
  function KwargsOf(features: set<Feature>, table: seq<Field>, attrs: map<string, Value>): (r: Result<seq<(string, Value)>, Exc>)
    ensures r.Ok? <==> DictOf(table, attrs).Ok?
    ensures r.Ok? && PRIVATE !in features ==> r.value == DictOf(table, attrs).value
    ensures r.Ok? && PRIVATE in features ==>
      forall p :: p in r.value <==> p in DictOf(table, attrs).value && !StartsWithUnderscore(p.0)
  {
    match DictOf(table, attrs)
    case Err(e) => Err(e)
    case Ok(ps) => if PRIVATE in features then Ok(Public(ps)) else Ok(ps)
  }

  /**
   * The order and multiplicity of the `as_kwargs` pairs: one more field appends its pair
   * after those of the earlier fields, unless PRIVATE is set and its name is private; an
   * unreadable field raises its AttributeError.
   */
  lemma KwargsSnoc(features: set<Feature>, table: seq<Field>, f: Field, attrs: map<string, Value>)
    ensures var n := NameOf(f);
      KwargsOf(features, table + [f], attrs) ==
        match KwargsOf(features, table, attrs)
        case Err(e) => Err(e)
        case Ok(ks) =>
          if n !in attrs then Err(AttributeError(NoAttribute(n)))
          else if PRIVATE in features && StartsWithUnderscore(n) then Ok(ks)
          else Ok(ks + [(n, attrs[n])])
  {
    var t := table + [f];
    var n := NameOf(f);
    assert t[..|t| - 1] == table;
    if DictOf(table, attrs).Ok? && n in attrs {
      var ps := DictOf(table, attrs).value;
      assert DictOf(t, attrs) == Ok(ps + [(n, attrs[n])]);
      PublicConcat(ps, [(n, attrs[n])]);
      PublicSingle((n, attrs[n]));
      if PRIVATE in features && StartsWithUnderscore(n) {
        assert Public(ps + [(n, attrs[n])]) == Public(ps) + [] == Public(ps);
      }
    }
  }
}

=== FILE: ordering.dfy ===
/**
 * Python's `<` and `==` on the values records compare: numbers (a bool counts as 0 or 1),
 * text by code point, byte strings by byte, and lists and tuples lexicographically. Any
 * other pair raises TypeError. The tuple comparison every comparison dunder ends in is
 * specified here, with its laws: equality is sameness, `>` and `>=` are `<` and `<=` with
 * the operands swapped, `<=` is `<` or equal, and `<` is irreflexive and asymmetric.
 */
module Ordering {
  import opened Wrappers
  import opened Values
  import opened Errors

  /** The rich comparison operators the dunders are built on. */
  datatype CmpOp = Eq | Lt | Le | Gt | Ge

  /** Lexicographic order on integer sequences: a proper prefix comes first. */
  predicate LexLess(a: seq<int>, b: seq<int>)
    decreases |a|
  {
    |b| > 0 && (|a| == 0 || a[0] < b[0] || (a[0] == b[0] && LexLess(a[1..], b[1..])))
  }

  lemma {:induction false} LexIrreflexive(a: seq<int>)
    ensures !LexLess(a, a)
    decreases |a|
  {
    if |a| > 0 {
      LexIrreflexive(a[1..]);
    }
  }

  lemma {:induction false} LexAsymmetric(a: seq<int>, b: seq<int>)
    requires LexLess(a, b)
    ensures !LexLess(b, a)
    decreases |a|
  {
    if |a| > 0 && a[0] == b[0] {
      LexAsymmetric(a[1..], b[1..]);
    }
  }

  lemma {:induction false} LexTransitive(a: seq<int>, b: seq<int>, c: seq<int>)
    requires LexLess(a, b) && LexLess(b, c)
    ensures LexLess(a, c)
    decreases |a|
  {
    if |a| > 0 && a[0] == b[0] && b[0] == c[0] {
      LexTransitive(a[1..], b[1..], c[1..]);
    }
  }

  lemma {:induction false} LexTotal(a: seq<int>, b: seq<int>)
    requires a != b
    ensures LexLess(a, b) || LexLess(b, a)
    decreases |a|
  {
    if |a| > 0 && |b| > 0 && a[0] == b[0] {
      assert a == [a[0]] + a[1..] && b == [b[0]] + b[1..];
      LexTotal(a[1..], b[1..]);
    }
  }

  /** The code points of a text. */
  function Codes(s: string): (cs: seq<int>)
    ensures |cs| == |s|
    ensures forall i :: 0 <= i < |s| ==> cs[i] == s[i] as int
  {
    seq(|s|, i requires 0 <= i < |s| => s[i] as int)
  }

  predicate IsNumber(v: Value) {
    v.VBool? || v.VInt?
  }

  /** The integer a number stands for: False is 0 and True is 1. */
  function Num(v: Value): int
    requires IsNumber(v)
  {
    if v.VInt? then v.i else if v.b then 1 else 0
  }

  predicate IsByteString(v: Value) {
    v.VBytes? || v.VByteArray?
  }

  /** The first position where two sequences differ, or the shorter length. */
  function FirstDiff(s: seq<Value>, t: seq<Value>): (i: nat)
    ensures i <= |s| && i <= |t|
    ensures forall j :: 0 <= j < i ==> s[j] == t[j]
    ensures i < |s| && i < |t| ==> s[i] != t[i]
  {
    if s == [] || t == [] || s[0] != t[0] then 0 else 1 + FirstDiff(s[1..], t[1..])
  }

  lemma {:induction false} FirstDiffSymmetric(s: seq<Value>, t: seq<Value>)
    ensures FirstDiff(s, t) == FirstDiff(t, s)
    decreases |s|
  {
    if s != [] && t != [] && s[0] == t[0] {
      FirstDiffSymmetric(s[1..], t[1..]);
    }
  }

  /** Two sequences with no differing position and the same length are the same. */
  lemma SameUpTo(s: seq<Value>, t: seq<Value>)
    requires FirstDiff(s, t) == |s| == |t|
    ensures s == t
  {
  }

  /**
   * `x < y` for two values: numbers by value, text and byte strings lexicographically,
   * two lists, two tuples or two deques by their first differing element, else shorter first; every
   * other pair raises TypeError.
   */
  function Less(x: Value, y: Value): (r: Result<bool, Exc>)
    ensures r.Err? ==> r.error == TypeError(Incomparable)
    ensures IsNumber(x) && IsNumber(y) ==> r == Ok(Num(x) < Num(y))
    decreases x
  {
    if IsNumber(x) && IsNumber(y) then Ok(Num(x) < Num(y))
    else if x.VStr? && y.VStr? then Ok(LexLess(Codes(x.s), Codes(y.s)))
    else if IsByteString(x) && IsByteString(y) then Ok(LexLess(x.data, y.data))
    else if x.VColl? && y.VColl? && x.ck == y.ck && (x.ck == List || x.ck == Tuple || x.ck == Deque) then
      var i := FirstDiff(x.items, y.items);
      if i < |x.items| && i < |y.items| then Less(x.items[i], y.items[i]) else Ok(|x.items| < |y.items|)
    else Err(TypeError(Incomparable))
  }

  /** No value is less than itself. */
  lemma LessIrreflexive(x: Value)
    ensures Less(x, x) != Ok(true)
  {
    if x.VStr? {
      LexIrreflexive(Codes(x.s));
    } else if IsByteString(x) {
      LexIrreflexive(x.data);
    }
  }

  /** `x < y` and `y < x` never both hold. */
  lemma {:induction false} LessAsymmetric(x: Value, y: Value)
    requires Less(x, y) == Ok(true)
    ensures Less(y, x) == Ok(false)
    decreases x
  {
    if IsNumber(x) && IsNumber(y) {
    } else if x.VStr? && y.VStr? {
      LexAsymmetric(Codes(x.s), Codes(y.s));
    } else if IsByteString(x) && IsByteString(y) {
      LexAsymmetric(x.data, y.data);
    } else {
      FirstDiffSymmetric(x.items, y.items);
      var i := FirstDiff(x.items, y.items);
      if i < |x.items| && i < |y.items| {
        LessAsymmetric(x.items[i], y.items[i]);
      }
    }
  }

  /**
   * A comparison of two key tuples: at the first differing position equality is false
   * and the order operators compare the two elements; with no differing position the
   * lengths decide.
   */
  function TupleCompare(op: CmpOp, s: seq<Value>, t: seq<Value>): Result<bool, Exc> {
    var i := FirstDiff(s, t);
    if i < |s| && i < |t| then
      match op
      case Eq => Ok(false)
      case Lt => Less(s[i], t[i])
      case Le => Less(s[i], t[i])
      case Gt => Less(t[i], s[i])
      case Ge => Less(t[i], s[i])
    else
      match op
      case Eq => Ok(|s| == |t|)
      case Lt => Ok(|s| < |t|)
      case Le => Ok(|s| <= |t|)
      case Gt => Ok(|s| > |t|)
      case Ge => Ok(|s| >= |t|)
  }

  /** Tuple equality never raises and holds exactly for the same tuple. */
  lemma TupleEquality(s: seq<Value>, t: seq<Value>)
    ensures TupleCompare(Eq, s, t) == Ok(s == t)
  {
    var i := FirstDiff(s, t);
    if !(i < |s| && i < |t|) && |s| == |t| {
      SameUpTo(s, t);
    }
  }

  /** `s > t` is `t < s` and `s >= t` is `t <= s`, errors included. */
  lemma TupleFlip(s: seq<Value>, t: seq<Value>)
    ensures TupleCompare(Gt, s, t) == TupleCompare(Lt, t, s)
    ensures TupleCompare(Ge, s, t) == TupleCompare(Le, t, s)
  {
    FirstDiffSymmetric(s, t);
  }

  /** `s <= t` is `s < t` or `s == t`: equal tuples are related without comparing any element. */
  lemma TupleLeIsLtOrEq(s: seq<Value>, t: seq<Value>)
    ensures TupleCompare(Le, s, t) == if s == t then Ok(true) else TupleCompare(Lt, s, t)
  {
    var i := FirstDiff(s, t);
    if !(i < |s| && i < |t|) && |s| == |t| {
      SameUpTo(s, t);
    }
  }

  /** No tuple is less than itself. */
  lemma TupleIrreflexive(s: seq<Value>)
    ensures TupleCompare(Lt, s, s) == Ok(false)
  {
  }

  /** `s < t` and `t < s` never both hold. */
  lemma TupleAsymmetric(s: seq<Value>, t: seq<Value>)
    requires TupleCompare(Lt, s, t) == Ok(true)
    ensures TupleCompare(Lt, t, s) == Ok(false)
  {
    FirstDiffSymmetric(s, t);
    var i := FirstDiff(s, t);
    if i < |s| && i < |t| {
      LessAsymmetric(s[i], t[i]);
    }
  }
}

=== FILE: pipeline.dfy ===
/**
 * The per-write pipeline of a record object: an optional name-resolution stage (private
 * fields), then the handler stages in their fixed order (frozen guard, lossy cast,
 * validation), each turning a (name, value) pair into a new one or raising. The stages
 * and the order the tables give them are specified here; the loop that runs them and
 * commits the result is `Records.Record.SetAttr`.
 */
module Pipeline {
  import opened Wrappers
  import opened Values
  import opened Shapes
  import opened Errors
  import opened Features
  import opened Fields
  import opened Casting
  import opened Validation

  /** What a stage sees of the object: its class name and its field table. */
  datatype Owner = Owner(className: string, table: seq<Field>)

  /** The name-resolution stages, in table order. */
  const NameRetrievals: seq<Feature> := [PRIVATE]

  /** The handler stages, in table order: the guard first, then the cast, then the check. */
  const Handlers: seq<Feature> := [FROZEN, LOSSY_AUTOCAST, VALIDATION]

  /**
   * Private fields are stored under their bare name and written through `_name`: the bare
   * name itself is refused, an underscore name must denote a field, and the first character
   * is dropped whatever it is.
   */
  function PrivateName(table: seq<Field>, name: string): (r: Result<string, Exc>)
    ensures Declared(table, name) ==> r == Err(AttributeError(PrivateWrite))
    ensures !Declared(table, name) && StartsWithUnderscore(name) && !Declared(table, DropFirst(name)) ==>
      r == Err(AttributeError(PrivateNotFound(name)))
    ensures r.Ok? <==> !Declared(table, name) && (StartsWithUnderscore(name) ==> Declared(table, DropFirst(name)))
    ensures r.Ok? ==> r.value == DropFirst(name) && |r.value| == if name == "" then 0 else |name| - 1
  {
    if Declared(table, name) then Err(AttributeError(PrivateWrite))
    else if StartsWithUnderscore(name) && !Declared(table, DropFirst(name)) then Err(AttributeError(PrivateNotFound(name)))
    else Ok(DropFirst(name))
  }

  /** The frozen guard raises on every write, naming the class. */
  function FrozenGuard(owner: Owner, name: string, value: Value): (r: Result<(string, Value), Exc>)
    ensures r.Err? && r.error.AttributeError? && r.error.areason.FrozenModify?
    ensures r.error.areason.className == owner.className
  {
    Err(AttributeError(FrozenModify(owner.className)))
  }

  /** The cast stage replaces the value by its cast to the field's hint and keeps the name. */
  function CastStage(conv: Converter, owner: Owner, name: string, value: Value): (r: Result<(string, Value), Exc>)
    ensures !Declared(owner.table, name) ==> r == Err(KeyError(name))
    ensures r.Ok? ==>
      r.value.0 == name && Declared(owner.table, name) && Cast(conv, value, HintOf(owner.table, name)) == Ok(r.value.1)
    ensures r.Err? && Declared(owner.table, name) ==> Cast(conv, value, HintOf(owner.table, name)) == Err(r.error)
  {
    if !Declared(owner.table, name) then Err(KeyError(name))
    else match Cast(conv, value, HintOf(owner.table, name))
      case Ok(w) => Ok((name, w))
      case Err(e) => Err(e)
  }

  /**
   * The validation stage passes the pair through when the value has the field's shape;
   * a mismatch of any kind becomes one TypeError naming the field.
   */
  function ValidateStage(owner: Owner, name: string, value: Value): (r: Result<(string, Value), Exc>)
    ensures !Declared(owner.table, name) ==> r == Err(KeyError(name))
    ensures r.Ok? <==> Declared(owner.table, name) && Validate(value, HintOf(owner.table, name)) == Accept
    ensures r.Ok? ==> r.value == (name, value)
    ensures r.Err? && Declared(owner.table, name) ==> r.error == TypeError(FieldInvalid(NameOf(Lookup(owner.table, name))))
  {
    if !Declared(owner.table, name) then Err(KeyError(name))
    else match Validate(value, HintOf(owner.table, name))
      case Accept => Ok((name, value))
      case Reject(_) => Err(TypeError(FieldInvalid(NameOf(Lookup(owner.table, name)))))
  }

  /** The function a name-resolution table entry stands for. */
  function Retrieval(feature: Feature, owner: Owner, name: string): Result<string, Exc> {
    if feature == PRIVATE then PrivateName(owner.table, name) else Ok(name)
  }

  /** The function a handler table entry stands for. */
  function Handler(conv: Converter, feature: Feature, owner: Owner, name: string, value: Value): Result<(string, Value), Exc> {
    match feature
    case FROZEN => FrozenGuard(owner, name, value)
    case LOSSY_AUTOCAST => CastStage(conv, owner, name, value)
    case VALIDATION => ValidateStage(owner, name, value)
    case _ => Ok((name, value))
  }

  /** The first enabled name-resolution stage from position `i` runs, and no other. */
  function ResolveFrom(features: set<Feature>, owner: Owner, name: string, i: nat): Result<string, Exc>
    requires i <= |NameRetrievals|
    decreases |NameRetrievals| - i
  {
    if i == |NameRetrievals| then Ok(name)
    else if NameRetrievals[i] in features then Retrieval(NameRetrievals[i], owner, name)
    else ResolveFrom(features, owner, name, i + 1)
  }

  /** The enabled handlers from position `i` on, each fed the previous one's pair. */
  function HandleFrom(conv: Converter, features: set<Feature>, owner: Owner, name: string, value: Value, i: nat): Result<(string, Value), Exc>
    requires i <= |Handlers|
    decreases |Handlers| - i
  {
    if i == |Handlers| then Ok((name, value))
    else if Handlers[i] in features then
      match Handler(conv, Handlers[i], owner, name, value)
      case Err(e) => Err(e)
      case Ok(p) => HandleFrom(conv, features, owner, p.0, p.1, i + 1)
    else HandleFrom(conv, features, owner, name, value, i + 1)
  }

  /**
   * Instances have no `__dict__`: SLOTS is on and the class declares fields, so the class
   * gets the field names as `__slots__` on top of the base class's empty `__slots__`.
   */
  predicate Slotted(features: set<Feature>, table: seq<Field>) {
    SLOTS in features && |table| > 0
  }

  /** The final `object.__setattr__`: a slotted instance has no room for an undeclared name. */
  function Store(features: set<Feature>, owner: Owner, p: (string, Value)): (r: Result<(string, Value), Exc>)
    ensures r.Ok? <==> !Slotted(features, owner.table) || Declared(owner.table, p.0)
    ensures r.Ok? ==> r.value == p
    ensures r.Err? ==> r.error == AttributeError(NoAttribute(p.0))
  {
    if Slotted(features, owner.table) && !Declared(owner.table, p.0) then Err(AttributeError(NoAttribute(p.0)))
    else Ok(p)
  }

  /** The pair a write stores, or the exception that stops it before anything is stored. */
  function Process(conv: Converter, features: set<Feature>, owner: Owner, name: string, value: Value): Result<(string, Value), Exc> {
    match ResolveFrom(features, owner, name, 0)
    case Err(e) => Err(e)
    case Ok(n) =>
      match HandleFrom(conv, features, owner, n, value, 0)
      case Err(e) => Err(e)
      case Ok(p) => Store(features, owner, p)
  }

  /** The name a write resolves to, before any handler runs. */
  lemma ResolvedName(features: set<Feature>, owner: Owner, name: string)
    ensures PRIVATE !in features ==> ResolveFrom(features, owner, name, 0) == Ok(name)
    ensures PRIVATE in features ==> ResolveFrom(features, owner, name, 0) == PrivateName(owner.table, name)
  {
  }

  /**
   * A frozen object refuses every write. Unless private-name resolution refuses it first,
   * the error is the frozen one, raised before any cast or validation runs.
   */
  lemma FrozenRefusesAll(conv: Converter, features: set<Feature>, owner: Owner, name: string, value: Value)
    requires FROZEN in features
    ensures Process(conv, features, owner, name, value).Err?
    ensures ResolveFrom(features, owner, name, 0).Ok? ==>
      Process(conv, features, owner, name, value) == Err(AttributeError(FrozenModify(owner.className)))
  {
  }

  /** A public-name write to a private field is refused, whether or not the object is frozen. */
  lemma PrivateWriteRefused(conv: Converter, features: set<Feature>, owner: Owner, name: string, value: Value)
    requires PRIVATE in features && Declared(owner.table, name)
    ensures Process(conv, features, owner, name, value) == Err(AttributeError(PrivateWrite))
  {
  }

  /**
   * Without the frozen guard, casting and validation together store the cast value iff
   * the cast succeeds and the cast value (not the written one) has the field's shape; the
   * stored name is the resolved name.
   */
  lemma {:induction false} CastThenValidate(conv: Converter, features: set<Feature>, owner: Owner, name: string, value: Value)
    requires FROZEN !in features && LOSSY_AUTOCAST in features && VALIDATION in features
    requires ResolveFrom(features, owner, name, 0).Ok?
    ensures var n := ResolveFrom(features, owner, name, 0).value;
      var r := Process(conv, features, owner, name, value);
      && (r.Ok? <==>
            Declared(owner.table, n) && Cast(conv, value, HintOf(owner.table, n)).Ok? &&
            Validate(Cast(conv, value, HintOf(owner.table, n)).value, HintOf(owner.table, n)) == Accept)
      && (r.Ok? ==> r.value == (n, Cast(conv, value, HintOf(owner.table, n)).value))
  {
    var n := ResolveFrom(features, owner, name, 0).value;
    assert HandleFrom(conv, features, owner, n, value, 0) == HandleFrom(conv, features, owner, n, value, 1);
    var c := CastStage(conv, owner, n, value);
    if c.Ok? {
      assert HandleFrom(conv, features, owner, n, value, 1) == HandleFrom(conv, features, owner, n, c.value.1, 2);
      assert HandleFrom(conv, features, owner, n, c.value.1, 2) == ValidateStage(owner, n, c.value.1);
    }
  }

  /** With casting alone the stored pair is the resolved name and the cast value. */
  lemma CastOnly(conv: Converter, features: set<Feature>, owner: Owner, name: string, value: Value)
    requires FROZEN !in features && LOSSY_AUTOCAST in features && VALIDATION !in features
    requires ResolveFrom(features, owner, name, 0).Ok?
    ensures var n := ResolveFrom(features, owner, name, 0).value;
      Process(conv, features, owner, name, value) == CastStage(conv, owner, n, value)
  {
  }

  /** With validation alone the written value is stored unchanged, or refused. */
  lemma ValidateOnly(conv: Converter, features: set<Feature>, owner: Owner, name: string, value: Value)
    requires FROZEN !in features && LOSSY_AUTOCAST !in features && VALIDATION in features
    requires ResolveFrom(features, owner, name, 0).Ok?
    ensures var n := ResolveFrom(features, owner, name, 0).value;
      var r := Process(conv, features, owner, name, value);
      && (r.Ok? <==> Declared(owner.table, n) && Validate(value, HintOf(owner.table, n)) == Accept)
      && (r.Ok? ==> r.value == (n, value))
  {
  }

  /**
   * No handler enabled: the write goes straight through under the resolved name, declared or
   * not, except that a slotted instance refuses an undeclared name.
   */
  lemma PlainWrite(conv: Converter, features: set<Feature>, owner: Owner, name: string, value: Value)
    requires FROZEN !in features && LOSSY_AUTOCAST !in features && VALIDATION !in features
    requires ResolveFrom(features, owner, name, 0).Ok?
    ensures var n := ResolveFrom(features, owner, name, 0).value;
      Process(conv, features, owner, name, value) ==
        if Slotted(features, owner.table) && !Declared(owner.table, n) then Err(AttributeError(NoAttribute(n)))
        else Ok((n, value))
  {
  }

  /** Whatever the flags, a slotted instance only ever stores declared names. */
  lemma SlottedStoresDeclared(conv: Converter, features: set<Feature>, owner: Owner, name: string, value: Value)
    requires Slotted(features, owner.table) && Process(conv, features, owner, name, value).Ok?
    ensures Declared(owner.table, Process(conv, features, owner, name, value).value.0)
  {
  }

  /** Whatever the flags, the handlers never rename: a stored pair carries the resolved name. */
  lemma {:induction false} HandlersKeepName(conv: Converter, features: set<Feature>, owner: Owner, name: string, value: Value, i: nat)
    requires i <= |Handlers|
    ensures HandleFrom(conv, features, owner, name, value, i).Ok? ==> HandleFrom(conv, features, owner, name, value, i).value.0 == name
    decreases |Handlers| - i
  {
    if i < |Handlers| {
      if Handlers[i] in features {
        var h := Handler(conv, Handlers[i], owner, name, value);
        if h.Ok? {
          assert h.value.0 == name;
          HandlersKeepName(conv, features, owner, name, h.value.1, i + 1);
        }
      } else {
        HandlersKeepName(conv, features, owner, name, value, i + 1);
      }
    }
  }

  /**
   * The read-side mapping of private objects: `_x` reads field `x` when `x` is declared;
   * any other name, underscored or not, is read as it is.
   */
  function PrivateReadName(table: seq<Field>, name: string): (n: string)
    ensures StartsWithUnderscore(name) && Declared(table, DropFirst(name)) ==> n == DropFirst(name)
    ensures !(StartsWithUnderscore(name) && Declared(table, DropFirst(name))) ==> n == name
  {
    if StartsWithUnderscore(name) && Declared(table, DropFirst(name)) then DropFirst(name) else name
  }

  /**
   * Attribute lookup on a record: a stored name is read directly; only a failed lookup on a
   * private object goes through the private-name mapping.
   */
  function ReadAttr(features: set<Feature>, table: seq<Field>, attrs: map<string, Value>, name: string): (r: Result<Value, Exc>)
    ensures name in attrs ==> r == Ok(attrs[name])
    ensures name !in attrs && PRIVATE !in features ==> r == Err(AttributeError(NoAttribute(name)))
    ensures name !in attrs && PRIVATE in features ==>
      r == if PrivateReadName(table, name) in attrs then Ok(attrs[PrivateReadName(table, name)])
           else Err(AttributeError(NoAttribute(PrivateReadName(table, name))))
  {
    if name in attrs then Ok(attrs[name])
    else if PRIVATE !in features then Err(AttributeError(NoAttribute(name)))
    else
      var n := PrivateReadName(table, name);
      if n in attrs then Ok(attrs[n]) else Err(AttributeError(NoAttribute(n)))
  }

  /**
   * After a private write of `_x` is stored, reading `x` and reading `_x` both give the
   * stored value (as long as no attribute is literally named `_x`).
   */
  lemma PrivateWriteThenRead(conv: Converter, features: set<Feature>, owner: Owner, attrs: map<string, Value>, name: string, value: Value)
    requires PRIVATE in features && StartsWithUnderscore(name) && name !in attrs
    requires Process(conv, features, owner, name, value).Ok?
    ensures var p := Process(conv, features, owner, name, value).value;
      && p.0 == DropFirst(name)
      && ReadAttr(features, owner.table, attrs[p.0 := p.1], p.0) == Ok(p.1)
      && ReadAttr(features, owner.table, attrs[p.0 := p.1], name) == Ok(p.1)
  {
    var n := PrivateName(owner.table, name).value;
    HandlersKeepName(conv, features, owner, n, value, 0);
    assert n != name;
  }
}

=== FILE: records.dfy ===
/**
 * Record classes and record objects as mutable state: a class holds its field table and
 * key tuples, an object holds its attribute map. The methods here are the hooks and the
 * write pipeline carried out step by step, each proved to leave exactly the state and
 * raise exactly the exception the specification functions of `Hooks` and `Pipeline` give.
 */
module Records {
  import opened Wrappers
  import opened Values
  import opened Shapes
  import opened Errors
  import opened Features
  import opened Fields
  import opened Casting
  import opened Validation
  import opened Caster
  import opened Pipeline
  import opened Hooks

  /** The three key tuples a class carries. */
  datatype KeyKind = EqKeys | HashKeys | OrderKeys

  /** The calls a construction makes on the new object, in the order it makes them. */
  datatype Step = Init | InitHook | ObjFeaturesHook | PostInit

  /** A record class: its name, its flags, its field table and its key tuples. */
  class RecordClass {
    const name: string
    const features: set<Feature>
    var fields: seq<Field>
    var eqKeys: seq<string>
    var hashKeys: seq<string>
    var orderKeys: seq<string>

    /** A class before its hooks run: the inherited empty table and the declared key tuples. */
    constructor (name: string, features: set<Feature>, eqKeys: seq<string>, hashKeys: seq<string>, orderKeys: seq<string>)
      ensures this.name == name && this.features == features && fields == []
      ensures this.eqKeys == eqKeys && this.hashKeys == hashKeys && this.orderKeys == orderKeys
    {
      this.name := name;
      this.features := features;
      fields := [];
      this.eqKeys := eqKeys;
      this.hashKeys := hashKeys;
      this.orderKeys := orderKeys;
    }

    /**
     * `set_fields`: one field per annotated name in annotation order; the table is assigned
     * only when every declaration is accepted, and the first refused default is raised.
     */
    method SetFields(hints: seq<(string, Shape)>, attrs: map<string, ClassAttr>) returns (err: Option<Exc>)
      modifies this
      ensures err.None? <==> FieldTable(hints, attrs).Ok?
      ensures err.None? ==> fields == FieldTable(hints, attrs).value
      ensures err.Some? ==> err.value == FieldTable(hints, attrs).error && fields == old(fields)
      ensures eqKeys == old(eqKeys) && hashKeys == old(hashKeys) && orderKeys == old(orderKeys)
    {
      var table: seq<Field> := [];
      var i := 0;
      while i < |hints|
        invariant i <= |hints|
        invariant FieldTable(hints[..i], attrs) == Ok(table)
        invariant fields == old(fields)
        invariant eqKeys == old(eqKeys) && hashKeys == old(hashKeys) && orderKeys == old(orderKeys)
      {
        var (n, h) := hints[i];
        assert hints[..i + 1][..i] == hints[..i];
        if n !in ClassnoAttrs {
          var made := DeclaredField(n, attrs);
          if made.Err? {
            assert FieldTable(hints[..i + 1], attrs) == Err(made.error);
            FieldTableStops(hints, attrs, i + 1);
            return Some(made.error);
          }
          table := table + [made.value.(name := Some(n), hint := Some(h))];
        }
        i := i + 1;
      }
      assert hints[..i] == hints;
      fields := table;
      return None;
    }

    /** `set_keys`: an empty key tuple of the given kind becomes all field names; nothing else changes. */
    method SetKeys(kind: KeyKind)
      modifies this
      ensures fields == old(fields)
      ensures eqKeys == if kind == EqKeys then DefaultKeys(old(eqKeys), fields) else old(eqKeys)
      ensures hashKeys == if kind == HashKeys then DefaultKeys(old(hashKeys), fields) else old(hashKeys)
      ensures orderKeys == if kind == OrderKeys then DefaultKeys(old(orderKeys), fields) else old(orderKeys)
    {
      match kind
      case EqKeys => if eqKeys == [] { eqKeys := Names(fields); }
      case HashKeys => if hashKeys == [] { hashKeys := Names(fields); }
      case OrderKeys => if orderKeys == [] { orderKeys := Names(fields); }
    }

    /** The key tuples the class-level hook fills in, one per enabled comparison flag. */
    method SetEnabledKeys()
      modifies this
      ensures fields == old(fields)
      ensures eqKeys == if EQ in features then DefaultKeys(old(eqKeys), fields) else old(eqKeys)
      ensures hashKeys == if HASH in features then DefaultKeys(old(hashKeys), fields) else old(hashKeys)
      ensures orderKeys == if ORDER in features then DefaultKeys(old(orderKeys), fields) else old(orderKeys)
    {
      if EQ in features { SetKeys(EqKeys); }
      if HASH in features { SetKeys(HashKeys); }
      if ORDER in features { SetKeys(OrderKeys); }
    }
  }

  /** A record object: its class, its attribute map and the construction calls made on it. */
  class Record {
    const cls: RecordClass
    var attrs: map<string, Value>
    ghost var trace: seq<Step>

    /** `type.__call__` with the empty `__init__`: no attribute is stored yet. */
    constructor (cls: RecordClass)
      ensures this.cls == cls && attrs == map[] && trace == [Init]
    {
      this.cls := cls;
      attrs := map[];
      trace := [Init];
    }

    /**
     * `init_obj`: every field is filled from its highest-precedence source, each factory
     * called at most once, and one TypeError lists every field nothing supplies; a factory
     * that raises ends the construction there with its exception.
     */
    method InitObj(kwargs: map<string, Value>, produce: Factory -> Result<Value, Exc>) returns (err: Option<Exc>, called: seq<string>)
      modifies this
      ensures var n := FactoryStop(cls.fields, kwargs, produce);
        && attrs == old(attrs) + Filled(cls.fields[..n], kwargs, produce)
        && called == FactoryCalls(cls.fields[..if n < |cls.fields| then n + 1 else n], kwargs)
      ensures err == InitRaised(cls.fields, kwargs, produce)
      ensures trace == old(trace)
    {
      var table := cls.fields;
      var missing: seq<string> := [];
      called := [];
      var i := 0;
      while i < |table|
        invariant i <= |table| && table == cls.fields
        invariant forall k :: 0 <= k < i ==> !Raises(table[k], kwargs, produce)
        invariant attrs == old(attrs) + Filled(table[..i], kwargs, produce)
        invariant missing == MissingNames(table[..i], kwargs)
        invariant called == FactoryCalls(table[..i], kwargs)
        invariant trace == old(trace)
      {
        var f := table[i];
        var n := NameOf(f);
        FilledStep(table, kwargs, produce, i);
        ghost var before := Filled(table[..i], kwargs, produce);
        if n in kwargs {
          attrs := attrs[n := kwargs[n]];
        } else if f.default.Some? {
          attrs := attrs[n := f.default.value];
        } else if f.factory.Some? {
          called := called + [n];
          var r := produce(f.factory.value);
          if r.Err? {
            StopAt(table, kwargs, produce, i);
            assert called == FactoryCalls(table[..i + 1], kwargs);
            assert attrs == old(attrs) + Filled(table[..i], kwargs, produce);
            return Some(r.error), called;
          }
          attrs := attrs[n := r.value];
        } else {
          missing := missing + [n];
        }
        if SourceOf(f, kwargs) != NoSource {
          StoreOver(old(attrs), before, n, Initial(f, kwargs, produce).value.value);
        }
        i := i + 1;
      }
      assert table[..i] == table;
      StopAt(table, kwargs, produce, i);
      if missing != [] {
        err := Some(TypeError(MissingArguments(missing)));
      } else {
        err := None;
      }
    }

    /** `validate_fields`: every field is checked, the object is not written. */
    method ValidateFields() returns (err: Option<Exc>)
      ensures err == ValidationOutcome(cls.fields, attrs)
    {
      var table := cls.fields;
      var failed: seq<string> := [];
      var i := 0;
      while i < |table|
        invariant i <= |table|
        invariant Failing(table[..i], attrs) == Ok(failed)
      {
        var n := NameOf(table[i]);
        assert table[..i + 1][..i] == table[..i];
        if n !in attrs {
          FailingStops(table, attrs, i + 1);
          return Some(AttributeError(NoAttribute(n)));
        }
        if Validate(attrs[n], FieldHint(table[i])).Reject? {
          failed := failed + [n];
        }
        i := i + 1;
      }
      assert table[..i] == table;
      if failed != [] {
        return Some(ValidationError(failed));
      }
      return None;
    }

    /**
     * `cast_fields`: every field is cast and written back; fields whose cast raised
     * TypeError are collected into one CastingError, any other exception escapes at once.
     */
    method CastFields(conv: Converter) returns (err: Option<Exc>)
      modifies this
      ensures (attrs, err) == CastOutcome(conv, cls.fields, old(attrs))
      ensures trace == old(trace)
    {
      var table := cls.fields;
      var failed: seq<string> := [];
      var i := 0;
      while i < |table|
        invariant i <= |table| && table == cls.fields
        invariant CastAll(conv, table[..i], old(attrs)) == CastRun(attrs, failed, None)
        invariant trace == old(trace)
      {
        var n := NameOf(table[i]);
        assert table[..i + 1][..i] == table[..i];
        if n !in attrs {
          CastAllStops(conv, table, old(attrs), i + 1);
          return Some(AttributeError(NoAttribute(n)));
        }
        var c := CastValue(conv, attrs[n], FieldHint(table[i]));
        if c.Ok? {
          attrs := attrs[n := c.value];
        } else if c.error.TypeError? {
          failed := failed + [n];
        } else {
          CastAllStops(conv, table, old(attrs), i + 1);
          return Some(c.error);
        }
        i := i + 1;
      }
      assert table[..i] == table;
      if failed != [] {
        return Some(CastingError(failed));
      }
      return None;
    }

    /**
     * The object-feature hook, casting first so that validation sees the cast values (the
     * order of the write pipeline); see `Hooks.ObjFeaturesAsWritten` for the order the hook
     * is written in.
     */
    method ProcessObjFeatures(conv: Converter) returns (err: Option<Exc>)
      modifies this
      ensures (attrs, err) == ObjFeatures(conv, cls.features, cls.fields, old(attrs))
      ensures trace == old(trace)
    {
      err := None;
      if LOSSY_AUTOCAST in cls.features {
        err := CastFields(conv);
      }
      if err.None? && VALIDATION in cls.features {
        err := ValidateFields();
      }
    }

    /**
     * The construction sequence after `__init__`: the init hook, the object-feature hook,
     * then `__post__init__`, each only when the previous one raised nothing.
     */
    method Construct(conv: Converter, kwargs: map<string, Value>, produce: Factory -> Result<Value, Exc>) returns (err: Option<Exc>)
      modifies this
      ensures InitRaised(cls.fields, kwargs, produce).Some? ==>
        && err == InitRaised(cls.fields, kwargs, produce)
        && attrs == old(attrs) + Filled(cls.fields[..FactoryStop(cls.fields, kwargs, produce)], kwargs, produce)
        && trace == old(trace) + [InitHook]
      ensures InitRaised(cls.fields, kwargs, produce).None? ==>
        && (attrs, err) == ObjFeatures(conv, cls.features, cls.fields, old(attrs) + Filled(cls.fields, kwargs, produce))
        && trace == old(trace) + (if err.None? then [InitHook, ObjFeaturesHook, PostInit] else [InitHook, ObjFeaturesHook])
    {
      var called;
      err, called := InitObj(kwargs, produce);
      assert cls.fields[..|cls.fields|] == cls.fields;
      trace := trace + [InitHook];
      if err.Some? {
        return;
      }
      err := ProcessObjFeatures(conv);
      trace := trace + [ObjFeaturesHook];
      if err.Some? {
        return;
      }
      trace := trace + [PostInit];
    }

    /**
     * `setattr_processor`: the first enabled name-resolution stage, then every enabled
     * handler in table order, then one store of the final pair, which a slotted instance
     * refuses for an undeclared name; a stage that raises stops the write with nothing stored.
     */
    method SetAttr(conv: Converter, name: string, value: Value) returns (err: Option<Exc>)
      modifies this
      ensures var p := Process(conv, cls.features, Owner(cls.name, cls.fields), name, value);
        && (p.Ok? ==> err.None? && attrs == old(attrs)[p.value.0 := p.value.1])
        && (p.Err? ==> err == Some(p.error) && attrs == old(attrs))
      ensures trace == old(trace)
    {
      var owner := Owner(cls.name, cls.fields);
      var features := cls.features;
      var n := name;
      var i := 0;
      while i < |NameRetrievals|
        invariant i <= |NameRetrievals| && n == name
        invariant ResolveFrom(features, owner, name, 0) == ResolveFrom(features, owner, name, i)
      {
        if NameRetrievals[i] in features {
          var r := Retrieval(NameRetrievals[i], owner, name);
          if r.Err? {
            return Some(r.error);
          }
          n := r.value;
          break;
        }
        i := i + 1;
      }
      assert ResolveFrom(features, owner, name, 0) == Ok(n);
      ghost var resolved := n;
      var v := value;
      i := 0;
      while i < |Handlers|
        invariant i <= |Handlers|
        invariant HandleFrom(conv, features, owner, resolved, value, 0) == HandleFrom(conv, features, owner, n, v, i)
      {
        if Handlers[i] in features {
          var h := Handler(conv, Handlers[i], owner, n, v);
          if h.Err? {
            return Some(h.error);
          }
          n, v := h.value.0, h.value.1;
        }
        i := i + 1;
      }
      var stored := Store(features, owner, (n, v));
      if stored.Err? {
        return Some(stored.error);
      }
      attrs := attrs[n := v];
      return None;
    }
  }

  /** Storing into the object after the stored values were laid over it is storing into them. */
  lemma StoreOver(attrs: map<string, Value>, filled: map<string, Value>, n: string, v: Value)
    ensures (attrs + filled)[n := v] == attrs + filled[n := v]
  {
  }

  /** Attribute lookup on an object, through the private-name mapping when the class has PRIVATE. */
  function GetAttr(r: Record, name: string): Result<Value, Exc>
    reads r, r.cls
  {
    ReadAttr(r.cls.features, r.cls.fields, r.attrs, name)
  }

  /**
   * Without PRIVATE, a write that is stored reads back under the name it was written to
   * (`Pipeline.PrivateWriteThenRead` covers private writes).
   */
  lemma WriteThenRead(conv: Converter, features: set<Feature>, owner: Owner, attrs: map<string, Value>, name: string, value: Value)
    requires PRIVATE !in features && Process(conv, features, owner, name, value).Ok?
    ensures var p := Process(conv, features, owner, name, value).value;
      && p.0 == name
      && ReadAttr(features, owner.table, attrs[p.0 := p.1], name) == Ok(p.1)
  {
    HandlersKeepName(conv, features, owner, name, value, 0);
  }
}

=== FILE: shapes.dfy ===
/**
 * Declared type shapes: the closed sum that replaces the typing-module hints the engine
 * walks (primitive class, union, homogeneous container, mapping, fixed and variadic tuple,
 * self reference, and a generic whose origin has no registered handler).
 */
module Shapes {
  import opened Wrappers
  import opened Values
  import opened Errors

  /** A hint with no generic origin: a plain class, tested with isinstance(). */
  datatype PrimKind =
    | NoneType | BoolType | IntType | StrType | BytesType | ByteArrayType
    | CollType(ck: CollKind) | DictType(mk: MapKind) | ClassType(name: string)

  /**
   * The origin of a generic alias the registered handlers do not know (an abstract
   * collection, Literal, Callable, a user generic ...): whether it is a class at all, which
   * runtime classes are its instances, whether it has `__iter__`, and whether it is a
   * str/bytes subclass.
   */
  datatype Origin = Origin(name: string, isType: bool, instances: set<Tag>, iterable: bool, textual: bool)

  /** The type arguments of a mapping: none (bare Dict), one (Counter[K]) or two. */
  datatype MapArgs = NoArgs | KeyOnly(key: Shape) | KeyVal(key: Shape, val: Shape)

  type SeqKind = k: CollKind | k != Tuple witness List

  datatype Shape =
    | Prim(kind: PrimKind)
    | Union(members: seq<Shape>)
    | SeqOf(sk: SeqKind, elem: Shape)
    | MapOf(mk: MapKind, args: MapArgs)
    | TupleFixed(elems: seq<Shape>)
    | TupleVar(elem: Shape)
    | SelfRef(name: string)
    | Other(origin: Origin, elem: Shape)

  /** `type(None)`, the absence member of an Optional. */
  const NoneShape: Shape := Prim(NoneType)

  function PrimName(k: PrimKind): string {
    match k
    case NoneType => "NoneType"
    case BoolType => "bool"
    case IntType => "int"
    case StrType => "str"
    case BytesType => "bytes"
    case ByteArrayType => "bytearray"
    case CollType(ck) => ClassName(VColl(ck, []))
    case DictType(mk) => ClassName(VDict(mk, []))
    case ClassType(n) => n
  }

  /** `isinstance(v, k)`: bool is a subclass of int, and the dict variants of dict. */
  predicate IsInstance(v: Value, k: PrimKind) {
    match k
    case NoneType => v.VNone?
    case BoolType => v.VBool?
    case IntType => v.VInt? || v.VBool?
    case StrType => v.VStr?
    case BytesType => v.VBytes?
    case ByteArrayType => v.VByteArray?
    case CollType(ck) => v.VColl? && v.ck == ck
    case DictType(mk) => v.VDict? && (mk == Dict || v.mk == mk)
    case ClassType(n) => v.VObj? && v.cls == n
  }

  /** Shapes with a generic origin (`typing.get_origin(hint)` is a class or special form). */
  predicate HasOrigin(s: Shape) {
    s.SeqOf? || s.MapOf? || s.TupleFixed? || s.TupleVar? || s.Other?
  }

  /** `isinstance(v, get_origin(s))` for an origin that is a class. */
  predicate OriginAdmits(v: Value, s: Shape)
    requires HasOrigin(s)
  {
    match s
    case SeqOf(k, _) => IsInstance(v, CollType(k))
    case MapOf(mk, _) => IsInstance(v, DictType(mk))
    case Other(o, _) => o.isType && TagOf(v) in o.instances
    case _ => IsInstance(v, CollType(Tuple))
  }

  /** A foreign constructor call: `hint(value)` for a class, `origin(items)` for a container. */
  datatype Ctor = PrimCtor(kind: PrimKind) | OriginCtor(origin: Origin)

  /** The constructors the caster calls: the value built, or the exception they raised. */
  type Converter = (Ctor, Value) -> Result<Value, Exc>

  /**
   * A converter whose constructors build instances of their class, and whose container
   * constructors never return None.
   */
  ghost predicate WellBehaved(conv: Converter) {
    && (forall k, x :: conv(PrimCtor(k), x).Ok? ==> IsInstance(conv(PrimCtor(k), x).value, k))
    && (forall o, x :: conv(OriginCtor(o), x).Ok? ==>
          TagOf(conv(OriginCtor(o), x).value) in o.instances && conv(OriginCtor(o), x).value != VNone)
  }
}

=== FILE: slots.dfy ===
/**
 * The class-namespace rewrite done before a record class is created: when the class or
 * one of its bases has SLOTS, the annotated field names become `__slots__` and their
 * class-level defaults move out of the namespace into `_field_defaults`, so that the
 * slot descriptors do not clash with them.
 */
module Slots {
  import opened Wrappers
  import opened Values
  import opened Shapes
  import opened Features
  import opened Fields
  import opened Hooks

  /**
   * The namespace a class statement produces: its attributes, its `__features__` entry
   * (None when the class sets none), its annotated names in order, and the
   * `_field_defaults` entry once the rewrite has made one.
   */
  class Namespace {
    var attrs: map<string, ClassAttr>
    var fieldDefaults: Option<map<string, ClassAttr>>
    const features: Option<set<Feature>>
    const annotations: seq<string>

    constructor (attrs: map<string, ClassAttr>, features: Option<set<Feature>>, annotations: seq<string>)
      ensures this.attrs == attrs && fieldDefaults == None
      ensures this.features == features && this.annotations == annotations
    {
      this.attrs := attrs;
      fieldDefaults := None;
      this.features := features;
      this.annotations := annotations;
    }
  }

  /** The flags a namespace declares, DEFAULT when it declares none. */
  function DeclaredFeatures(features: Option<set<Feature>>): set<Feature> {
    if features.Some? then features.value else DEFAULT
  }

  /** Slots apply when the class or any base that has flags has SLOTS. */
  predicate SlotsEnabled(features: Option<set<Feature>>, bases: seq<Option<set<Feature>>>) {
    SLOTS in DeclaredFeatures(features) || exists i :: 0 <= i < |bases| && bases[i].Some? && SLOTS in bases[i].value
  }

  /** The state of the annotation walk: names collected, defaults moved, what is left of the namespace. */
  datatype SlotsRun = SlotsRun(names: seq<string>, defaults: map<string, ClassAttr>, attrs: map<string, ClassAttr>)

  /** The annotation walk: every annotated name but the library's own is collected, and its default moved. */
  function CollectSlots(annotations: seq<string>, attrs: map<string, ClassAttr>): SlotsRun
    decreases |annotations|
  {
    if annotations == [] then SlotsRun([], map[], attrs)
    else
      var run := CollectSlots(annotations[..|annotations| - 1], attrs);
      var n := annotations[|annotations| - 1];
      if n in ClassnoAttrs then run
      else if n in run.attrs then SlotsRun(run.names + [n], run.defaults[n := run.attrs[n]], run.attrs - {n})
      else run.(names := run.names + [n])
  }

  /** The names as the tuple of strings stored in `__slots__`. */
  function NameTuple(names: seq<string>): (v: Value)
    ensures v.VColl? && v.ck == Tuple && |v.items| == |names|
    ensures forall i :: 0 <= i < |names| ==> v.items[i] == VStr(names[i])
  {
    VColl(Tuple, seq(|names|, i requires 0 <= i < |names| => VStr(names[i])))
  }

  /**
   * The rewritten namespace and its `_field_defaults` entry: unchanged without slots;
   * otherwise the collected defaults are removed, and `__slots__` and `_field_defaults`
   * are set only when a name was collected and `__slots__` is not already there.
   */
  function Prepared(features: Option<set<Feature>>, bases: seq<Option<set<Feature>>>, annotations: seq<string>, attrs: map<string, ClassAttr>)
    : (map<string, ClassAttr>, Option<map<string, ClassAttr>>)
  {
    if !SlotsEnabled(features, bases) then (attrs, None)
    else
      var run := CollectSlots(annotations, attrs);
      if run.names != [] && "__slots__" !in run.attrs then
        (run.attrs["__slots__" := PlainAttr(NameTuple(run.names))], Some(run.defaults))
      else (run.attrs, None)
  }

  /**
   * The walk collects exactly the non-reserved annotated names, removes exactly those of
   * them the namespace defines, and records each removed entry as that name's default.
   */
  lemma {:induction false} CollectSlotsMoves(annotations: seq<string>, attrs: map<string, ClassAttr>)
    ensures var run := CollectSlots(annotations, attrs);
      && (forall n :: n in run.names <==> n in annotations && n !in ClassnoAttrs)
      && |run.names| <= |annotations|
      && (forall k :: k in run.attrs <==> k in attrs && k !in run.names)
      && (forall k :: k in run.attrs ==> run.attrs[k] == attrs[k])
      && (forall k :: k in run.defaults <==> k in attrs && k in run.names)
      && (forall k :: k in run.defaults ==> run.defaults[k] == attrs[k])
    decreases |annotations|
  {
    if annotations != [] {
      var init := annotations[..|annotations| - 1];
      CollectSlotsMoves(init, attrs);
      assert annotations == init + [annotations[|annotations| - 1]];
    }
  }

  /** Without SLOTS on the class or a base, the namespace is left exactly as it was. */
  lemma SlotsOffUnchanged(features: Option<set<Feature>>, bases: seq<Option<set<Feature>>>, annotations: seq<string>, attrs: map<string, ClassAttr>)
    requires SLOTS !in DeclaredFeatures(features)
    requires forall i :: 0 <= i < |bases| ==> bases[i].None? || SLOTS !in bases[i].value
    ensures Prepared(features, bases, annotations, attrs) == (attrs, None)
  {
  }

  /**
   * With slots, an entry not collected survives unchanged, a collected field's entry is
   * gone (unless it is `__slots__` itself), and `__slots__` names the collected fields in
   * annotation order exactly when some field was collected and the class had no
   * `__slots__` of its own.
   */
  lemma SlotsOnRewrites(features: Option<set<Feature>>, bases: seq<Option<set<Feature>>>, annotations: seq<string>, attrs: map<string, ClassAttr>)
    requires SlotsEnabled(features, bases)
    requires "__slots__" !in annotations
    ensures var run := CollectSlots(annotations, attrs);
      var (out, defaults) := Prepared(features, bases, annotations, attrs);
      && (forall k :: k in attrs && k !in run.names ==> k in out && out[k] == attrs[k])
      && (forall k :: k in run.names ==> k !in out)
      && (defaults.Some? <==> run.names != [] && "__slots__" !in attrs)
      && (defaults.Some? ==> out["__slots__"] == PlainAttr(NameTuple(run.names)) && out.Keys == run.attrs.Keys + {"__slots__"})
      && (defaults.Some? ==> forall k :: k in defaults.value <==> k in attrs && k in run.names)
      && (defaults.None? ==> out == run.attrs)
  {
    CollectSlotsMoves(annotations, attrs);
  }

  /**
   * `_prepare_slots_for_class`: the namespace is rewritten in place as `Prepared` says,
   * walking the annotations once.
   */
  method PrepareSlots(ns: Namespace, bases: seq<Option<set<Feature>>>)
    modifies ns
    ensures ns.attrs == Prepared(ns.features, bases, ns.annotations, old(ns.attrs)).0
    ensures ns.fieldDefaults == if Prepared(ns.features, bases, ns.annotations, old(ns.attrs)).1.Some?
      then Prepared(ns.features, bases, ns.annotations, old(ns.attrs)).1 else old(ns.fieldDefaults)
  {
    var features := DeclaredFeatures(ns.features);
    var parentHasSlots := exists i :: 0 <= i < |bases| && bases[i].Some? && SLOTS in bases[i].value;
    if SLOTS !in features && !parentHasSlots {
      return;
    }
    var annotations := ns.annotations;
    var names: seq<string> := [];
    var defaults: map<string, ClassAttr> := map[];
    var i := 0;
    while i < |annotations|
      invariant i <= |annotations|
      invariant CollectSlots(annotations[..i], old(ns.attrs)) == SlotsRun(names, defaults, ns.attrs)
      invariant ns.fieldDefaults == old(ns.fieldDefaults)
    {
      var n := annotations[i];
      assert annotations[..i + 1][..i] == annotations[..i];
      if n !in ClassnoAttrs {
        names := names + [n];
        if n in ns.attrs {
          defaults := defaults[n := ns.attrs[n]];
          ns.attrs := ns.attrs - {n};
        }
      }
      i := i + 1;
    }
    assert annotations[..i] == annotations;
    if names != [] && "__slots__" !in ns.attrs {
      ns.attrs := ns.attrs["__slots__" := PlainAttr(NameTuple(names))];
      ns.fieldDefaults := Some(defaults);
    }
  }

  /** The member descriptor a `__slots__` entry puts on the class. */
  const SlotDescriptor: Value := VObj("member_descriptor", 0)

  /**
   * What `getattr(cls, name)` sees once the class exists: the rewritten namespace, with a
   * slot descriptor under every collected name when `__slots__` was set from them.
   */
  function ClassView(features: Option<set<Feature>>, bases: seq<Option<set<Feature>>>, annotations: seq<string>, attrs: map<string, ClassAttr>)
    : (view: map<string, ClassAttr>)
    ensures Prepared(features, bases, annotations, attrs).1.Some? ==>
      forall n :: n in CollectSlots(annotations, attrs).names ==> n in view && view[n] == PlainAttr(SlotDescriptor)
  {
    var (out, defaults) := Prepared(features, bases, annotations, attrs);
    if defaults.None? then out
    else out + map n | n in CollectSlots(annotations, attrs).names :: PlainAttr(SlotDescriptor)
  }

  /** One annotated name whose class attribute is a plain immutable value gets that value as its default. */
  lemma OnePlainField(n: string, sh: Shape, attrs: map<string, ClassAttr>, v: Value)
    requires n !in ClassnoAttrs && n in attrs && attrs[n] == PlainAttr(v) && !Mutable(v)
    ensures FieldTable([(n, sh)], attrs) == Ok([Field(Some(n), Some(sh), Some(v), None, map[])])
  {
    var hs := [(n, sh)];
    assert hs[..|hs| - 1] == [] && hs[|hs| - 1] == (n, sh);
    var f := Field(None, None, Some(v), None, map[]);
    assert DeclaredField(n, attrs) == Ok(f);
    var g := f.(name := Some(n), hint := Some(sh));
    assert FieldTable(hs, attrs) == Ok([] + [g]);
    assert [] + [g] == [g] && g == Field(Some(n), Some(sh), Some(v), None, map[]);
  }

  /**
   * As written, `set_fields` reads the class, so a slotted field with a plain default
   * (`count: int = 0`) gets the slot descriptor as its default instead.
   */
  lemma SlotsLoseDefault(n: string, sh: Shape, v: Value)
    requires n !in ClassnoAttrs && n != "__slots__" && !Mutable(v)
    ensures FieldTable([(n, sh)], map[n := PlainAttr(v)]) == Ok([Field(Some(n), Some(sh), Some(v), None, map[])])
    ensures FieldTable([(n, sh)], ClassView(Some({SLOTS}), [], [n], map[n := PlainAttr(v)])) ==
      Ok([Field(Some(n), Some(sh), Some(SlotDescriptor), None, map[])])
  {
    var attrs := map[n := PlainAttr(v)];
    OnePlainField(n, sh, attrs, v);
    assert [n][..|[n]| - 1] == [];
    assert CollectSlots([n], attrs) == SlotsRun([n], attrs, map[]);
    var view := ClassView(Some({SLOTS}), [], [n], attrs);
    assert view[n] == PlainAttr(SlotDescriptor);
    OnePlainField(n, sh, view, SlotDescriptor);
  }

  /**
   * The lookup `set_fields` evidently means: a collected name reads its moved default from
   * `_field_defaults`, and is missing when it had none; every other name reads the class.
   */
  function FieldView(features: Option<set<Feature>>, bases: seq<Option<set<Feature>>>, annotations: seq<string>, attrs: map<string, ClassAttr>)
    : map<string, ClassAttr>
  {
    if !SlotsEnabled(features, bases) then attrs
    else
      var run := CollectSlots(annotations, attrs);
      var out := Prepared(features, bases, annotations, attrs).0;
      (out - set n | n in run.names) + run.defaults
  }

  /** Through that lookup, the rewrite hides nothing from `set_fields`: each name but `__slots__` reads as it was declared. */
  lemma FieldViewRestores(features: Option<set<Feature>>, bases: seq<Option<set<Feature>>>, annotations: seq<string>, attrs: map<string, ClassAttr>, n: string)
    requires n != "__slots__"
    ensures var view := FieldView(features, bases, annotations, attrs);
      (n in view <==> n in attrs) && (n in view ==> view[n] == attrs[n])
  {
    CollectSlotsMoves(annotations, attrs);
  }

  /** So with that lookup the field table is the one the class would have had without slots. */
  lemma {:induction false} SlotsKeepFieldTable(features: Option<set<Feature>>, bases: seq<Option<set<Feature>>>, annotations: seq<string>, attrs: map<string, ClassAttr>, hints: seq<(string, Shape)>)
    requires forall i :: 0 <= i < |hints| ==> hints[i].0 != "__slots__"
    ensures FieldTable(hints, FieldView(features, bases, annotations, attrs)) == FieldTable(hints, attrs)
    decreases |hints|
  {
    if hints != [] {
      var n := hints[|hints| - 1].0;
      SlotsKeepFieldTable(features, bases, annotations, attrs, hints[..|hints| - 1]);
      FieldViewRestores(features, bases, annotations, attrs, n);
      assert DeclaredField(n, FieldView(features, bases, annotations, attrs)) == DeclaredField(n, attrs);
    }
  }
}

=== FILE: validation.dfy ===
/**
 * The validating walk: does a runtime value already have a declared shape? Every check
 * either accepts or raises a TypeError; the Verdict keeps the reason a rejection carries.
 */
module Validation {
  import opened Values
  import opened Shapes
  import opened Errors

  datatype Verdict = Accept | Reject(reason: TypeReason)

  /** The dispatcher: forward reference, union, simple class, generic with an origin. */
  function Validate(v: Value, s: Shape): Verdict
    decreases s, 3
  {
    match s
    case SelfRef(n) => if ClassName(v) == n then Accept else Reject(Mismatch)
    case Union(_) => ValidateUnion(v, s, 0)
    case Prim(k) => if IsInstance(v, k) then Accept else Reject(Mismatch)
    case _ => ValidateWithOrigin(v, s)
  }

  /** Members are tried in declared order; the union fails with a bare TypeError. */
  function ValidateUnion(v: Value, s: Shape, i: nat): (r: Verdict)
    requires s.Union? && i <= |s.members|
    ensures r.Accept? <==> exists j :: i <= j < |s.members| && Validate(v, s.members[j]).Accept?
    ensures r.Reject? ==> r.reason == Mismatch
    decreases s, 2, |s.members| - i
  {
    if i == |s.members| then Reject(Mismatch)
    else if Validate(v, s.members[i]).Accept? then Accept
    else ValidateUnion(v, s, i + 1)
  }

  /** First the runtime class against the origin, then the elements through its handler. */
  function ValidateWithOrigin(v: Value, s: Shape): Verdict
    requires HasOrigin(s)
    decreases s, 2
  {
    match s
    case Other(o, e) =>
      if !o.isType then Reject(NotAType)
      else if TagOf(v) !in o.instances then Reject(Mismatch)
      else if o.iterable && !o.textual then
        match Iterate(v)
        case None => Reject(NotIterable)
        case Some(xs) => ValidateEach(xs, e)
      else Reject(NoHandler(o.name))
    case SeqOf(_, e) => if !OriginAdmits(v, s) then Reject(Mismatch) else ValidateEach(v.items, e)
    case TupleVar(e) => if !OriginAdmits(v, s) then Reject(Mismatch) else ValidateEach(v.items, e)
    case TupleFixed(ts) =>
      if !OriginAdmits(v, s) then Reject(Mismatch)
      else if |ts| != |v.items| then Reject(Mismatch)
      else ValidateZip(v.items, s, 0)
    case MapOf(_, _) => if !OriginAdmits(v, s) then Reject(Mismatch) else ValidateDict(v.entries, s)
  }

  /** Every element against one shape; the first failure is the one raised. */
  function ValidateEach(xs: seq<Value>, e: Shape): (r: Verdict)
    ensures r.Accept? <==> forall i :: 0 <= i < |xs| ==> Validate(xs[i], e).Accept?
    decreases e, 4, |xs|
  {
    if xs == [] then Accept
    else match Validate(xs[0], e)
      case Reject(why) => Reject(why)
      case Accept => ValidateEach(xs[1..], e)
  }

  /** Position-wise check of a fixed tuple whose length already matches. */
  function ValidateZip(xs: seq<Value>, s: Shape, i: nat): (r: Verdict)
    requires s.TupleFixed? && |xs| == |s.elems| && i <= |xs|
    ensures r.Accept? <==> forall j :: i <= j < |xs| ==> Validate(xs[j], s.elems[j]).Accept?
    decreases s, 1, |xs| - i
  {
    if i == |xs| then Accept
    else match Validate(xs[i], s.elems[i])
      case Reject(why) => Reject(why)
      case Accept => ValidateZip(xs, s, i + 1)
  }

  /**
   * All keys by direct class membership, then all values recursively; a one-argument
   * mapping (Counter) has int values, a bare mapping accepts anything.
   */
  function ValidateDict(es: seq<(Value, Value)>, s: Shape): Verdict
    requires s.MapOf?
    decreases s, 1
  {
    match s.args
    case NoArgs => Accept
    case KeyOnly(ks) =>
      (match CheckKeys(Keys(es), ks)
       case Reject(why) => Reject(why)
       case Accept => CheckInts(Vals(es)))
    case KeyVal(ks, vs) =>
      (match CheckKeys(Keys(es), ks)
       case Reject(why) => Reject(why)
       case Accept => ValidateEach(Vals(es), vs))
  }

  /**
   * `isinstance(key, keys_type)`: a class, or a union of plain classes; anything else makes
   * isinstance() raise.
   */
  function KeyIsInstance(k: Value, ks: Shape): Verdict {
    match ks
    case Prim(pk) => if IsInstance(k, pk) then Accept else Reject(Mismatch)
    case Union(ms) =>
      if forall m | m in ms :: m.Prim? then
        if exists m | m in ms :: m.Prim? && IsInstance(k, m.kind) then Accept else Reject(Mismatch)
      else Reject(NotAType)
    case _ => Reject(NotAType)
  }

  function CheckKeys(keys: seq<Value>, ks: Shape): (r: Verdict)
    ensures r.Accept? <==> forall i :: 0 <= i < |keys| ==> KeyIsInstance(keys[i], ks).Accept?
  {
    if keys == [] then Accept
    else match KeyIsInstance(keys[0], ks)
      case Reject(why) => Reject(why)
      case Accept => CheckKeys(keys[1..], ks)
  }

  function CheckInts(vals: seq<Value>): (r: Verdict)
    ensures r.Accept? <==> forall i :: 0 <= i < |vals| ==> IsInstance(vals[i], IntType)
  {
    if vals == [] then Accept
    else if !IsInstance(vals[0], IntType) then Reject(Mismatch)
    else CheckInts(vals[1..])
  }

  /** A union accepts iff some member accepts; a rejection is the bare TypeError. */
  lemma UnionAcceptsIffSomeMember(v: Value, ms: seq<Shape>)
    ensures Validate(v, Union(ms)).Accept? <==> exists j :: 0 <= j < |ms| && Validate(v, ms[j]).Accept?
    ensures Validate(v, Union(ms)) != Accept ==> Validate(v, Union(ms)) == Reject(Mismatch)
  {
  }

  /**
   * A container shape checks the runtime class first: a value that is not an instance of
   * the origin is rejected before any element is looked at (a list against `frozenset[int]`).
   */
  lemma ContainerKindFirst(v: Value, s: Shape)
    requires s.SeqOf? || s.MapOf? || s.TupleFixed? || s.TupleVar?
    requires !OriginAdmits(v, s)
    ensures Validate(v, s) == Reject(Mismatch)
  {
  }

  /** The elements of a list, set, frozenset or deque are each checked against the element shape. */
  lemma CollectionElements(k: SeqKind, xs: seq<Value>, e: Shape)
    ensures Validate(VColl(k, xs), SeqOf(k, e)).Accept? <==> forall i :: 0 <= i < |xs| ==> Validate(xs[i], e).Accept?
  {
  }

  /**
   * A fixed tuple of the wrong length is rejected; otherwise position `i` is checked against
   * the `i`-th shape. `Tuple[T, ...]` checks every element against `T`, at any length.
   */
  lemma TupleValidation(xs: seq<Value>, ts: seq<Shape>, e: Shape)
    ensures |xs| != |ts| ==> Validate(VColl(Tuple, xs), TupleFixed(ts)) == Reject(Mismatch)
    ensures |xs| == |ts| ==>
      (Validate(VColl(Tuple, xs), TupleFixed(ts)).Accept? <==> forall i :: 0 <= i < |xs| ==> Validate(xs[i], ts[i]).Accept?)
    ensures Validate(VColl(Tuple, xs), TupleVar(e)).Accept? <==> forall i :: 0 <= i < |xs| ==> Validate(xs[i], e).Accept?
  {
  }

  /**
   * A mapping of the right class: with no type arguments anything is accepted; keys are
   * checked by direct class membership only (a generic key shape makes isinstance() raise);
   * values are checked recursively, and a one-argument mapping (Counter) has int values.
   */
  lemma MapValidation(es: seq<(Value, Value)>, mk: MapKind, args: MapArgs)
    ensures Validate(VDict(mk, es), MapOf(mk, NoArgs)) == Accept
    ensures args.KeyOnly? ==> (Validate(VDict(mk, es), MapOf(mk, args)).Accept? <==>
      (forall i :: 0 <= i < |es| ==> KeyIsInstance(es[i].0, args.key).Accept?) &&
      (forall i :: 0 <= i < |es| ==> IsInstance(es[i].1, IntType)))
    ensures args.KeyVal? ==> (Validate(VDict(mk, es), MapOf(mk, args)).Accept? <==>
      (forall i :: 0 <= i < |es| ==> KeyIsInstance(es[i].0, args.key).Accept?) &&
      (forall i :: 0 <= i < |es| ==> Validate(es[i].1, args.val).Accept?))
    ensures forall k, pk :: KeyIsInstance(k, Prim(pk)).Accept? <==> IsInstance(k, pk)
    ensures forall k, sk, e :: KeyIsInstance(k, SeqOf(sk, e)) == Reject(NotAType)
  {
    var s := MapOf(mk, args);
    assert Validate(VDict(mk, es), s) == ValidateDict(es, s);
    if args.KeyOnly? {
      assert ValidateDict(es, s).Accept? <==> CheckKeys(Keys(es), args.key).Accept? && CheckInts(Vals(es)).Accept?;
    } else if args.KeyVal? {
      assert ValidateDict(es, s).Accept? <==> CheckKeys(Keys(es), args.key).Accept? && ValidateEach(Vals(es), args.val).Accept?;
    }
  }

  /** A self reference accepts exactly the values whose class has the referenced name. */
  lemma SelfRefByName(v: Value, n: string)
    ensures Validate(v, SelfRef(n)).Accept? <==> ClassName(v) == n
  {
  }

  /**
   * A generic whose origin has no handler: an iterable, non-text origin has its elements
   * checked like a collection; any other origin is rejected with "no validation handler".
   */
  lemma UnknownOriginFallback(v: Value, o: Origin, e: Shape)
    requires o.isType && TagOf(v) in o.instances
    ensures o.iterable && !o.textual ==>
      (Validate(v, Other(o, e)).Accept? <==> Iterate(v).Some? && forall i :: 0 <= i < |Iterate(v).value| ==> Validate(Iterate(v).value[i], e).Accept?)
    ensures !(o.iterable && !o.textual) ==> Validate(v, Other(o, e)) == Reject(NoHandler(o.name))
  {
  }
}

=== FILE: values.dfy ===
/**
 * The runtime values a record field can hold, as far as the shape engine looks at them:
 * the absence marker, booleans, integers, text, byte strings, the built-in containers,
 * and instances of user classes (known by class name and identity only).
 */
module Values {
  import opened Wrappers

  /** Dynamically sized containers (list, set, frozenset, deque) and the tuple. */
  datatype CollKind = List | Set | FrozenSet | Deque | Tuple

  /** dict and its three subclasses. */
  datatype MapKind = Dict | DefaultDict | OrderedDict | Counter

  datatype Value =
    | VNone
    | VBool(b: bool)
    | VInt(i: int)
    | VStr(s: string)
    | VBytes(data: seq<int>)
    | VByteArray(data: seq<int>)
    | VColl(ck: CollKind, items: seq<Value>)
    | VDict(mk: MapKind, entries: seq<(Value, Value)>)
    | VObj(cls: string, id: nat)

  /** The exact runtime class of a value. */
  datatype Tag =
    | NoneTag | BoolTag | IntTag | StrTag | BytesTag | ByteArrayTag
    | CollTag(ck: CollKind) | DictTag(mk: MapKind) | ObjTag(cls: string)

  function TagOf(v: Value): Tag {
    match v
    case VNone => NoneTag
    case VBool(_) => BoolTag
    case VInt(_) => IntTag
    case VStr(_) => StrTag
    case VBytes(_) => BytesTag
    case VByteArray(_) => ByteArrayTag
    case VColl(ck, _) => CollTag(ck)
    case VDict(mk, _) => DictTag(mk)
    case VObj(c, _) => ObjTag(c)
  }

  /** `value.__class__.__name__`. */
  function ClassName(v: Value): string {
    match v
    case VNone => "NoneType"
    case VBool(_) => "bool"
    case VInt(_) => "int"
    case VStr(_) => "str"
    case VBytes(_) => "bytes"
    case VByteArray(_) => "bytearray"
    case VColl(List, _) => "list"
    case VColl(Set, _) => "set"
    case VColl(FrozenSet, _) => "frozenset"
    case VColl(Deque, _) => "deque"
    case VColl(Tuple, _) => "tuple"
    case VDict(Dict, _) => "dict"
    case VDict(DefaultDict, _) => "defaultdict"
    case VDict(OrderedDict, _) => "OrderedDict"
    case VDict(Counter, _) => "Counter"
    case VObj(c, _) => c
  }

  function Keys(entries: seq<(Value, Value)>): (ks: seq<Value>)
    ensures |ks| == |entries|
    ensures forall i :: 0 <= i < |entries| ==> ks[i] == entries[i].0
  {
    seq(|entries|, i requires 0 <= i < |entries| => entries[i].0)
  }

  function Vals(entries: seq<(Value, Value)>): (vs: seq<Value>)
    ensures |vs| == |entries|
    ensures forall i :: 0 <= i < |entries| ==> vs[i] == entries[i].1
  {
    seq(|entries|, i requires 0 <= i < |entries| => entries[i].1)
  }

  /**
   * What `for el in value` visits: container elements, the keys of a dict, one-character
   * strings of a str, the integers of a byte string. None means the value is not iterable
   * (and has no len()).
   */
  function Iterate(v: Value): Option<seq<Value>> {
    match v
    case VColl(_, xs) => Some(xs)
    case VDict(_, es) => Some(Keys(es))
    case VStr(s) => Some(seq(|s|, i requires 0 <= i < |s| => VStr([s[i]])))
    case VBytes(d) => Some(seq(|d|, i requires 0 <= i < |d| => VInt(d[i])))
    case VByteArray(d) => Some(seq(|d|, i requires 0 <= i < |d| => VInt(d[i])))
    case _ => None
  }

  /** Whether `hash(value)` succeeds: list, set, deque, dict and bytearray are unhashable. */
  predicate Hashable(v: Value) {
    match v
    case VByteArray(_) => false
    case VColl(ck, xs) =>
      if ck == Tuple then forall x | x in xs :: Hashable(x)
      else ck == FrozenSet
    case VDict(_, _) => false
    case _ => true
  }

  predicate AllHashable(xs: seq<Value>) {
    forall x | x in xs :: Hashable(x)
  }

  /** No value occurs twice: the element sequence of a set, the key sequence of a dict. */
  predicate Distinct(xs: seq<Value>) {
    forall i, j :: 0 <= i < j < |xs| ==> xs[i] != xs[j]
  }

  /** `s.add(x)`: a set keeps its first copy of an element. */
  function SetAdd(acc: seq<Value>, x: Value): (r: seq<Value>)
    ensures forall y :: y in r <==> y in acc || y == x
    ensures Distinct(acc) ==> Distinct(r)
  {
    if x in acc then acc else acc + [x]
  }

  /** `set(xs)`: the distinct elements of `xs`, in first-occurrence order. */
  function SetOf(xs: seq<Value>): (r: seq<Value>)
    ensures forall x :: x in r <==> x in xs
    ensures Distinct(r)
    decreases |xs|
  {
    if xs == [] then [] else SetAdd(SetOf(xs[..|xs| - 1]), xs[|xs| - 1])
  }

  /** `d[k] = x`: an existing key keeps its position and takes the new value. */
  function DictSet(entries: seq<(Value, Value)>, k: Value, x: Value): (r: seq<(Value, Value)>)
    ensures Keys(r) == if k in Keys(entries) then Keys(entries) else Keys(entries) + [k]
    ensures (k, x) in r
    ensures forall e :: e in r ==> e == (k, x) || e in entries
    ensures Distinct(Keys(entries)) ==> Distinct(Keys(r))
  {
    if k in Keys(entries) then
      var r := entries[KeyIndex(entries, k) := (k, x)];
      assert Keys(r) == Keys(entries);
      r
    else
      var r := entries + [(k, x)];
      assert Keys(r) == Keys(entries) + [k];
      r
  }

  /** Setting a hashable key keeps a dict's keys distinct and hashable. */
  lemma DictSetKeys(entries: seq<(Value, Value)>, k: Value, x: Value)
    requires Distinct(Keys(entries)) && AllHashable(Keys(entries)) && Hashable(k)
    ensures Distinct(Keys(DictSet(entries, k, x))) && AllHashable(Keys(DictSet(entries, k, x)))
  {
    var ks := Keys(DictSet(entries, k, x));
    forall y | y in ks ensures Hashable(y) {
      if y != k {
        assert y in Keys(entries);
      }
    }
  }

  /** The position of the first entry whose key is `k`. */
  function KeyIndex(entries: seq<(Value, Value)>, k: Value): (i: nat)
    requires k in Keys(entries)
    ensures i < |entries| && entries[i].0 == k
    ensures forall j :: 0 <= j < i ==> entries[j].0 != k
  {
    if entries[0].0 == k then 0
    else
      assert Keys(entries)[1..] == Keys(entries[1..]);
      1 + KeyIndex(entries[1..], k)
  }

  /** ASCII lower-casing; the characters that `str.lower` maps into ASCII letters are ASCII. */
  function LowerChar(c: char): char {
    if 'A' <= c <= 'Z' then (c as int + 32) as char else c
  }

  function Lower(s: string): (r: string)
    ensures |r| == |s|
    ensures forall i :: 0 <= i < |s| ==> r[i] == LowerChar(s[i])
  {
    seq(|s|, i requires 0 <= i < |s| => LowerChar(s[i]))
  }

  predicate StartsWithUnderscore(name: string) {
    |name| > 0 && name[0] == '_'
  }

  /** `name[1:]`, which is empty for the empty name. */
  function DropFirst(name: string): string {
    if |name| == 0 then "" else name[1..]
  }
}

=== FILE: wrappers.dfy ===
/** Option and Result: absence made explicit, and Python's raise-or-return made a value. */
module Wrappers {

  datatype Option<+T> = None | Some(value: T)

  datatype Result<+T, +E> = Ok(value: T) | Err(error: E)
}
